=== FILE: README.md ===
# Mako framework core pieces in Dafny

A Dafny model of four self-contained parts of the Mako PHP framework,
with proofs of the behaviour their code and documentation promise.

- **The middleware stack** (`Onion`, src/mako/onion/Onion.php).
  - An ordered list of middleware class names. Inner insertions go to the
    front and outer insertions to the back.
  - Registration-time parameters per class, merged with call-time
    parameters; the call-time keys win.
  - A factory that resolves each class through a container. It hands the
    parameters over either to the constructor or through a setter, and it
    can enforce an expected interface.
  - `peel`, which wraps the decorated object in one closure per layer and
    calls the outermost.
  - The container is a function parameter. A middleware's `execute` is one
    of three behaviours: pass the call on, answer (return or throw) without
    calling `$next`, or transform the arguments and then the result, which
    may throw. The decorated object and the parameter setters may throw as
    well. Every run yields its result (or the exception) together with a
    trace of events: classes resolved, setters called, layers entered and
    left, and calls of the decorated object.
- **Confirmation prompts** (`Confirmation`,
  src/mako/cli/input/helpers/Confirmation.php).
  - Option keys are lower-cased. The option list is shown with the default
    upper-cased.
  - An empty answer means the default. The question is asked again until
    an answer names an option.
  - The terminal is replaced by a sequence of typed lines.
- **Norwegian plurals** (`Inflection`, app/i18n/no_NO/inflection.php).
  - The table of irregular words and the two suffix rules.
  - The rules' regular expressions are modelled with PCRE's meaning of `$`,
    which also matches before a final newline.
  - `/e$/i` has no `u` modifier, so PCRE compares bytes and only 'e' and 'E'
    can match; the model matches exactly these two.
  - The `pluralize` closure applies the first matching rule.
- **URL building** (`UrlBuilder`, src/mako/http/routing/URLBuilder.php).
  - The language prefix, the remembered base URL, `to`, `toRoute`,
    `current` and the three `…Language` variants.
  - `toRoute`'s two regular-expression replacements are modelled on
    strings, as they scan for parameter names taken literally and values
    used verbatim. This is exact for names of word characters and values
    without `$` or `\`.
  - `RouteTemplate` describes route patterns as tokens: literal text,
    `{name}` and `/{name}?`. It proves that the string substitution and
    stripping compute what the tokens mean.

Shared support:
- `Php`: scalar values, `empty()`, string conversion, ASCII case maps and
  `trim`.
- `PhpArray`: ordered arrays with string keys, with lookup, assignment and
  union `+`.
- `Wrappers`: `Option` and `Result`.
- `Sequences`: concatenation facts, subsequences, and the distinct elements of a sequence in the order of their first occurrence.

## Model

| member | source | states |
|---|---|---|
| Onion.New | src/mako/onion/Onion.php:72-81 | a new stack has no layers and no parameters; the method defaults to "handle"; the expected interface and the parameter setter are kept as given; whatever insertions follow, the stack holds the inner ones in reverse call order, then the outer ones in call order |
| Onion.AddLayer | src/mako/onion/Onion.php:91-96 | the class goes to index 0 (inner) or to the end (outer); the new length is returned; the multiset of layers grows by that class; its parameters are replaced, even by null; no other class's parameters and no configuration change |
| Onion.AddInnerLayer | src/mako/onion/Onion.php:105-108 | the class is put in front of the existing layers and the new length is returned |
| Onion.AddOuterLayer | src/mako/onion/Onion.php:117-120 | the class is put after the existing layers and the new length is returned |
| Onion.AddAllOrder | src/mako/onion/Onion.php:91-120 | after any sequence of insertions: the inner ones in reverse call order, then the layers already there, then the outer ones in call order |
| Onion.InnerOnlyReverses | src/mako/onion/Onion.php:105-108 | inner insertions alone put the classes in reverse call order in front of the existing layers |
| Onion.OuterOnlyKeepsOrder | src/mako/onion/Onion.php:117-120 | outer insertions alone append the classes in call order |
| Onion.InnerInsertionsReverse | src/mako/onion/Onion.php:105-108 | inner insertions of a, b, c give [c, b, a] |
| Onion.OuterInsertionsKeepOrder | src/mako/onion/Onion.php:117-120 | outer insertions of a, b, c give [a, b, c] |
| Onion.MixedInsertions | src/mako/onion/Onion.php:91-120 | outer a, inner b, outer c give [b, a, c] |
| Onion.AddAllParameters | src/mako/onion/Onion.php:93 | each class keeps the parameters of its most recent registration |
| Onion.MiddlewareParameters | src/mako/onion/Onion.php:160-163 | a key given at call time takes the call-time value, any other key the registered one; the keys are the union of both; no parameters anywhere gives an empty array |
| Onion.ParameterPrecedenceExample | src/mako/onion/Onion.php:160-163 | {x:1, y:2} registered and {y:3, z:4} at call time give y:3, z:4, x:1 in that order |
| Onion.Factory | src/mako/onion/Onion.php:172-199 | the build succeeds exactly when the container resolves the class, the interface check passes and, in setter mode, the setter call returns; the instance is the one the container returned; the container is asked first |
| Onion.FactoryEvents | src/mako/onion/Onion.php:176-194 | constructor mode passes the effective parameters to the container; setter mode passes none and calls the setter once with them, only after the interface check, and an exception of the setter (or a missing setter) is the factory's; an unresolvable class and a failed check are raised before any setter call; a failed check raises the exception whose message names the expected interface, worded as in the source |
| Onion.FactoryDelivers | src/mako/onion/Onion.php:176-194 | a built middleware receives the effective parameters, whichever way they are injected |
| Onion.ModesDeliverSameParameters | src/mako/onion/Onion.php:180-194 | constructor injection and setter injection deliver the same parameters |
| Onion.FactoryResolvesOnce | src/mako/onion/Onion.php:180 | the factory asks the container exactly once, for its own class |
| Onion.MaterializeSpec | src/mako/onion/Onion.php:213-218 | building the layers succeeds exactly when the factory accepts every class; it then yields one instance per class, in order, as the container resolved it |
| Onion.MaterializeOrder | src/mako/onion/Onion.php:213-218 | when every class can be built, the classes are resolved innermost first, in the order of the layer list, each exactly once |
| Onion.Materialize | src/mako/onion/Onion.php:213-218 | building the layers records only resolutions and setter calls |
| Onion.WrapLast | src/mako/onion/Onion.php:211-218 | the chain over layers 0..i is layer i wrapped around the chain over layers 0..i-1 |
| Onion.WrapSplit | src/mako/onion/Onion.php:211-218 | wrapping in two batches equals wrapping once |
| Onion.RunThroughResult | src/mako/onion/Onion.php:145-151 | through layers that all call `$next`, the arguments pass every `before` outermost first; a returned value passes every `after` innermost first, the first exception stopping it; an exception from inside passes unchanged |
| Onion.RunThroughTrace | src/mako/onion/Onion.php:211-220 | such layers are entered from the last added to the first; the decorated object is called only by the innermost closure |
| Onion.Run | src/mako/onion/Onion.php:128-151 | calling a closure of the chain builds nothing: every event of a run is a layer entered or left or a call of the decorated object |
| Onion.ShortCircuitStopsRun | src/mako/onion/Onion.php:145-151 | a layer that never calls `$next` stops the run: no inner layer and no decorated object runs; a value it returns passes back through the outer layers' `after`s, an exception it throws passes through them unchanged |
| Onion.CoreRunsOnceUnlessShortCircuited | src/mako/onion/Onion.php:128-151 | the core closure is called exactly once, with the arguments as every layer passed them on, when no layer stops the call, and never otherwise |
| Onion.PeelWithoutLayers | src/mako/onion/Onion.php:128-136 | with no layers, `peel` is one call of the core closure: a closure target is called with the arguments, an object target has the configured method called, and a missing method is an error; its value or exception is the result |
| Onion.Peel | src/mako/onion/Onion.php:209-221 | `peel` returns a value only when every layer could be built; every layer is built before any layer runs |
| Onion.PeelSplit | src/mako/onion/Onion.php:209-221 | when every layer can be built, `peel` is all factory events, then a run of the chain of built instances |
| Onion.PeelBuildsBeforeRunning | src/mako/onion/Onion.php:209-221 | every layer is built, innermost first and each once, before any layer runs |
| Onion.PeelRunsOutermostFirst | src/mako/onion/Onion.php:209-221 | without a stopping layer, the layers are entered in reverse list order and the decorated object runs once |
| Onion.RejectedLayerStopsPeel | src/mako/onion/Onion.php:184-220 | if any class cannot be resolved, fails the interface check or has a setter that throws, `peel` raises; no layer and no decorated object runs |
| Onion.FirstRejectedLayerStopsPeel | src/mako/onion/Onion.php:172-221 | when layer j is the first the factory rejects, `peel` raises that layer's exception; the container has been asked for layers 0..j, in order and each once, and for no later layer; no layer and no decorated object runs |
| Onion.PeelOneLayer | src/mako/onion/Onion.php:209-221 | with one accepted layer, `peel` is that class's factory events, then a run of the layer around the core |
| Onion.SingleTransformLayer | src/mako/onion/Onion.php:145-151 | one transforming layer around a closure: entered with the arguments, the closure called with the transformed ones; a value the closure returns is transformed and the layer left; an exception it throws is the result and the layer is not left |
| Onion.SingleShortCircuitLayer | src/mako/onion/Onion.php:145-151 | one layer that answers at once: its value or exception is the result; the decorated object never runs |
| Confirmation.NormalizeKeys | src/mako/cli/input/helpers/Confirmation.php:54-64 | the result has unique keys, all lower-case |
| Confirmation.NormalizeKeysOrder | src/mako/cli/input/helpers/Confirmation.php:54-64 | keys that collide once lower-cased keep the place of the first: the keys are the distinct lower-cased input keys in the order of their first occurrence |
| Confirmation.NormalizeKeysContents | src/mako/cli/input/helpers/Confirmation.php:54-64 | the keys are exactly the lower-cased input keys; each carries the value of the last entry that lower-cases to it |
| Confirmation.NormalizeNormalized | src/mako/cli/input/helpers/Confirmation.php:54-64 | options already lower-case with unique keys are left as they are |
| Confirmation.NormalizeKeysIdempotent | src/mako/cli/input/helpers/Confirmation.php:54-64 | normalising twice is normalising once |
| Confirmation.Highlight | src/mako/cli/input/helpers/Confirmation.php:75-80 | each shown key is its option key up to case; a key other than the default is shown as it is, the default upper-cased |
| Confirmation.GetOptions | src/mako/cli/input/helpers/Confirmation.php:73-83 | when no key contains '/', splitting the list at '/' gives back the keys in order, with the default upper-cased; no options give "" |
| Confirmation.SplitJoin | src/mako/cli/input/helpers/Confirmation.php:82 | splitting what `implode('/')` joined gives back the parts, when no part holds '/' |
| Confirmation.EffectiveOptions | src/mako/cli/input/helpers/Confirmation.php:95 | no options mean {y: true, n: false}; the options in effect are always normalised |
| Confirmation.AnswerOf | src/mako/cli/input/helpers/Confirmation.php:99 | an empty line ("" or "0") means the default; the answer is lower-cased |
| Confirmation.AskRetry | src/mako/cli/input/helpers/Confirmation.php:93-107 | a line is accepted when its answer names an option whose value is not null, as `isset` demands; a line naming no option shows the prompt and then starts `ask` again with the options in effect and the rest of the lines; an accepted line shows the prompt once and returns that option's value |
| Confirmation.AskNormalizesOnce | src/mako/cli/input/helpers/Confirmation.php:95-103 | passing the already normalised options into the recursive call changes nothing |
| Confirmation.AskReturnsFirstAccepted | src/mako/cli/input/helpers/Confirmation.php:93-107 | every round shows the same prompt; an answer comes exactly when some line is accepted; it is the first accepted line's value after that many prompts; if the lines run out there is no answer |
| Confirmation.RoundsAnswer | src/mako/cli/input/helpers/Confirmation.php:101-106 | on the options in effect, the rounds yield an answer exactly when some line is accepted: the first accepted line's value, after one prompt per line read up to it; no answer after one prompt per line and a last one when none is |
| Confirmation.RoundsRepeatPrompt | src/mako/cli/input/helpers/Confirmation.php:101-106 | every round shows the same prompt |
| Confirmation.RoundsRejectThenAccept | src/mako/cli/input/helpers/Confirmation.php:101-106 | a rejected line then an accepted one give two identical prompts and the second line's value |
| Confirmation.ContinuePrompt | src/mako/cli/input/helpers/Confirmation.php:97 | " Continue?" with default "n" and no options is shown as "Continue? [y/N] " |
| Confirmation.ExampleAnswers | src/mako/cli/input/helpers/Confirmation.php:99-101 | "maybe" is rejected; an empty line is accepted as "n", i.e. false |
| Confirmation.DefaultOptionsExample | src/mako/cli/input/helpers/Confirmation.php:93-107 | the lines "maybe" then "" give two prompts "Continue? [y/N] " and the answer false |
| Inflection.MatchesEndingE | app/i18n/no_NO/inflection.php:17 | `/e$/i` matches exactly the words ending in e or E, optionally followed by one newline |
| Inflection.Replace | app/i18n/no_NO/inflection.php:57 | `preg_replace` replaces every match: `/$/` gets the replacement inserted at each position where `$` matches; `/e$/i` has the e before such a position replaced; a subject `/e$/i` does not match is unchanged |
| Inflection.ApplyFirstRuleSpec | app/i18n/no_NO/inflection.php:53-61 | `ApplyFirstRule` applies only the first matching rule; with no match the word is unchanged |
| Inflection.Pluralize | app/i18n/no_NO/inflection.php:43-66 | the integer 1 leaves the word alone; any other count gives the irregular plural if listed, otherwise the first matching rule's replacement |
| Inflection.NorwegianRules | app/i18n/no_NO/inflection.php:15-19 | the two rules, applied first-match, give the plural written out: a final e/E becomes "er", any other word gains "er"; since `$` also matches before a final newline, an e/E before that newline becomes "er" ("bile\n" gives "biler\n"), and any other word ending in a newline gains "er" both before it and at the end ("bil\n" gives "biler\ner") |
| Inflection.NorwegianRegular | app/i18n/no_NO/inflection.php:43-66 | a word not in the table gets that regular plural, for any count but 1 |
| Inflection.NorwegianIrregular | app/i18n/no_NO/inflection.php:23-38 | every listed word gets its listed plural, for any count but 1 |
| Inflection.IrregularTableUnique | app/i18n/no_NO/inflection.php:23-38 | the table lists each word once, because its words strictly ascend |
| Inflection.IrregularExamples | app/i18n/no_NO/inflection.php:26-28 | bok → bøker; barn and fisk stay unchanged |
| Inflection.UnchangedIrregulars | app/i18n/no_NO/inflection.php:31-37 | hus, land, ris and vann stay unchanged |
| Inflection.IrregularBeatsRules | app/i18n/no_NO/inflection.php:35 | tre → trær, although the e-rule would give trer |
| Inflection.RegularEndingE | app/i18n/no_NO/inflection.php:17 | eple → epler |
| Inflection.RegularOther | app/i18n/no_NO/inflection.php:18 | bil → biler |
| Inflection.RegularFinalNewline | app/i18n/no_NO/inflection.php:18 | "bil\n" → "biler\ner": `/$/` matches before and after the final newline |
| Inflection.RegularEndingENewline | app/i18n/no_NO/inflection.php:17 | "bile\n" → "biler\n": `/e$/i` matches the e before the final newline |
| UrlBuilder.New | src/mako/http/routing/URLBuilder.php:70-83 | the language prefix is "/" + the request language, or "" when that language is empty ("" or "0"): the builder is the one a `…Language` call for the request's own language sets up |
| UrlBuilder.Base | src/mako/http/routing/URLBuilder.php:101-109 | a non-empty configured base URL is returned as is; otherwise the request's base URL is returned; either way the builder afterwards holds the URL returned, and nothing else changes |
| UrlBuilder.BaseIsStable | src/mako/http/routing/URLBuilder.php:101-109 | asking again after remembering gives the same answer; remembering changes nothing else |
| UrlBuilder.LanguageSegment | src/mako/http/routing/URLBuilder.php:122 | `true` gives the stored prefix, a falsy value gives nothing, anything else "/" + its string form; a string language gives the prefix a request in that language has |
| UrlBuilder.LocationFrame | src/mako/http/routing/URLBuilder.php:122 | every URL starts with the base URL and its location ends with the path |
| UrlBuilder.To | src/mako/http/routing/URLBuilder.php:120-130 | the URL starts with the base URL; without query parameters it is the location, ending with the path; with them the location is followed by "?" and the built query |
| UrlBuilder.CleanURLsDropScriptName | src/mako/http/routing/URLBuilder.php:122 | the URL without clean URLs is the clean one with "/" + script name inserted right after the base URL |
| UrlBuilder.DefaultLanguageIsRequestLanguage | src/mako/http/routing/URLBuilder.php:79-122 | language `true` is the request's own language, or no language when the request's is empty |
| UrlBuilder.ReplaceFirstAtFirst | src/mako/http/routing/URLBuilder.php:153 | the leftmost `{key}`, together with one '?' directly after it if there is one, is replaced by the value; nothing before or after changes |
| UrlBuilder.ReplaceFirstWithoutMatch | src/mako/http/routing/URLBuilder.php:153 | a pattern without `{key}` is left unchanged |
| UrlBuilder.RemoveOptionalsWithoutQuestionMark | src/mako/http/routing/URLBuilder.php:156-159 | every removed match holds '?', so the `strpos` guard changes nothing |
| UrlBuilder.RemovalDoesNotRescan | src/mako/http/routing/URLBuilder.php:158 | "/{/{a}?b}?" becomes "/{b}?": the removal does not look again at text a removal brought together |
| UrlBuilder.ToRoute | src/mako/http/routing/URLBuilder.php:142-162 | the result is an error exactly when the route name is unknown, and the error names the route |
| UrlBuilder.Current | src/mako/http/routing/URLBuilder.php:172-177 | the URL of the request path under the same base URL, with the given query, or the request's own query when none is given |
| UrlBuilder.NamedLanguage | src/mako/http/routing/URLBuilder.php:122 | naming a language string gives the URL the builder would give if the request were in that language |
| UrlBuilder.ToLanguage | src/mako/http/routing/URLBuilder.php:188-191 | a string language gives the URL of a request in that language |
| UrlBuilder.ToRouteLanguage | src/mako/http/routing/URLBuilder.php:203-206 | the named route's URL as a request in that language would get it |
| UrlBuilder.CurrentLanguage | src/mako/http/routing/URLBuilder.php:216-219 | the current URL as a request in that language would get it |
| UrlBuilder.ExplicitLanguageIsRequestLanguage | src/mako/http/routing/URLBuilder.php:188-219 | asking for a language gives the URL that a builder made for the same request in that language gives by default |
| UrlBuilder.LanguageIrrelevant | src/mako/http/routing/URLBuilder.php:120-177 | `to` and `current` do not read the request's language, only the prefix computed from it |
| RouteTemplate.SubstituteAllFills | src/mako/http/routing/URLBuilder.php:146-154 | the substitution loop fills exactly the tokens whose parameter has a value not skipped ('' / false / null), and changes nothing else |
| RouteTemplate.RemoveOptionalsStrips | src/mako/http/routing/URLBuilder.php:156-159 | stripping the filled pattern removes exactly the unfilled optional segments |
| RouteTemplate.RoutePathRenders | src/mako/http/routing/URLBuilder.php:144-159 | the route path is the pattern's meaning: filled parameters replaced, unfilled optional segments dropped, unfilled required ones left as written |
| RouteTemplate.ToRouteRenders | src/mako/http/routing/URLBuilder.php:142-162 | `toRoute` of a well-formed pattern is `to` of that meaning |
| RouteTemplate.ArticleExample | src/mako/http/routing/URLBuilder.php:146-159 | "/articles/{id}/{slug}?" with id 42 and an empty slug gives "/articles/42" |
| PhpArray.Put | src/mako/onion/Onion.php:93 | assignment: the key maps to the new value, an existing key keeps its place, a new key is appended, other keys unchanged |
| PhpArray.Union | src/mako/onion/Onion.php:162 | `$a + $b`: a's entries in place, then b's entries whose keys a lacks, in b's order; the left operand wins |
| PhpArray.Missing | src/mako/onion/Onion.php:162 | b with the entries whose keys a has left out, the others kept in b's order: every entry of b with a key a lacks is there, and no other; unique keys stay unique |
| Php.Trim | src/mako/cli/input/helpers/Confirmation.php:97 | `trim`: the result neither starts nor ends with a trimmable character, and only such characters were cut |

## Left out

- The container's own resolution logic and the default `new Container`. The container is the parameter `resolve`; None stands for its exception.
- Dynamic method dispatch: an object target is a map from method names to functions. A middleware is a datatype of three behaviours: passing on, answering without `$next`, or transforming before and after.
- Onion.RunThroughResult, Onion.ShortCircuitStopsRun: these hold for the three behaviours only. A middleware whose `execute` catches an exception from `$next`, calls `$next` twice or only under some condition, or chooses its `after` step from the arguments is not modelled, and for such a layer an exception need not pass through unchanged.
- Method names are matched exactly, both for the configured method of an object target and for the parameter setter. PHP's case-insensitive method names and a `__call` fallback are not modelled; a name not in the map is the error `UndefinedMethod`.
- A middleware's `before` transformation of the arguments cannot throw; only its `after` step, a short-circuit answer, the decorated object and the setter can. An exception thrown before `$next` is called would act like a short-circuit answer that throws, which the model covers.
- The spelling `exeptedInterface` in Onion.php is used in both the constructor and the check, so it behaves as the expected interface. The model calls it `expectedInterface`.
- `peel` builds and wraps each layer in one loop. Wrapping runs no code, so the model builds all layers first and then wraps; the order of events is the same.
- Floats, arrays and objects as PHP values. Scalars are null, booleans, integers and strings.
- Numeric-string array keys (PHP turns "1" into the integer 1) are not modelled. Every key is a string, so the strict comparison in `getOptions` is string equality.
- Multibyte case mapping. `mb_strtolower` and `mb_strtoupper` act on ASCII letters only. Strings are sequences of characters, not bytes.
- `parent::ask` is terminal I/O. It is replaced by a sequence of typed lines. When the lines run out before an accepted answer, the transcript has no answer, whereas the PHP code would wait for more input.
- Confirmation.ContinuePrompt: the prompt string is proved for the default options only. For other options the model gives its parts (`Php.Trim`, `Confirmation.GetOptions`).
- UrlBuilder.ToLanguage: the contract speaks of string languages only. `toLanguage` passes any other value on to `to`, whose `UrlBuilder.LanguageSegment` covers it.
- `http_build_query` is the function parameter `build`; its encoding is not modelled.
- `matches` runs an arbitrary regular expression on the request path, so it is not modelled.
- `Request` and `Routes` are reduced to the strings the builder reads. The route collection is a map from route names to patterns; an unknown name is the error `UnknownRoute`.
- The script name is read from the request each time rather than copied in the constructor. The request does not change, so the value is the same.
- UrlBuilder.To: the base URL that `base()` remembers is not threaded through `to`. `UrlBuilder.BaseIsStable` shows that remembering it changes no later answer.
- RouteTemplate.RoutePathRenders: proved only for well-formed patterns and safe values. Names are word characters, not all digits, and distinct; literals hold no '{' or '?'; values hold no '{' or '?'. A parameter name with regular-expression metacharacters, and `$n` / `\n` back-references in a value, would change `preg_replace`'s behaviour. The string-level `ReplaceFirst` takes the key literally and the value verbatim for every input.

=== FILE: confirmation.dfy ===
/** The yes/no prompt of src/mako/cli/input/helpers/Confirmation.php. The
    terminal is replaced by the sequence of lines the user types: `Ask` shows
    a prompt, consumes one line, and asks again until a line names an option. */
module Confirmation {
  import opened Wrappers
  import opened Php
  import opened PhpArray
  import opened Sequences

  /** Answer options: answer → value. */
  type Options = seq<Entry<Value>>

  // ---------------------------------------------------------------------------
  // normalizeKeys

  /** The keys of `a`, lower-cased, in order. */
  function LowerKeys(a: Options): (ks: seq<string>)
    ensures |ks| == |a|
    ensures forall i :: 0 <= i < |a| ==> ks[i] == Lower(a[i].key)
  {
    seq(|a|, i requires 0 <= i < |a| => Lower(a[i].key))
  }

  /** `normalizeKeys($array)`: every key lower-cased, values kept; of keys
      that collide once lower-cased, the last value wins. */
  function NormalizeKeys(a: Options): (r: Options)
    ensures UniqueKeys(r)
    ensures forall k :: HasKey(r, k) ==> IsLowerCase(k)
    decreases |a|
  {
    if |a| == 0 then []
    else
      var last := a[|a| - 1];
      var n := NormalizeKeys(a[..|a| - 1]);
      LowerIsLowerCase(last.key);
      Put(n, Lower(last.key), last.value)
  }

  /** Keys that collide once lower-cased keep the position of the first:
      the keys of the result are the distinct lower-cased keys in the order
      of their first occurrence. */
  lemma {:induction false} NormalizeKeysOrder(a: Options)
    ensures Keys(NormalizeKeys(a)) == Distinct(LowerKeys(a))
    decreases |a|
  {
    if |a| > 0 {
      NormalizeKeysOrder(a[..|a| - 1]);
      NormalizeKeysLast(a);
      NormalizeKeysOrderStep(a, NormalizeKeys(a[..|a| - 1]));
    }
  }

  /** The induction step of the key order of `NormalizeKeys`. */
  lemma NormalizeKeysOrderStep(a: Options, n: Options)
    requires |a| > 0 && Keys(n) == Distinct(LowerKeys(a[..|a| - 1]))
    ensures Keys(Put(n, Lower(a[|a| - 1].key), a[|a| - 1].value)) == Distinct(LowerKeys(a))
  {
    var s := LowerKeys(a);
    var k := Lower(a[|a| - 1].key);
    assert s[..|s| - 1] == LowerKeys(a[..|a| - 1]);
    assert s[|s| - 1] == k;
    KeyInKeys(n, k);
  }

  /** Some key of `a` lower-cases to `k`. */
  predicate LowersTo(a: Options, k: string) {
    exists i :: 0 <= i < |a| && Lower(a[i].key) == k
  }

  /** Entry `i` is the last whose key lower-cases to `k`. */
  predicate LastLoweringTo(a: Options, k: string, i: int) {
    && 0 <= i < |a| && Lower(a[i].key) == k
    && forall j :: i < j < |a| ==> Lower(a[j].key) != k
  }

  /** The normalised keys are exactly the lower-cased keys, and each carries
      the value of the last entry that lower-cases to it. */
  lemma NormalizeKeysContents(a: Options, k: string)
    ensures HasKey(NormalizeKeys(a), k) <==> LowersTo(a, k)
    ensures forall i :: LastLoweringTo(a, k, i) ==> Get(NormalizeKeys(a), k) == Some(a[i].value)
  {
    NormalizeKeysHas(a, k);
    forall i | LastLoweringTo(a, k, i) ensures Get(NormalizeKeys(a), k) == Some(a[i].value) {
      NormalizeKeysValue(a, k, i);
    }
  }

  lemma {:induction false} NormalizeKeysHas(a: Options, k: string)
    ensures HasKey(NormalizeKeys(a), k) <==> LowersTo(a, k)
    decreases |a|
  {
    if |a| > 0 {
      var init := a[..|a| - 1];
      var last := a[|a| - 1];
      NormalizeKeysHas(init, k);
      LowersToSplit(a, k);
      assert HasKey(NormalizeKeys(a), k) <==> HasKey(NormalizeKeys(init), k) || Lower(last.key) == k;
    }
  }

  lemma LowersToSplit(a: Options, k: string)
    requires |a| > 0
    ensures LowersTo(a, k) <==> LowersTo(a[..|a| - 1], k) || Lower(a[|a| - 1].key) == k
  {
    var init := a[..|a| - 1];
    if LowersTo(a, k) {
      var i :| 0 <= i < |a| && Lower(a[i].key) == k;
      if i < |init| {
        assert init[i] == a[i];
      }
    }
    if LowersTo(init, k) {
      var i :| 0 <= i < |init| && Lower(init[i].key) == k;
      assert a[i] == init[i];
    }
  }

  lemma {:induction false} NormalizeKeysValue(a: Options, k: string, i: int)
    requires LastLoweringTo(a, k, i)
    ensures Get(NormalizeKeys(a), k) == Some(a[i].value)
    decreases |a|
  {
    var init := a[..|a| - 1];
    var last := a[|a| - 1];
    if i < |a| - 1 {
      assert LastLoweringTo(init, k, i) by {
        assert init[i] == a[i];
        forall j | i < j < |init| ensures Lower(init[j].key) != k {
          assert init[j] == a[j];
        }
      }
      NormalizeKeysValue(init, k, i);
      assert Lower(last.key) != k;
    }
  }

  /** Options already in normal form: unique, lower-case keys. */
  predicate Normalized(a: Options) {
    UniqueKeys(a) && forall i :: 0 <= i < |a| ==> IsLowerCase(a[i].key)
  }

  /** Normalising options already in normal form changes nothing. */
  lemma {:induction false} NormalizeNormalized(a: Options)
    requires Normalized(a)
    ensures NormalizeKeys(a) == a
    decreases |a|
  {
    if |a| > 0 {
      var init := a[..|a| - 1];
      var last := a[|a| - 1];
      NormalizedInit(a);
      NormalizeNormalized(init);
      LowerOfLowerCase(last.key);
      NormalizeKeysLast(a);
      InitLast(a);
    }
  }

  /** Dropping the last entry of options in normal form leaves options in
      normal form that lack the last key. */
  lemma NormalizedInit(a: Options)
    requires |a| > 0 && Normalized(a)
    ensures Normalized(a[..|a| - 1]) && !HasKey(a[..|a| - 1], a[|a| - 1].key)
    ensures IsLowerCase(a[|a| - 1].key)
  {
    var init := a[..|a| - 1];
    assert forall i :: 0 <= i < |init| ==> init[i] == a[i];
    HasKeyIndex(init, a[|a| - 1].key);
  }

  /** `NormalizeKeys` of a non-empty list puts the last entry, lower-cased,
      into the normalised rest. */
  lemma NormalizeKeysLast(a: Options)
    requires |a| > 0
    ensures NormalizeKeys(a) == Put(NormalizeKeys(a[..|a| - 1]), Lower(a[|a| - 1].key), a[|a| - 1].value)
  {
  }

  /** `normalizeKeys` is idempotent. */
  lemma NormalizeKeysIdempotent(a: Options)
    ensures NormalizeKeys(NormalizeKeys(a)) == NormalizeKeys(a)
  {
    var r := NormalizeKeys(a);
    forall i | 0 <= i < |r| ensures IsLowerCase(r[i].key) {
      HasKeyIndex(r, r[i].key);
    }
    NormalizeNormalized(r);
  }

  // ---------------------------------------------------------------------------
  // getOptions

  /** The option keys as shown: each is the same key up to case, and only
      the one equal to the default differs from the key, shown upper-cased. */
  function Highlight(keys: seq<string>, defaultAnswer: string): (r: seq<string>)
    ensures |r| == |keys|
    ensures forall i :: 0 <= i < |keys| ==> Lower(r[i]) == Lower(keys[i])
    ensures forall i :: 0 <= i < |keys| && keys[i] != defaultAnswer ==> r[i] == keys[i]
    ensures forall i :: 0 <= i < |keys| && keys[i] == defaultAnswer ==> r[i] == Upper(defaultAnswer)
  {
    var r := seq(|keys|, i requires 0 <= i < |keys| => if keys[i] == defaultAnswer then Upper(keys[i]) else keys[i]);
    assert forall i :: 0 <= i < |keys| ==> Lower(r[i]) == Lower(keys[i]) by {
      forall i | 0 <= i < |keys| ensures Lower(r[i]) == Lower(keys[i]) {
        LowerOfUpper(keys[i]);
      }
    }
    r
  }

  /** `implode($sep, $parts)`. */
  function Join(parts: seq<string>, sep: char): string
    decreases |parts|
  {
    if |parts| == 0 then ""
    else if |parts| == 1 then parts[0]
    else parts[0] + [sep] + Join(parts[1..], sep)
  }

  /** `explode($sep, $s)`: the pieces between separators. */
  function Split(s: string, sep: char): (r: seq<string>)
    ensures |r| > 0
    decreases |s|
  {
    if |s| == 0 then [""]
    else if s[0] == sep then [""] + Split(s[1..], sep)
    else
      var rest := Split(s[1..], sep);
      [[s[0]] + rest[0]] + rest[1..]
  }

  lemma {:induction false} SplitPrefix(w: string, t: string, sep: char)
    requires sep !in w
    ensures Split(w + t, sep) == [w + Split(t, sep)[0]] + Split(t, sep)[1..]
    decreases |w|
  {
    if |w| > 0 {
      assert (w + t)[1..] == w[1..] + t;
      SplitPrefix(w[1..], t, sep);
      assert [w[0]] + (w[1..] + Split(t, sep)[0]) == w + Split(t, sep)[0];
    } else {
      assert w + t == t;
      assert w + Split(t, sep)[0] == Split(t, sep)[0];
      assert [Split(t, sep)[0]] + Split(t, sep)[1..] == Split(t, sep);
    }
  }

  /** Splitting a joined list gives it back, provided no part contains the
      separator. */
  lemma {:induction false} SplitJoin(parts: seq<string>, sep: char)
    requires |parts| > 0
    requires forall i :: 0 <= i < |parts| ==> sep !in parts[i]
    ensures Split(Join(parts, sep), sep) == parts
    decreases |parts|
  {
    if |parts| == 1 {
      SplitPrefix(parts[0], "", sep);
      assert parts[0] + "" == parts[0];
      assert Split("", sep) == [""];
      assert Join(parts, sep) == parts[0];
    } else {
      var rest := Join(parts[1..], sep);
      SplitJoin(parts[1..], sep);
      assert parts[0] + [sep] + rest == parts[0] + ([sep] + rest);
      SplitPrefix(parts[0], [sep] + rest, sep);
      assert ([sep] + rest)[1..] == rest;
      assert Split([sep] + rest, sep) == [""] + Split(rest, sep);
      assert Join(parts, sep) == parts[0] + [sep] + rest;
      assert parts[0] + Split([sep] + rest, sep)[0] == parts[0];
      assert parts == [parts[0]] + parts[1..];
    }
  }

  /** `getOptions($options, $default)`: the option keys joined with '/'.
      When no key contains '/', reading the list back by splitting at '/'
      gives each key in order, the one equal to the default upper-cased and
      the others unchanged. */
  function GetOptions(options: Options, defaultAnswer: string): (r: string)
    ensures |options| == 0 ==> r == ""
    ensures |options| > 0 && (forall i :: 0 <= i < |options| ==> '/' !in options[i].key) ==>
              var shown := Split(r, '/');
              && |shown| == |options|
              && forall i :: 0 <= i < |options| ==>
                   shown[i] == if options[i].key == defaultAnswer then Upper(options[i].key) else options[i].key
  {
    var parts := Highlight(Keys(options), defaultAnswer);
    if |options| > 0 && (forall i :: 0 <= i < |options| ==> '/' !in options[i].key) then
      forall i | 0 <= i < |parts| ensures '/' !in parts[i] {
        if options[i].key == defaultAnswer {
          assert forall c | c in Upper(options[i].key) :: c != '/';
        }
      }
      SplitJoin(parts, '/');
      Join(parts, '/')
    else Join(parts, '/')
  }

  // ---------------------------------------------------------------------------
  // ask

  /** The options used when none are given. */
  const DefaultOptions: Options := [Entry("y", Bool(true)), Entry("n", Bool(false))]

  /** The options `ask` works with: the defaults, or the given ones normalised. */
  function EffectiveOptions(options: Option<Options>): (r: Options)
    ensures Normalized(r)
    ensures options.None? ==> Get(r, "y") == Some(Bool(true)) && Get(r, "n") == Some(Bool(false)) && |r| == 2
  {
    if options.None? then
      assert Lower("y") == "y" && Lower("n") == "n";
      DefaultOptions
    else
      var r := NormalizeKeys(options.value);
      forall i | 0 <= i < |r| ensures IsLowerCase(r[i].key) {
        HasKeyIndex(r, r[i].key);
      }
      r
  }

  /** The prompt: the trimmed question, then the option list in brackets. */
  function Prompt(question: string, defaultAnswer: string, options: Options): string {
    Trim(question) + " [" + GetOptions(options, defaultAnswer) + "] "
  }

  /** The answer a typed line stands for: an empty line (or "0", which PHP's
      `empty` also treats as empty) means the default; the result is
      lower-cased. */
  function AnswerOf(line: string, defaultAnswer: string): (r: string)
    ensures IsLowerCase(r)
    ensures !IsEmptyString(line) ==> r == Lower(line)
    ensures IsEmptyString(line) ==> r == Lower(defaultAnswer)
  {
    Lower(if IsEmptyString(line) then defaultAnswer else line)
  }

  /** `isset($options[$answer])`: the key is present with a non-null value. */
  predicate Accepted(options: Options, answer: string) {
    var v := Get(options, answer);
    v.Some? && v.value != Null
  }

  /** The prompts shown and the value chosen; no value when the lines ran out
      before an accepted one. */
  datatype Transcript = Transcript(prompts: seq<string>, answer: Option<Value>)

  /** `ask($question, $default, $options)`, reading its lines from `lines`:
      the options are put in effect, then the rounds begin. */
  function Ask(question: string, defaultAnswer: string, options: Option<Options>, lines: seq<string>): Transcript {
    var opts := EffectiveOptions(options);
    Rounds(Prompt(question, defaultAnswer, opts), defaultAnswer, opts, lines)
  }

  /** The rounds of `ask` on the options in effect: the prompt and a line
      per round; a line naming no option starts `ask` again with those
      options, which shows the same prompt (`AskRetry` shows that re-entering
      `Ask` is the same as going on with the next round). */
  function Rounds(prompt: string, defaultAnswer: string, opts: Options, lines: seq<string>): Transcript
    decreases |lines|
  {
    if |lines| == 0 then Transcript([prompt], None)
    else
      var answer := AnswerOf(lines[0], defaultAnswer);
      if !Accepted(opts, answer) then
        var rest := Rounds(prompt, defaultAnswer, opts, lines[1..]);
        Transcript([prompt] + rest.prompts, rest.answer)
      else Transcript([prompt], Get(opts, answer))
  }

  /** Handing `ask` options it has already normalised (or its defaults)
      changes nothing: the repeated normalisation on every retry is harmless. */
  lemma AskNormalizesOnce(question: string, defaultAnswer: string, options: Option<Options>, lines: seq<string>)
    ensures Ask(question, defaultAnswer, options, lines)
            == Ask(question, defaultAnswer, Some(EffectiveOptions(options)), lines)
  {
    var opts := EffectiveOptions(options);
    NormalizeNormalized(opts);
    assert EffectiveOptions(Some(opts)) == opts;
  }

  /** A line naming no option: one prompt, then whatever calling `ask` again
      with the options in effect does; a line naming an option: one prompt
      and that option's value. */
  lemma AskRetry(question: string, defaultAnswer: string, options: Option<Options>, lines: seq<string>)
    requires |lines| > 0
    ensures var opts := EffectiveOptions(options);
            var t := Ask(question, defaultAnswer, options, lines);
            var again := Ask(question, defaultAnswer, Some(opts), lines[1..]);
            var answer := AnswerOf(lines[0], defaultAnswer);
            && (!Accepted(opts, answer) ==>
                  t == Transcript([Prompt(question, defaultAnswer, opts)] + again.prompts, again.answer))
            && (Accepted(opts, answer) ==> t == Transcript([Prompt(question, defaultAnswer, opts)], Get(opts, answer)))
  {
    AskNormalizesOnce(question, defaultAnswer, Some(EffectiveOptions(options)), lines[1..]);
    var opts := EffectiveOptions(options);
    NormalizeNormalized(opts);
    assert EffectiveOptions(Some(opts)) == opts;
  }

  /** Line `i` is the first whose answer names an option. */
  predicate FirstAccepted(options: Options, defaultAnswer: string, lines: seq<string>, i: int) {
    && 0 <= i < |lines|
    && Accepted(options, AnswerOf(lines[i], defaultAnswer))
    && forall j :: 0 <= j < i ==> !Accepted(options, AnswerOf(lines[j], defaultAnswer))
  }

  /** After a rejected first line, the first accepted line is the first
      accepted one of the rest. */
  lemma FirstAcceptedTail(opts: Options, defaultAnswer: string, lines: seq<string>)
    requires |lines| > 0 && !Accepted(opts, AnswerOf(lines[0], defaultAnswer))
    ensures forall i :: FirstAccepted(opts, defaultAnswer, lines, i) ==> FirstAccepted(opts, defaultAnswer, lines[1..], i - 1)
    ensures forall i :: FirstAccepted(opts, defaultAnswer, lines[1..], i) ==> FirstAccepted(opts, defaultAnswer, lines, i + 1)
  {
    var tail := lines[1..];
    forall i | FirstAccepted(opts, defaultAnswer, tail, i)
      ensures FirstAccepted(opts, defaultAnswer, lines, i + 1)
    {
      forall j | 0 <= j < i + 1 ensures !Accepted(opts, AnswerOf(lines[j], defaultAnswer)) {
        if j > 0 {
          assert lines[j] == tail[j - 1];
        }
      }
    }
  }

  /** Every prompt of the rounds is the same. */
  lemma {:induction false} RoundsRepeatPrompt(prompt: string, defaultAnswer: string, opts: Options, lines: seq<string>)
    ensures var t := Rounds(prompt, defaultAnswer, opts, lines);
            forall k :: 0 <= k < |t.prompts| ==> t.prompts[k] == prompt
    decreases |lines|
  {
    var t := Rounds(prompt, defaultAnswer, opts, lines);
    if |lines| > 0 && !Accepted(opts, AnswerOf(lines[0], defaultAnswer)) {
      var rest := Rounds(prompt, defaultAnswer, opts, lines[1..]);
      RoundsRepeatPrompt(prompt, defaultAnswer, opts, lines[1..]);
      assert forall k :: 0 <= k < |Rounds(prompt, defaultAnswer, opts, lines[1..]).prompts| ==> Rounds(prompt, defaultAnswer, opts, lines[1..]).prompts[k] == prompt;
      assert t.prompts == [prompt] + rest.prompts;
      assert forall k :: 0 <= k < |rest.prompts| ==> rest.prompts[k] == prompt;
      forall k | 0 < k < |t.prompts| ensures t.prompts[k] == prompt {
        assert 0 <= k - 1 < |rest.prompts| && t.prompts[k] == rest.prompts[k - 1];
      }
    } else {
      assert t.prompts == [prompt];
    }
  }

  /** The answer of the rounds and their number. */
  lemma {:induction false} RoundsAnswer(prompt: string, defaultAnswer: string, opts: Options, lines: seq<string>)
    ensures var t := Rounds(prompt, defaultAnswer, opts, lines);
            && (t.answer.Some? <==> exists i :: FirstAccepted(opts, defaultAnswer, lines, i))
            && (forall i :: FirstAccepted(opts, defaultAnswer, lines, i) ==>
                  |t.prompts| == i + 1 && Some(t.answer.value) == Get(opts, AnswerOf(lines[i], defaultAnswer)))
            && (t.answer.None? ==> |t.prompts| == |lines| + 1)
    decreases |lines|
  {
    if |lines| > 0 {
      if !Accepted(opts, AnswerOf(lines[0], defaultAnswer)) {
        RoundsAnswer(prompt, defaultAnswer, opts, lines[1..]);
        FirstAcceptedTail(opts, defaultAnswer, lines);
      } else {
        assert FirstAccepted(opts, defaultAnswer, lines, 0);
        forall i | FirstAccepted(opts, defaultAnswer, lines, i) ensures i == 0 {
        }
      }
    }
  }

  /** The answer is the value of the first accepted line, after as many
      identical prompts as lines read; rejected lines only cause the same
      question to be asked again. */
  lemma AskReturnsFirstAccepted(question: string, defaultAnswer: string,
                                options: Option<Options>, lines: seq<string>)
    ensures var opts := EffectiveOptions(options);
            var t := Ask(question, defaultAnswer, options, lines);
            && (forall k :: 0 <= k < |t.prompts| ==> t.prompts[k] == Prompt(question, defaultAnswer, opts))
            && (t.answer.Some? <==> exists i :: FirstAccepted(opts, defaultAnswer, lines, i))
            && (forall i :: FirstAccepted(opts, defaultAnswer, lines, i) ==>
                  |t.prompts| == i + 1 && Some(t.answer.value) == Get(opts, AnswerOf(lines[i], defaultAnswer)))
            && (t.answer.None? ==> |t.prompts| == |lines| + 1)
  {
    var opts := EffectiveOptions(options);
    var prompt := Prompt(question, defaultAnswer, opts);
    RoundsAnswer(prompt, defaultAnswer, opts, lines);
    RoundsRepeatPrompt(prompt, defaultAnswer, opts, lines);
  }

  /** The prompt for the default options and default "n". */
  lemma ContinuePrompt()
    ensures Prompt(" Continue?", "n", DefaultOptions) == "Continue? [y/N] "
  {
    TrimContinue();
    DefaultOptionsText();
    PromptParts(" Continue?", "n", DefaultOptions, "Continue?", "y/N");
    ContinueText();
  }

  lemma ContinueText()
    ensures "Continue?" + " [" + "y/N" + "] " == "Continue? [y/N] "
  {
  }

  /** The prompt from its two computed parts. */
  lemma PromptParts(question: string, defaultAnswer: string, opts: Options, trimmed: string, list: string)
    requires Trim(question) == trimmed && GetOptions(opts, defaultAnswer) == list
    ensures Prompt(question, defaultAnswer, opts) == trimmed + " [" + list + "] "
  {
  }

  lemma TrimContinue()
    ensures Trim(" Continue?") == "Continue?"
  {
    var q := " Continue?";
    assert IsTrimmable(q[0]) && !IsTrimmable(q[1..][0]);
    assert TrimStart(q[1..]) == q[1..];
    assert q[1..] == "Continue?";
    assert !IsTrimmable('?');
    assert TrimEnd("Continue?") == "Continue?";
  }

  lemma DefaultOptionsText()
    ensures GetOptions(DefaultOptions, "n") == "y/N"
  {
    assert Upper("n") == "N";
    assert Keys(DefaultOptions) == ["y", "n"];
    assert Highlight(["y", "n"], "n") == ["y", "N"];
    assert ["y", "N"][1..] == ["N"];
    assert Join(["y", "N"], '/') == "y/N";
  }

  /** "maybe" names no default option; an empty line means "n", i.e. false. */
  lemma ExampleAnswers()
    ensures !Accepted(DefaultOptions, AnswerOf("maybe", "n"))
    ensures Accepted(DefaultOptions, AnswerOf("", "n"))
    ensures Get(DefaultOptions, AnswerOf("", "n")) == Some(Bool(false))
  {
    LowerOfLowerCase("maybe");
    LowerOfLowerCase("n");
    assert AnswerOf("maybe", "n") == "maybe";
    assert AnswerOf("", "n") == "n";
  }

  /** A line naming no option followed by one naming an option: two
      identical prompts and the second line's value. */
  lemma RoundsRejectThenAccept(prompt: string, defaultAnswer: string, opts: Options, lines: seq<string>)
    requires |lines| == 2
    requires !Accepted(opts, AnswerOf(lines[0], defaultAnswer)) && Accepted(opts, AnswerOf(lines[1], defaultAnswer))
    ensures Rounds(prompt, defaultAnswer, opts, lines)
            == Transcript([prompt, prompt], Get(opts, AnswerOf(lines[1], defaultAnswer)))
  {
    var tail := lines[1..];
    assert tail[0] == lines[1];
    var rest := Rounds(prompt, defaultAnswer, opts, tail);
    assert rest == Transcript([prompt], Get(opts, AnswerOf(lines[1], defaultAnswer)));
  }

  /** With the default options and default "n": a rejected line, then an
      empty line, chooses false after two identical "[y/N]" prompts. */
  lemma DefaultOptionsExample(question: string, defaultAnswer: string, lines: seq<string>)
    requires question == " Continue?" && defaultAnswer == "n" && lines == ["maybe", ""]
    ensures Ask(question, defaultAnswer, None, lines)
            == Transcript(["Continue? [y/N] ", "Continue? [y/N] "], Some(Bool(false)))
  {
    assert EffectiveOptions(None) == DefaultOptions;
    ContinuePrompt();
    ExampleAnswers();
    assert lines[0] == "maybe" && lines[1] == "";
    RoundsRejectThenAccept("Continue? [y/N] ", defaultAnswer, DefaultOptions, lines);
  }
}

=== FILE: inflection.dfy ===
/** Norwegian (no_NO) plural forms, app/i18n/no_NO/inflection.php: a table of
    irregular words, then an ordered list of regular-expression rules of which
    the first that matches is applied. */
module Inflection {
  import opened Wrappers
  import opened Php
  import opened PhpArray

  // ---------------------------------------------------------------------------
  // The two patterns the rules use, with PCRE's meaning of `$`

  /** `'/e$/i'` and `'/$/'`. */
  datatype Pattern =
    | EndingE   // an 'e' or 'E' at the end of the subject
    | End       // the (empty) end of the subject

  datatype Rule = Rule(pattern: Pattern, replacement: string)

  /** The rule set handed to the pluraliser: plural rules in order, and the
      irregular plurals by word. */
  datatype Rules = Rules(plural: seq<Rule>, irregular: seq<Entry<string>>)

  predicate IsE(c: char) { c == 'e' || c == 'E' }

  predicate EndsWithNewline(s: string) { |s| > 0 && s[|s| - 1] == '\n' }

  /** The positions where PCRE's `$` (without the D modifier) matches: the end
      of the subject, and also just before a final newline. */
  function EndAnchors(s: string): (r: seq<nat>)
    ensures forall i :: 0 <= i < |r| ==> r[i] <= |s|
    ensures |s| in r
    ensures forall p :: 0 <= p < |s| ==> (p in r <==> p == |s| - 1 && s[p] == '\n')
    ensures forall i, j :: 0 <= i < j < |r| ==> r[i] < r[j]
  {
    if EndsWithNewline(s) then [|s| - 1, |s|] else [|s|]
  }

  /** `preg_match($pattern, $s)`. */
  predicate Matches(p: Pattern, s: string) {
    match p
    case End => true
    case EndingE => exists a :: a in EndAnchors(s) && 0 < a && IsE(s[a - 1])
  }

  /** `'/e$/i'` matches exactly the subjects ending with 'e' or 'E', possibly
      followed by one newline. */
  lemma MatchesEndingE(s: string)
    ensures Matches(EndingE, s) <==>
            (|s| > 0 && IsE(s[|s| - 1])) || (EndsWithNewline(s) && |s| > 1 && IsE(s[|s| - 2]))
  {
    if |s| > 0 && IsE(s[|s| - 1]) {
      assert |s| in EndAnchors(s);
    } else if EndsWithNewline(s) && |s| > 1 && IsE(s[|s| - 2]) {
      assert |s| - 1 in EndAnchors(s);
    }
  }

  /** `s` with `text` inserted at each of the ascending positions `at`. */
  function InsertAt(s: string, at: seq<nat>, text: string): string
    requires forall i :: 0 <= i < |at| ==> at[i] <= |s|
    requires forall i, j :: 0 <= i < j < |at| ==> at[i] < at[j]
    decreases |at|
  {
    if |at| == 0 then s
    else
      var last := at[|at| - 1];
      InsertAt(s[..last], at[..|at| - 1], text) + text + s[last..]
  }

  /** `preg_replace($pattern, $replacement, $s)`: every match, left to right,
      replaced. `'/$/'` matches the empty string at each anchor, so the
      replacement is inserted at each, twice in a subject ending with a
      newline; `'/e$/i'` matches the 'e' before an anchor, which the
      replacement takes the place of, and nothing changes without a match. */
  function Replace(p: Pattern, replacement: string, s: string): (r: string)
    ensures p.End? ==> r == InsertAt(s, EndAnchors(s), replacement)
    ensures p.EndingE? ==> forall a :: a in EndAnchors(s) && 0 < a && IsE(s[a - 1]) ==>
              r == s[..a - 1] + replacement + s[a..]
    ensures p.EndingE? && !Matches(p, s) ==> r == s
  {
    match p
    case End =>
      EndInsert(s, replacement);
      if EndsWithNewline(s) then s[..|s| - 1] + replacement + "\n" + replacement
      else s + replacement
    case EndingE =>
      EndingEAnchor(s, replacement);
      if |s| > 0 && IsE(s[|s| - 1]) then s[..|s| - 1] + replacement
      else if EndsWithNewline(s) && |s| > 1 && IsE(s[|s| - 2]) then s[..|s| - 2] + replacement + "\n"
      else s
  }

  /** Inserting at the end anchors, written out. */
  lemma EndInsert(s: string, text: string)
    ensures InsertAt(s, EndAnchors(s), text)
            == if EndsWithNewline(s) then s[..|s| - 1] + text + "\n" + text else s + text
  {
    if EndsWithNewline(s) {
      var at := [|s| - 1, |s|];
      assert EndAnchors(s) == at;
      assert at[..1] == [|s| - 1] && s[..|s|] == s && s[|s|..] == "";
      assert InsertAt(s, at, text) == InsertAt(s, [|s| - 1], text) + text;
      assert InsertAt(s, [|s| - 1], text) == s[..|s| - 1] + text + "\n" by {
        assert s[..|s| - 1][..|s| - 1] == s[..|s| - 1] && s[|s| - 1..] == "\n";
      }
    } else {
      assert s[..|s|] == s;
    }
  }

  /** The one anchor with an 'e' before it, and what replacing that 'e' gives. */
  lemma EndingEAnchor(s: string, text: string)
    ensures forall a :: a in EndAnchors(s) && 0 < a && IsE(s[a - 1]) ==>
              s[..a - 1] + text + s[a..]
              == if |s| > 0 && IsE(s[|s| - 1]) then s[..|s| - 1] + text else s[..|s| - 2] + text + "\n"
    ensures (|s| > 0 && IsE(s[|s| - 1])) || (EndsWithNewline(s) && |s| > 1 && IsE(s[|s| - 2]))
            ==> Matches(EndingE, s)
  {
    MatchesEndingE(s);
    if EndsWithNewline(s) {
      assert s[|s| - 1..] == "\n";
    } else {
      assert s[|s|..] == "";
    }
  }

  /** The first rule whose pattern matches `word` is applied; the word is
      returned unchanged when none matches. */
  function ApplyFirstRule(rules: seq<Rule>, word: string): (r: string)
    decreases |rules|
  {
    if |rules| == 0 then word
    else if Matches(rules[0].pattern, word) then Replace(rules[0].pattern, rules[0].replacement, word)
    else ApplyFirstRule(rules[1..], word)
  }

  /** Rule `i` is the first whose pattern matches. */
  predicate FirstMatching(rules: seq<Rule>, word: string, i: int) {
    && 0 <= i < |rules|
    && Matches(rules[i].pattern, word)
    && forall j :: 0 <= j < i ==> !Matches(rules[j].pattern, word)
  }

  /** Only the first matching rule takes effect; with no match, nothing does. */
  lemma {:induction false} ApplyFirstRuleSpec(rules: seq<Rule>, word: string)
    ensures forall i :: FirstMatching(rules, word, i) ==>
              ApplyFirstRule(rules, word) == Replace(rules[i].pattern, rules[i].replacement, word)
    ensures (forall i :: 0 <= i < |rules| ==> !Matches(rules[i].pattern, word)) ==> ApplyFirstRule(rules, word) == word
    decreases |rules|
  {
    if |rules| > 0 {
      ApplyFirstRuleSpec(rules[1..], word);
      forall i | FirstMatching(rules, word, i) && i > 0 ensures FirstMatching(rules[1..], word, i - 1) {
        assert forall j :: 0 <= j < i - 1 ==> rules[1..][j] == rules[j + 1];
      }
      if forall i :: 0 <= i < |rules| ==> !Matches(rules[i].pattern, word) {
        assert forall i :: 0 <= i < |rules| - 1 ==> rules[1..][i] == rules[i + 1];
      }
    }
  }

  // ---------------------------------------------------------------------------
  // pluralize

  /** The `pluralize` closure. A count identical to the integer 1 (PHP `!==`,
      so not "1" or 1.0) leaves the word alone; otherwise an irregular plural
      wins over the rules. */
  function Pluralize(word: string, count: Value, rules: Rules): (r: string)
    ensures count == Int(1) ==> r == word
    ensures count != Int(1) && HasKey(rules.irregular, word) ==> Some(r) == Get(rules.irregular, word)
    ensures count != Int(1) && !HasKey(rules.irregular, word) ==>
              (forall i :: FirstMatching(rules.plural, word, i) ==>
                 r == Replace(rules.plural[i].pattern, rules.plural[i].replacement, word))
    ensures (count != Int(1) && !HasKey(rules.irregular, word) &&
             forall i :: 0 <= i < |rules.plural| ==> !Matches(rules.plural[i].pattern, word))
              ==> r == word
  {
    if count == Int(1) then word
    else
      var irregular := Get(rules.irregular, word);
      if irregular.Some? then irregular.value
      else
        ApplyFirstRuleSpec(rules.plural, word);
        ApplyFirstRule(rules.plural, word)
  }

  /** The rules of app/i18n/no_NO/inflection.php. */
  const Norwegian: Rules := Rules(
    [Rule(EndingE, "er"), Rule(End, "er")],
    [ Entry("and", "ender"), Entry("barn", "barn"), Entry("bok", "bøker"), Entry("fisk", "fisk")
    , Entry("fot", "føtter"), Entry("gås", "gjess"), Entry("hus", "hus"), Entry("land", "land")
    , Entry("ris", "ris"), Entry("tann", "tenner"), Entry("tre", "trær"), Entry("tå", "tær")
    , Entry("vann", "vann") ])

  /** The Norwegian plural of a regular word, written out: a final 'e'/'E'
      becomes "er", any other word gains "er" — with PCRE's `$` also matching
      before a final newline. */
  function RegularPlural(word: string): string {
    if |word| > 0 && IsE(word[|word| - 1]) then word[..|word| - 1] + "er"
    else if EndsWithNewline(word) && |word| > 1 && IsE(word[|word| - 2]) then word[..|word| - 2] + "er\n"
    else if EndsWithNewline(word) then word[..|word| - 1] + "er\ner"
    else word + "er"
  }

  /** The two Norwegian rules, applied first-match, give `RegularPlural`. */
  lemma {:induction false} NorwegianRules(rules: seq<Rule>, word: string)
    requires rules == [Rule(EndingE, "er"), Rule(End, "er")]
    ensures ApplyFirstRule(rules, word) == RegularPlural(word)
  {
    MatchesEndingE(word);
    if Matches(EndingE, word) {
      assert ApplyFirstRule(rules, word) == Replace(EndingE, "er", word);
    } else {
      assert rules[1..] == [Rule(End, "er")];
      assert ApplyFirstRule(rules[1..], word) == Replace(End, "er", word);
    }
  }

  /** The Norwegian rules pluralise every word not in the irregular table as
      `RegularPlural` says, whatever the count other than the integer 1. */
  lemma NorwegianRegular(word: string, count: Value)
    requires count != Int(1)
    requires word !in Keys(Norwegian.irregular)
    ensures Pluralize(word, count, Norwegian) == RegularPlural(word)
  {
    KeyInKeys(Norwegian.irregular, word);
    NorwegianRules(Norwegian.plural, word);
  }

  /** Every irregular word gets its listed plural, for any count but 1. */
  lemma NorwegianIrregular(i: int, count: Value)
    requires 0 <= i < |Norwegian.irregular|
    requires count != Int(1)
    ensures Pluralize(Norwegian.irregular[i].key, count, Norwegian) == Norwegian.irregular[i].value
  {
    IrregularTableUnique();
    GetAt(Norwegian.irregular, i);
  }

  /** The irregular table lists each word once: its words are in strictly
      ascending code-point order. */
  lemma IrregularTableUnique()
    ensures UniqueKeys(Norwegian.irregular)
  {
    IrregularWordsAscending();
    AscendingUnique(Norwegian.irregular);
  }

  lemma IrregularWordsAscending()
    ensures Ascending(Keys(Norwegian.irregular))
  {
    IrregularWords();
    var w := IrregularWordList;
    forall i | 0 < i < |w| ensures Before(w[i - 1], w[i]) {
      if i <= 4 {
        WordsAscendingUpTo4(w, i);
      } else if i <= 8 {
        WordsAscendingUpTo8(w, i);
      } else {
        WordsAscendingUpTo12(w, i);
      }
    }
  }

  /** The irregular words as the table lists them. */
  const IrregularWordList: seq<string> :=
    ["and", "barn", "bok", "fisk", "fot", "gås", "hus", "land", "ris", "tann", "tre", "tå", "vann"]

  lemma WordsAscendingUpTo4(w: seq<string>, i: int)
    requires w == IrregularWordList && 0 < i <= 4
    ensures Before(w[i - 1], w[i])
  {
    assert Before("and", "barn") && Before("barn", "bok") && Before("bok", "fisk") && Before("fisk", "fot");
  }

  lemma WordsAscendingUpTo8(w: seq<string>, i: int)
    requires w == IrregularWordList && 4 < i <= 8
    ensures Before(w[i - 1], w[i])
  {
    assert Before("fot", "gås") && Before("gås", "hus") && Before("hus", "land") && Before("land", "ris");
  }

  lemma WordsAscendingUpTo12(w: seq<string>, i: int)
    requires w == IrregularWordList && 8 < i <= 12
    ensures Before(w[i - 1], w[i])
  {
    assert Before("ris", "tann") && Before("tann", "tre") && Before("tre", "tå") && Before("tå", "vann");
  }

  /** Strict lexicographic order on code points; a proper prefix comes first. */
  predicate Before(s: string, t: string)
    decreases |s|
  {
    |t| > 0 && (|s| == 0 || s[0] < t[0] || (s[0] == t[0] && Before(s[1..], t[1..])))
  }

  lemma {:induction false} BeforeIrreflexive(s: string)
    ensures !Before(s, s)
    decreases |s|
  {
    if |s| > 0 {
      BeforeIrreflexive(s[1..]);
    }
  }

  lemma {:induction false} BeforeTransitive(r: string, s: string, t: string)
    requires Before(r, s) && Before(s, t)
    ensures Before(r, t)
    decreases |r|
  {
    if |r| > 0 && r[0] == s[0] && s[0] == t[0] {
      BeforeTransitive(r[1..], s[1..], t[1..]);
    }
  }

  /** Each word comes strictly before the next. */
  predicate Ascending(words: seq<string>) {
    forall i :: 0 < i < |words| ==> Before(words[i - 1], words[i])
  }

  /** An array whose keys ascend strictly has unique keys. */
  lemma AscendingUnique<V>(a: seq<Entry<V>>)
    requires Ascending(Keys(a))
    ensures UniqueKeys(a)
  {
    var ks := Keys(a);
    forall i, j | 0 <= i < j < |a| ensures a[i].key != a[j].key {
      AscendingApart(ks, i, j);
      BeforeIrreflexive(ks[i]);
    }
  }

  lemma {:induction false} AscendingApart(words: seq<string>, i: int, j: int)
    requires Ascending(words) && 0 <= i < j < |words|
    ensures Before(words[i], words[j])
    decreases j - i
  {
    if i + 1 < j {
      AscendingApart(words, i, j - 1);
      BeforeTransitive(words[i], words[j - 1], words[j]);
    }
  }

  /** "bok" takes its listed plural "bøker"; "barn" and "fisk" are listed as
      their own plurals and stay unchanged. */
  lemma IrregularExamples(count: Value)
    requires count != Int(1)
    ensures Pluralize("bok", count, Norwegian) == "bøker"
    ensures Pluralize("barn", count, Norwegian) == "barn"
    ensures Pluralize("fisk", count, Norwegian) == "fisk"
  {
    IrregularAt(2, "bok", "bøker", count);
    IrregularAt(1, "barn", "barn", count);
    IrregularAt(3, "fisk", "fisk", count);
  }

  /** The other words listed as their own plurals stay unchanged too. */
  lemma UnchangedIrregulars(count: Value)
    requires count != Int(1)
    ensures Pluralize("hus", count, Norwegian) == "hus"
    ensures Pluralize("land", count, Norwegian) == "land"
    ensures Pluralize("ris", count, Norwegian) == "ris"
    ensures Pluralize("vann", count, Norwegian) == "vann"
  {
    IrregularAt(6, "hus", "hus", count);
    IrregularAt(7, "land", "land", count);
    IrregularAt(8, "ris", "ris", count);
    IrregularAt(12, "vann", "vann", count);
  }

  lemma IrregularAt(i: int, word: string, plural: string, count: Value)
    requires 0 <= i < |Norwegian.irregular| && Norwegian.irregular[i] == Entry(word, plural)
    requires count != Int(1)
    ensures Pluralize(word, count, Norwegian) == plural
  {
    NorwegianIrregular(i, count);
  }

  /** "tre" is irregular, so its plural is "trær" and not the "trer" the
      e-rule would give. */
  lemma IrregularBeatsRules(word: string, count: Value)
    requires word == "tre" && count == Int(2)
    ensures Pluralize(word, count, Norwegian) == "trær"
    ensures RegularPlural(word) == "trer"
  {
    TreIsIrregular(word, count);
    TreByRule(word);
  }

  lemma TreIsIrregular(word: string, count: Value)
    requires word == "tre" && count == Int(2)
    ensures Pluralize(word, count, Norwegian) == "trær"
  {
    var e := Norwegian.irregular[10];
    assert e == Entry("tre", "trær");
    NorwegianIrregular(10, count);
  }

  lemma TreByRule(word: string)
    requires word == "tre"
    ensures RegularPlural(word) == "trer"
  {
    assert word[..2] == "tr";
  }

  /** The words with an irregular plural. */
  lemma IrregularWords()
    ensures Keys(Norwegian.irregular) == IrregularWordList
  {
  }

  /** A regular word: "eple" trades its final 'e' for "er". */
  lemma RegularEndingE(word: string)
    requires word == "eple"
    ensures word !in Keys(Norwegian.irregular) && RegularPlural(word) == "epler"
  {
    IrregularWords();
    assert word[..3] == "epl";
  }

  /** A regular word: "bil" gains "er". */
  lemma RegularOther(word: string)
    requires word == "bil"
    ensures word !in Keys(Norwegian.irregular) && RegularPlural(word) == "biler"
  {
    IrregularWords();
  }

  /** With a final newline `/$/` matches twice: "bil\n" becomes "biler\ner". */
  lemma RegularFinalNewline(word: string)
    requires word == "bil\n"
    ensures word !in Keys(Norwegian.irregular) && RegularPlural(word) == "biler\ner"
  {
    IrregularWords();
    assert word[..3] == "bil";
  }

  /** `/e$/i` also matches an 'e' before a final newline: "bile\n" becomes
      "biler\n". */
  lemma RegularEndingENewline(word: string)
    requires word == "bile\n"
    ensures word !in Keys(Norwegian.irregular) && RegularPlural(word) == "biler\n"
  {
    IrregularWords();
    assert word[..3] == "bil";
  }
}

=== FILE: onion.dfy ===
/** The middleware stack ("onion") of src/mako/onion/Onion.php: an ordered
    list of middleware class names with registration-time parameters, a
    factory that resolves each class through a container, and `peel`, which
    wraps a target in one closure per layer and calls the outermost one.

    PHP closures become the `Continuation` datatype, the container becomes
    the function parameter `resolve`, and every execution yields an `Outcome`:
    the result (or the exception) together with a trace of what happened. */
module Onion {
  import opened Wrappers
  import opened Php
  import opened PhpArray
  import opened Sequences

  type ClassName = string

  /** A middleware parameter array. */
  type Parameters = seq<Entry<Value>>

  /** What a middleware's `execute($arguments..., $next)` does. */
  datatype Behaviour =
    | PassThrough                                       // returns $next(...$arguments)
    | ShortCircuit(response: Result<Value, Error>)      // returns or throws without calling $next
    | Transform(before: seq<Value> -> seq<Value>, after: Value -> Result<Value, Error>)
                                                        // calls $next(...before($arguments)), then
                                                        // returns or throws after(result)

  /** A middleware object: the classes and interfaces it is an instance of,
      what its `execute` method does, and its other public methods (a
      parameter setter returns normally or throws). */
  datatype Middleware = Middleware(interfaces: set<string>, behaviour: Behaviour,
                                   setters: map<string, Parameters -> Option<Error>>)

  /** A resolved layer: the class it was built from and the object. */
  datatype Instance = Instance(name: ClassName, middleware: Middleware)

  /** The object being decorated: a `Closure`, or any other object whose
      methods are looked up by name. Either returns a value or throws. */
  datatype Target =
    | Closure(call: seq<Value> -> Result<Value, Error>)
    | Object(methods: map<string, seq<Value> -> Result<Value, Error>>)

  datatype Error =
    | UnresolvableClass(name: ClassName)     // the container could not build the class
    | UnsupportedMiddleware(message: string)  // the OnionException of the factory
    | UndefinedMethod(action: string)         // the object lacks the method called on it
    | Thrown(exception: string)               // an exception of the given class, thrown by user code

  /** What an execution does, in order. */
  datatype Event =
    | Resolved(layer: ClassName, given: Parameters)           // container->get($layer, $given)
    | ParametersSet(layer: ClassName, setter: string, parameters: Parameters)
    | Entered(layer: ClassName, arguments: seq<Value>)        // $layer->execute(...$arguments, $next)
    | Exited(layer: ClassName)                                // execute returned normally
    | CoreCalled(arguments: seq<Value>)                       // the core closure was called

  datatype Outcome = Outcome(result: Result<Value, Error>, trace: seq<Event>)

  /** The state of an `Onion` object. The container is not part of it: it is
      passed to `Peel` as `resolve`. */
  datatype Stack = Stack(
    action: string,
    expectedInterface: Option<string>,
    parameterSetter: Option<string>,
    layers: seq<ClassName>,
    parameters: map<ClassName, Option<Parameters>>)

  const UnsupportedPrefix := "The Onion instance expects middleware to be an instance of [ "
  const UnsupportedSuffix := " ]."

  /** The message of the exception thrown for unsupported middleware. */
  function UnsupportedMessage(expected: string): string {
    UnsupportedPrefix + expected + UnsupportedSuffix
  }

  // ---------------------------------------------------------------------------
  // Construction and the layer registry

  /** `new Onion($container, $method, $expectedInterface, $parameterSetter)`. */
  function New(action: Option<string>, expectedInterface: Option<string>, parameterSetter: Option<string>): (o: Stack)
    ensures o.layers == [] && o.parameters == map[]
    ensures action.None? ==> o.action == "handle"
    ensures action.Some? ==> o.action == action.value
    ensures o.expectedInterface == expectedInterface && o.parameterSetter == parameterSetter
    ensures forall calls :: AddAll(o, calls).layers == NewestInnerFirst(calls) + OldestOuterFirst(calls)
  {
    var o := Stack(action.GetOr("handle"), expectedInterface, parameterSetter, [], map[]);
    AddAllFromEmpty(o);
    o
  }

  /** On a stack without layers, any insertions leave the inner classes
      newest first, followed by the outer classes oldest first. */
  lemma AddAllFromEmpty(o: Stack)
    requires o.layers == []
    ensures forall calls :: AddAll(o, calls).layers == NewestInnerFirst(calls) + OldestOuterFirst(calls)
  {
    forall calls ensures AddAll(o, calls).layers == NewestInnerFirst(calls) + OldestOuterFirst(calls) {
      AddAllOrder(o, calls);
      assert NewestInnerFirst(calls) + o.layers == NewestInnerFirst(calls);
    }
  }

  /** `addLayer($class, $parameters, $inner)`: records the parameters for the
      class (replacing earlier ones, even with null) and puts the class at the
      innermost (index 0) or outermost (last) position. Returns the new stack
      and the number of layers, as `array_unshift` / `array_push` do. */
  function AddLayer(o: Stack, name: ClassName, parameters: Option<Parameters>, inner: bool): (r: (Stack, nat))
    ensures r.1 == |r.0.layers| == |o.layers| + 1
    ensures r.0.layers == if inner then [name] + o.layers else o.layers + [name]
    ensures multiset(r.0.layers) == multiset(o.layers) + multiset{name}
    ensures name in r.0.parameters && r.0.parameters[name] == parameters
    ensures forall c :: c != name ==> (c in r.0.parameters <==> c in o.parameters)
    ensures forall c :: c != name && c in o.parameters ==> r.0.parameters[c] == o.parameters[c]
    ensures r.0.action == o.action && r.0.expectedInterface == o.expectedInterface
    ensures r.0.parameterSetter == o.parameterSetter
  {
    var layers := if inner then [name] + o.layers else o.layers + [name];
    (o.(layers := layers, parameters := o.parameters[name := parameters]), |layers|)
  }

  /** `addInnerLayer($class, $parameters)`. */
  function AddInnerLayer(o: Stack, name: ClassName, parameters: Option<Parameters>): (r: (Stack, nat))
    ensures r.0.layers == [name] + o.layers && r.1 == |o.layers| + 1
  {
    AddLayer(o, name, parameters, true)
  }

  /** `addOuterLayer($class, $parameters)`. */
  function AddOuterLayer(o: Stack, name: ClassName, parameters: Option<Parameters>): (r: (Stack, nat))
    ensures r.0.layers == o.layers + [name] && r.1 == |o.layers| + 1
  {
    AddLayer(o, name, parameters, false)
  }

  /** One call of `addLayer`. */
  datatype Insertion = Insertion(name: ClassName, parameters: Option<Parameters>, inner: bool)

  /** The stack after the given `addLayer` calls, made in order. */
  function AddAll(o: Stack, calls: seq<Insertion>): Stack
    decreases |calls|
  {
    if |calls| == 0 then o
    else
      var c := calls[|calls| - 1];
      AddLayer(AddAll(o, calls[..|calls| - 1]), c.name, c.parameters, c.inner).0
  }

  /** The classes of the inner insertions, most recent first. */
  function NewestInnerFirst(calls: seq<Insertion>): seq<ClassName>
    decreases |calls|
  {
    if |calls| == 0 then []
    else
      var c := calls[|calls| - 1];
      (if c.inner then [c.name] else []) + NewestInnerFirst(calls[..|calls| - 1])
  }

  /** The classes of the outer insertions, oldest first. */
  function OldestOuterFirst(calls: seq<Insertion>): seq<ClassName>
    decreases |calls|
  {
    if |calls| == 0 then []
    else
      var c := calls[|calls| - 1];
      OldestOuterFirst(calls[..|calls| - 1]) + (if c.inner then [] else [c.name])
  }

  /** The classes of the calls, in call order. */
  function CallNames(calls: seq<Insertion>): (r: seq<ClassName>)
    ensures |r| == |calls|
    ensures forall i :: 0 <= i < |calls| ==> r[i] == calls[i].name
  {
    seq(|calls|, i requires 0 <= i < |calls| => calls[i].name)
  }

  /** Only inner insertions: the classes in reverse call order, in front of
      the layers already there. */
  lemma InnerOnlyReverses(o: Stack, calls: seq<Insertion>)
    requires forall i :: 0 <= i < |calls| ==> calls[i].inner
    ensures AddAll(o, calls).layers == Reverse(CallNames(calls)) + o.layers
  {
    AddAllOrder(o, calls);
    InnerNames(calls);
    assert Reverse(CallNames(calls)) + o.layers + [] == Reverse(CallNames(calls)) + o.layers;
  }

  lemma {:induction false} InnerNames(calls: seq<Insertion>)
    requires forall i :: 0 <= i < |calls| ==> calls[i].inner
    ensures NewestInnerFirst(calls) == Reverse(CallNames(calls))
    ensures OldestOuterFirst(calls) == []
    decreases |calls|
  {
    if |calls| > 0 {
      var init := calls[..|calls| - 1];
      InnerNames(init);
      assert CallNames(calls)[..|calls| - 1] == CallNames(init);
    }
  }

  /** Only outer insertions: the layers already there, then the classes in
      call order. */
  lemma OuterOnlyKeepsOrder(o: Stack, calls: seq<Insertion>)
    requires forall i :: 0 <= i < |calls| ==> !calls[i].inner
    ensures AddAll(o, calls).layers == o.layers + CallNames(calls)
  {
    AddAllOrder(o, calls);
    OuterNames(calls);
    assert [] + o.layers == o.layers;
  }

  lemma {:induction false} OuterNames(calls: seq<Insertion>)
    requires forall i :: 0 <= i < |calls| ==> !calls[i].inner
    ensures NewestInnerFirst(calls) == []
    ensures OldestOuterFirst(calls) == CallNames(calls)
    decreases |calls|
  {
    if |calls| > 0 {
      var init := calls[..|calls| - 1];
      OuterNames(init);
      assert CallNames(calls) == CallNames(init) + [calls[|calls| - 1].name];
    }
  }

  /** Layer order after any sequence of insertions: the inner insertions in
      reverse call order, then the layers already there, then the outer
      insertions in call order. */
  lemma {:induction false} AddAllOrder(o: Stack, calls: seq<Insertion>)
    ensures AddAll(o, calls).layers == NewestInnerFirst(calls) + o.layers + OldestOuterFirst(calls)
    decreases |calls|
  {
    if |calls| > 0 {
      var init := calls[..|calls| - 1];
      var c := calls[|calls| - 1];
      AddAllOrder(o, init);
      var before := AddAll(o, init).layers;
      assert AddAll(o, calls).layers == if c.inner then [c.name] + before else before + [c.name];
      var inner, outer := NewestInnerFirst(init), OldestOuterFirst(init);
      if c.inner {
        assert NewestInnerFirst(calls) == [c.name] + inner;
        assert OldestOuterFirst(calls) == outer;
        ConcatAssoc([c.name], inner, o.layers);
        ConcatAssoc([c.name], inner + o.layers, outer);
      } else {
        assert NewestInnerFirst(calls) == inner;
        assert OldestOuterFirst(calls) == outer + [c.name];
        ConcatAssoc(inner + o.layers, outer, [c.name]);
      }
    }
  }

  /** Each class keeps the parameters of its most recent registration. */
  lemma {:induction false} AddAllParameters(o: Stack, calls: seq<Insertion>, i: nat)
    requires i < |calls|
    requires forall j :: i < j < |calls| ==> calls[j].name != calls[i].name
    ensures calls[i].name in AddAll(o, calls).parameters
    ensures AddAll(o, calls).parameters[calls[i].name] == calls[i].parameters
    decreases |calls|
  {
    if i < |calls| - 1 {
      AddAllParameters(o, calls[..|calls| - 1], i);
    }
  }

  /** Three inner insertions a, b, c leave the order [c, b, a]. */
  lemma InnerInsertionsReverse(o: Stack, calls: seq<Insertion>)
    requires o.layers == []
    requires calls == [Insertion("a", None, true), Insertion("b", None, true), Insertion("c", None, true)]
    ensures AddAll(o, calls).layers == ["c", "b", "a"]
  {
    InnerOnlyReverses(o, calls);
    assert CallNames(calls) == ["a", "b", "c"];
    ReverseThree("a", "b", "c");
  }

  lemma ReverseThree<T>(x: T, y: T, z: T)
    ensures Reverse([x, y, z]) == [z, y, x]
  {
    assert [x, y, z][..2] == [x, y] && [x, y][..1] == [x] && [x][..0] == [];
    assert Reverse([x]) == [x];
    assert Reverse([x, y]) == [y, x];
  }

  /** Three outer insertions a, b, c leave the order [a, b, c]. */
  lemma OuterInsertionsKeepOrder(o: Stack, calls: seq<Insertion>)
    requires o.layers == []
    requires calls == [Insertion("a", None, false), Insertion("b", None, false), Insertion("c", None, false)]
    ensures AddAll(o, calls).layers == ["a", "b", "c"]
  {
    OuterOnlyKeepsOrder(o, calls);
    assert CallNames(calls) == ["a", "b", "c"];
  }

  /** Outer a, inner b, outer c leave the order [b, a, c]. */
  lemma MixedInsertions(o: Stack, calls: seq<Insertion>)
    requires o.layers == []
    requires calls == [Insertion("a", None, false), Insertion("b", None, true), Insertion("c", None, false)]
    ensures AddAll(o, calls).layers == ["b", "a", "c"]
  {
    AddAllOrder(o, calls);
    assert calls[..1] == [calls[0]] && calls[..2] == [calls[0], calls[1]];
    assert calls[..1][..0] == [] && calls[..2][..1] == calls[..1];
    assert NewestInnerFirst(calls[..1]) == [] && OldestOuterFirst(calls[..1]) == ["a"];
  }

  // ---------------------------------------------------------------------------
  // Parameters and the middleware factory

  /** `$parameters[$middleware] ?? []` for the call-time parameters. */
  function CallTimeParameters(callParameters: map<ClassName, Parameters>, name: ClassName): Parameters {
    if name in callParameters then callParameters[name] else []
  }

  /** `$this->parameters[$middleware] ?? []`: a class registered with null
      parameters has none. */
  function RegisteredParameters(o: Stack, name: ClassName): Parameters {
    if name in o.parameters then o.parameters[name].GetOr([]) else []
  }

  /** `getMiddlewareParameters`: the call-time parameters, followed by the
      registration-time ones whose keys the call-time parameters lack. */
  function MiddlewareParameters(o: Stack, callParameters: map<ClassName, Parameters>, name: ClassName): (r: Parameters)
    ensures forall k :: HasKey(CallTimeParameters(callParameters, name), k) ==>
              Get(r, k) == Get(CallTimeParameters(callParameters, name), k)
    ensures forall k :: !HasKey(CallTimeParameters(callParameters, name), k) ==>
              Get(r, k) == Get(RegisteredParameters(o, name), k)
    ensures forall k :: HasKey(r, k) <==>
              HasKey(CallTimeParameters(callParameters, name), k) || HasKey(RegisteredParameters(o, name), k)
    ensures name !in callParameters && (name !in o.parameters || o.parameters[name].None?) ==> r == []
  {
    Union(CallTimeParameters(callParameters, name), RegisteredParameters(o, name))
  }

  /** For example: {x:1, y:2} registered and {y:3, z:4} at call time give
      x = 1, y = 3, z = 4. */
  lemma ParameterPrecedenceExample(o: Stack)
    requires o.parameters == map["m" := Some([Entry("x", Int(1)), Entry("y", Int(2))])]
    ensures var r := MiddlewareParameters(o, map["m" := [Entry("y", Int(3)), Entry("z", Int(4))]], "m");
            Get(r, "x") == Some(Int(1)) && Get(r, "y") == Some(Int(3)) && Get(r, "z") == Some(Int(4))
            && r == [Entry("y", Int(3)), Entry("z", Int(4)), Entry("x", Int(1))]
  {
  }

  /** What the container is asked for: the effective parameters in
      constructor mode, nothing when a parameter setter is configured. */
  function ResolutionArguments(o: Stack, callParameters: map<ClassName, Parameters>, name: ClassName): Parameters {
    if o.parameterSetter.None? then MiddlewareParameters(o, callParameters, name) else []
  }

  /** The middleware satisfies the configured interface requirement. */
  predicate Supports(o: Stack, m: Middleware) {
    o.expectedInterface.None? || o.expectedInterface.value in m.interfaces
  }

  /** `$middleware->{$setter}($parameters)`: None when the setter returns,
      its exception when it throws; a missing setter is an error too. */
  function CallSetter(m: Middleware, setter: string, parameters: Parameters): Option<Error> {
    if setter in m.setters then m.setters[setter](parameters) else Some(UndefinedMethod(setter))
  }

  /** The factory builds this class without raising an exception. */
  predicate Accepts(o: Stack, resolve: (ClassName, Parameters) -> Option<Middleware>,
                    callParameters: map<ClassName, Parameters>, name: ClassName)
  {
    var m := resolve(name, ResolutionArguments(o, callParameters, name));
    && m.Some? && Supports(o, m.value)
    && (o.parameterSetter.Some? ==>
          CallSetter(m.value, o.parameterSetter.value, MiddlewareParameters(o, callParameters, name)).None?)
  }

  datatype Built = Built(result: Result<Middleware, Error>, events: seq<Event>)

  /** `middlewareFactory($layer, $middlewareParameters)`. */
  function Factory(o: Stack, resolve: (ClassName, Parameters) -> Option<Middleware>,
                   callParameters: map<ClassName, Parameters>, name: ClassName): (b: Built)
    ensures b.result.Success? <==> Accepts(o, resolve, callParameters, name)
    ensures b.result.Success? ==> Some(b.result.value) == resolve(name, ResolutionArguments(o, callParameters, name))
    ensures 1 <= |b.events| <= 2 && b.events[0] == Resolved(name, ResolutionArguments(o, callParameters, name))
    ensures |b.events| == 2 ==> b.events[1].ParametersSet?
  {
    var parameters := MiddlewareParameters(o, callParameters, name);
    var arguments := ResolutionArguments(o, callParameters, name);
    var resolved := [Resolved(name, arguments)];
    match resolve(name, arguments)
    case None => Built(Failure(UnresolvableClass(name)), resolved)
    case Some(m) =>
      if !Supports(o, m) then Built(Failure(UnsupportedMiddleware(UnsupportedMessage(o.expectedInterface.value))), resolved)
      else if o.parameterSetter.Some? then
        var called := resolved + [ParametersSet(name, o.parameterSetter.value, parameters)];
        match CallSetter(m, o.parameterSetter.value, parameters)
        case Some(e) => Built(Failure(e), called)
        case None => Built(Success(m), called)
      else Built(Success(m), resolved)
  }

  /** In constructor mode the container receives the effective parameters;
      in setter mode it receives none, and the setter is called once with
      them, only after the interface check, and its exception is the
      factory's; an unresolvable class and an unsupported middleware are
      reported as such, before any setter call. */
  lemma FactoryEvents(o: Stack, resolve: (ClassName, Parameters) -> Option<Middleware>,
                      callParameters: map<ClassName, Parameters>, name: ClassName)
    ensures var b := Factory(o, resolve, callParameters, name);
            var m := resolve(name, ResolutionArguments(o, callParameters, name));
            var p := MiddlewareParameters(o, callParameters, name);
            && (o.parameterSetter.None? ==> b.events == [Resolved(name, p)])
            && (m.None? ==> b.result == Failure(UnresolvableClass(name)) && |b.events| == 1)
            && (m.Some? && !Supports(o, m.value) ==>
                  b.result == Failure(UnsupportedMiddleware(UnsupportedMessage(o.expectedInterface.value))) && |b.events| == 1)
            && (m.Some? && Supports(o, m.value) && o.parameterSetter.Some? ==>
                  && b.events == [Resolved(name, []), ParametersSet(name, o.parameterSetter.value, p)]
                  && (b.result.Failure? ==> Some(b.result.error) == CallSetter(m.value, o.parameterSetter.value, p)))
  {
    var b := Factory(o, resolve, callParameters, name);
    var arguments := ResolutionArguments(o, callParameters, name);
    var m := resolve(name, arguments);
    var p := MiddlewareParameters(o, callParameters, name);
    if o.parameterSetter.None? {
      assert arguments == p;
    } else if m.Some? && Supports(o, m.value) {
      assert arguments == [];
      assert b.events == [Resolved(name, []), ParametersSet(name, o.parameterSetter.value, p)];
    }
  }

  /** The parameters a built middleware received: those of the setter call
      when there is one, otherwise the resolution arguments. */
  function Delivered(events: seq<Event>): Parameters
    decreases |events|
  {
    if |events| == 0 then []
    else if events[|events| - 1].ParametersSet? then events[|events| - 1].parameters
    else if events[|events| - 1].Resolved? && forall e | e in events[..|events| - 1] :: !e.ParametersSet? then
      events[|events| - 1].given
    else Delivered(events[..|events| - 1])
  }

  /** Constructor injection and setter injection hand the middleware the same
      effective parameters. */
  lemma ModesDeliverSameParameters(o: Stack, resolve: (ClassName, Parameters) -> Option<Middleware>,
                                   callParameters: map<ClassName, Parameters>, name: ClassName, setter: string)
    requires Accepts(o.(parameterSetter := None), resolve, callParameters, name)
    requires Accepts(o.(parameterSetter := Some(setter)), resolve, callParameters, name)
    ensures Delivered(Factory(o.(parameterSetter := None), resolve, callParameters, name).events)
            == MiddlewareParameters(o, callParameters, name)
    ensures Delivered(Factory(o.(parameterSetter := Some(setter)), resolve, callParameters, name).events)
            == MiddlewareParameters(o, callParameters, name)
  {
    FactoryDelivers(o.(parameterSetter := None), resolve, callParameters, name);
    FactoryDelivers(o.(parameterSetter := Some(setter)), resolve, callParameters, name);
    assert RegisteredParameters(o.(parameterSetter := None), name) == RegisteredParameters(o, name);
    assert RegisteredParameters(o.(parameterSetter := Some(setter)), name) == RegisteredParameters(o, name);
  }

  /** A built middleware receives the effective parameters, whichever way
      they are injected. */
  lemma FactoryDelivers(o: Stack, resolve: (ClassName, Parameters) -> Option<Middleware>,
                        callParameters: map<ClassName, Parameters>, name: ClassName)
    requires Accepts(o, resolve, callParameters, name)
    ensures Delivered(Factory(o, resolve, callParameters, name).events) == MiddlewareParameters(o, callParameters, name)
  {
    FactoryEvents(o, resolve, callParameters, name);
    var p := MiddlewareParameters(o, callParameters, name);
    if o.parameterSetter.None? {
      DeliveredByConstructor(name, p);
    } else {
      DeliveredBySetter(name, o.parameterSetter.value, p);
    }
  }

  lemma DeliveredByConstructor(name: ClassName, p: Parameters)
    ensures Delivered([Resolved(name, p)]) == p
  {
    assert [Resolved(name, p)][..0] == [];
  }

  lemma DeliveredBySetter(name: ClassName, setter: string, p: Parameters)
    ensures Delivered([Resolved(name, []), ParametersSet(name, setter, p)]) == p
  {
  }

  /** Builds the layers from index 0 (innermost) upwards, as the loop in
      `peel` does; stops at the first exception. Only factory events occur. */
  function Materialize(o: Stack, resolve: (ClassName, Parameters) -> Option<Middleware>,
                       callParameters: map<ClassName, Parameters>, names: seq<ClassName>): (r: (Result<seq<Instance>, Error>, seq<Event>))
    ensures forall e | e in r.1 :: e.Resolved? || e.ParametersSet?
    decreases |names|
  {
    if |names| == 0 then (Success([]), [])
    else
      var b := Factory(o, resolve, callParameters, names[0]);
      match b.result
      case Failure(e) => (Failure(e), b.events)
      case Success(m) =>
        var rest := Materialize(o, resolve, callParameters, names[1..]);
        match rest.0
        case Failure(e) => (Failure(e), b.events + rest.1)
        case Success(ms) => (Success([Instance(names[0], m)] + ms), b.events + rest.1)
  }

  /** Every layer is built, or the first exception is raised: materialising
      succeeds exactly when the factory accepts every class, and then yields
      one instance per class, in order, each as the container resolved it. */
  lemma MaterializeSpec(o: Stack, resolve: (ClassName, Parameters) -> Option<Middleware>,
                        callParameters: map<ClassName, Parameters>, names: seq<ClassName>)
    ensures var r := Materialize(o, resolve, callParameters, names);
            && (r.0.Success? <==> forall i :: 0 <= i < |names| ==> Accepts(o, resolve, callParameters, names[i]))
            && (r.0.Success? ==> |r.0.value| == |names|)
            && (r.0.Success? ==>
                  forall i :: 0 <= i < |names| ==>
                    r.0.value[i].name == names[i]
                    && Some(r.0.value[i].middleware) == resolve(names[i], ResolutionArguments(o, callParameters, names[i])))
  {
    MaterializeSucceeds(o, resolve, callParameters, names);
    if Materialize(o, resolve, callParameters, names).0.Success? {
      MaterializeInstances(o, resolve, callParameters, names);
    }
  }

  lemma {:induction false} MaterializeSucceeds(o: Stack, resolve: (ClassName, Parameters) -> Option<Middleware>,
                                               callParameters: map<ClassName, Parameters>, names: seq<ClassName>)
    ensures Materialize(o, resolve, callParameters, names).0.Success?
            <==> forall i :: 0 <= i < |names| ==> Accepts(o, resolve, callParameters, names[i])
    decreases |names|
  {
    if |names| > 0 {
      MaterializeSucceeds(o, resolve, callParameters, names[1..]);
      MaterializeSucceedsStep(o, resolve, callParameters, names);
      AcceptsAllCons(o, resolve, callParameters, names);
    }
  }

  lemma AcceptsAllCons(o: Stack, resolve: (ClassName, Parameters) -> Option<Middleware>,
                       callParameters: map<ClassName, Parameters>, names: seq<ClassName>)
    requires |names| > 0
    ensures (forall i :: 0 <= i < |names| ==> Accepts(o, resolve, callParameters, names[i]))
            <==> Accepts(o, resolve, callParameters, names[0])
                 && forall i :: 0 <= i < |names[1..]| ==> Accepts(o, resolve, callParameters, names[1..][i])
  {
    var tail := names[1..];
    if forall i :: 0 <= i < |names| ==> Accepts(o, resolve, callParameters, names[i]) {
      forall i | 0 <= i < |tail| ensures Accepts(o, resolve, callParameters, tail[i]) {
        assert tail[i] == names[i + 1];
      }
    }
    if Accepts(o, resolve, callParameters, names[0])
       && forall i :: 0 <= i < |tail| ==> Accepts(o, resolve, callParameters, tail[i]) {
      forall i | 0 <= i < |names| ensures Accepts(o, resolve, callParameters, names[i]) {
        if i > 0 {
          assert names[i] == tail[i - 1];
        }
      }
    }
  }

  lemma MaterializeSucceedsStep(o: Stack, resolve: (ClassName, Parameters) -> Option<Middleware>,
                                callParameters: map<ClassName, Parameters>, names: seq<ClassName>)
    requires |names| > 0
    ensures Materialize(o, resolve, callParameters, names).0.Success?
            <==> Accepts(o, resolve, callParameters, names[0]) && Materialize(o, resolve, callParameters, names[1..]).0.Success?
  {
  }

  /** `ms` holds one instance per class of `names`, in order, each as the
      container resolved it. */
  ghost predicate ResolvedAs(o: Stack, resolve: (ClassName, Parameters) -> Option<Middleware>,
                       callParameters: map<ClassName, Parameters>, names: seq<ClassName>, ms: seq<Instance>)
  {
    && |ms| == |names|
    && forall i :: 0 <= i < |names| ==>
         ms[i].name == names[i]
         && Some(ms[i].middleware) == resolve(names[i], ResolutionArguments(o, callParameters, names[i]))
  }

  lemma ResolvedAsCons(o: Stack, resolve: (ClassName, Parameters) -> Option<Middleware>,
                       callParameters: map<ClassName, Parameters>, names: seq<ClassName>, ms: seq<Instance>, m: Instance)
    requires |names| > 0 && ResolvedAs(o, resolve, callParameters, names[1..], ms)
    requires m.name == names[0] && Some(m.middleware) == resolve(names[0], ResolutionArguments(o, callParameters, names[0]))
    ensures ResolvedAs(o, resolve, callParameters, names, [m] + ms)
  {
    forall i | 1 <= i < |names|
      ensures ([m] + ms)[i] == ms[i - 1] && names[i] == names[1..][i - 1]
    {
    }
  }

  lemma {:induction false} MaterializeInstances(o: Stack, resolve: (ClassName, Parameters) -> Option<Middleware>,
                                                callParameters: map<ClassName, Parameters>, names: seq<ClassName>)
    requires Materialize(o, resolve, callParameters, names).0.Success?
    ensures ResolvedAs(o, resolve, callParameters, names, Materialize(o, resolve, callParameters, names).0.value)
    decreases |names|
  {
    if |names| > 0 {
      var b := Factory(o, resolve, callParameters, names[0]);
      var rest := Materialize(o, resolve, callParameters, names[1..]);
      assert b.result.Success? && rest.0.Success?;
      MaterializeInstances(o, resolve, callParameters, names[1..]);
      assert Materialize(o, resolve, callParameters, names).0.value == [Instance(names[0], b.result.value)] + rest.0.value;
      ResolvedAsCons(o, resolve, callParameters, names, rest.0.value, Instance(names[0], b.result.value));
    }
  }

  /** The classes resolved, in the order the container was asked for them. */
  function ResolvedNames(events: seq<Event>): seq<ClassName>
    decreases |events|
  {
    if |events| == 0 then []
    else (if events[0].Resolved? then [events[0].layer] else []) + ResolvedNames(events[1..])
  }

  lemma {:induction false} ResolvedNamesConcat(a: seq<Event>, b: seq<Event>)
    ensures ResolvedNames(a + b) == ResolvedNames(a) + ResolvedNames(b)
    decreases |a|
  {
    if |a| > 0 {
      assert (a + b)[1..] == a[1..] + b;
      ResolvedNamesConcat(a[1..], b);
    } else {
      assert a + b == b;
    }
  }

  /** When every layer can be built, they are built innermost first, each
      exactly once, in the order of the layer list. */
  lemma {:induction false} MaterializeOrder(o: Stack, resolve: (ClassName, Parameters) -> Option<Middleware>,
                                            callParameters: map<ClassName, Parameters>, names: seq<ClassName>)
    requires Materialize(o, resolve, callParameters, names).0.Success?
    ensures ResolvedNames(Materialize(o, resolve, callParameters, names).1) == names
    decreases |names|
  {
    if |names| > 0 {
      var b := Factory(o, resolve, callParameters, names[0]);
      var rest := Materialize(o, resolve, callParameters, names[1..]);
      var all := Materialize(o, resolve, callParameters, names);
      MaterializeCons(o, resolve, callParameters, names);
      MaterializeOrder(o, resolve, callParameters, names[1..]);
      ResolvedNamesConcat(b.events, rest.1);
      FactoryResolvesOnce(o, resolve, callParameters, names[0]);
      assert ResolvedNames(all.1) == [names[0]] + names[1..];
      assert [names[0]] + names[1..] == names;
    }
  }

  /** A successful `Materialize` is a successful factory call followed by a
      successful `Materialize` of the remaining classes. */
  lemma MaterializeCons(o: Stack, resolve: (ClassName, Parameters) -> Option<Middleware>,
                        callParameters: map<ClassName, Parameters>, names: seq<ClassName>)
    requires |names| > 0 && Materialize(o, resolve, callParameters, names).0.Success?
    ensures Factory(o, resolve, callParameters, names[0]).result.Success?
    ensures Materialize(o, resolve, callParameters, names[1..]).0.Success?
    ensures Materialize(o, resolve, callParameters, names).1
            == Factory(o, resolve, callParameters, names[0]).events + Materialize(o, resolve, callParameters, names[1..]).1
  {
  }

  /** The factory asks the container exactly once. */
  lemma FactoryResolvesOnce(o: Stack, resolve: (ClassName, Parameters) -> Option<Middleware>,
                            callParameters: map<ClassName, Parameters>, name: ClassName)
    ensures ResolvedNames(Factory(o, resolve, callParameters, name).events) == [name]
  {
    ResolvedOnce(Factory(o, resolve, callParameters, name).events);
  }

  /** One resolution, possibly followed by a setter call, resolves one class. */
  lemma ResolvedOnce(ev: seq<Event>)
    requires 1 <= |ev| <= 2 && ev[0].Resolved?
    requires |ev| == 2 ==> ev[1].ParametersSet?
    ensures ResolvedNames(ev) == [ev[0].layer]
  {
    if |ev| == 2 {
      assert ev[1..][0] == ev[1] && !ev[1].Resolved? && ev[1..][1..] == [];
      assert ResolvedNames(ev[1..]) == [];
    } else {
      assert ev[1..] == [];
    }
  }


  // ---------------------------------------------------------------------------
  // The chain of closures

  /** A closure built by `peel`: the core closure of `buildCoreClosure`, or a
      layer closure of `buildLayerClosure` holding the middleware and the
      closure it passes on as `$next`. */
  datatype Continuation =
    | Core(target: Target, action: string)
    | Layer(instance: Instance, next: Continuation)

  /** The loop of `peel`: starting from `next`, wrap each instance in turn,
      index 0 first, so the last instance ends up outermost. */
  function Wrap(instances: seq<Instance>, next: Continuation): Continuation
    decreases |instances|
  {
    if |instances| == 0 then next else Wrap(instances[1..], Layer(instances[0], next))
  }

  /** The chain over layers 0..i is layer i wrapped around the chain over
      layers 0..i-1. */
  lemma {:induction false} WrapLast(instances: seq<Instance>, m: Instance, next: Continuation)
    ensures Wrap(instances + [m], next) == Layer(m, Wrap(instances, next))
    decreases |instances|
  {
    if |instances| > 0 {
      assert (instances + [m])[1..] == instances[1..] + [m];
      WrapLast(instances[1..], m, Layer(instances[0], next));
    }
  }

  /** Wrapping in two batches is wrapping once. */
  lemma {:induction false} WrapSplit(inner: seq<Instance>, outer: seq<Instance>, next: Continuation)
    ensures Wrap(inner + outer, next) == Wrap(outer, Wrap(inner, next))
    decreases |inner|
  {
    if |inner| > 0 {
      assert (inner + outer)[1..] == inner[1..] + outer;
      WrapSplit(inner[1..], outer, Layer(inner[0], next));
    } else {
      assert inner + outer == outer;
    }
  }

  /** The core closure: a `Closure` target is called directly, any other
      target has the configured method called on it. */
  function CallCore(target: Target, action: string, arguments: seq<Value>): (r: Result<Value, Error>)
    ensures target.Closure? ==> r == target.call(arguments)
    ensures target.Object? && action in target.methods ==> r == target.methods[action](arguments)
    ensures target.Object? && action !in target.methods ==> r == Failure(UndefinedMethod(action))
  {
    match target
    case Closure(f) => f(arguments)
    case Object(methods) =>
      if action in methods then methods[action](arguments) else Failure(UndefinedMethod(action))
  }

  /** An `Exited` event when the layer returned, none when it threw. */
  function ExitIfReturned(name: ClassName, result: Result<Value, Error>): seq<Event> {
    if result.Success? then [Exited(name)] else []
  }

  /** What a layer that called `$next` returns: an exception from `$next`
      unchanged, otherwise what its `after` makes of the value. */
  function Then(inner: Result<Value, Error>, b: Behaviour): Result<Value, Error> {
    if inner.Failure? then inner else AfterOf(b, inner.value)
  }

  /** Calling a closure: the core runs the target; a layer calls the
      middleware's `execute` with the arguments followed by its `next`.
      Every event of a run is an execution event, none a factory event. */
  function Run(c: Continuation, arguments: seq<Value>): (r: Outcome)
    ensures forall e | e in r.trace :: !IsFactoryEvent(e)
    decreases c
  {
    match c
    case Core(target, action) => Outcome(CallCore(target, action, arguments), [CoreCalled(arguments)])
    case Layer(instance, next) =>
      var enter := Entered(instance.name, arguments);
      match instance.middleware.behaviour
      case ShortCircuit(v) => Outcome(v, [enter] + ExitIfReturned(instance.name, v))
      case _ =>
        var b := instance.middleware.behaviour;
        var inner := Run(next, BeforeOf(b, arguments));
        var result := Then(inner.result, b);
        Outcome(result, [enter] + inner.trace + ExitIfReturned(instance.name, result))
  }

  /** `peel($object, $parameters, $middlewareParameters)`: build every layer,
      innermost first, then call the outermost closure. It returns a value
      only when every layer could be built, and every layer is built before
      any of them runs. */
  function Peel(o: Stack, resolve: (ClassName, Parameters) -> Option<Middleware>, target: Target,
                arguments: seq<Value>, callParameters: map<ClassName, Parameters>): (r: Outcome)
    ensures r.result.Success? ==> forall i :: 0 <= i < |o.layers| ==> Accepts(o, resolve, callParameters, o.layers[i])
    ensures BuiltBeforeRun(r.trace)
  {
    var (built, events) := Materialize(o, resolve, callParameters, o.layers);
    MaterializeSucceeds(o, resolve, callParameters, o.layers);
    match built
    case Failure(e) =>
      FactoryThenRun(events, []);
      assert events + [] == events;
      Outcome(Failure(e), events)
    case Success(instances) =>
      var run := Run(Wrap(instances, Core(target, o.action)), arguments);
      FactoryThenRun(events, run.trace);
      Outcome(run.result, events + run.trace)
  }

  // ---------------------------------------------------------------------------
  // What a run does, stated without the nesting of closures

  predicate NoShortCircuit(instances: seq<Instance>) {
    forall i :: 0 <= i < |instances| ==> !instances[i].middleware.behaviour.ShortCircuit?
  }

  /** The arguments a layer passes on to `$next`. */
  function BeforeOf(b: Behaviour, arguments: seq<Value>): seq<Value> {
    match b
    case Transform(before, _) => before(arguments)
    case _ => arguments
  }

  /** What a layer makes of the value `$next` returned: a value, or an
      exception thrown after `$next` returned. */
  function AfterOf(b: Behaviour, v: Value): Result<Value, Error> {
    match b
    case Transform(_, after) => after(v)
    case _ => Success(v)
  }

  /** The arguments after every layer's `before`, applied outermost (last
      index) first. */
  function Befores(instances: seq<Instance>, arguments: seq<Value>): seq<Value>
    decreases |instances|
  {
    if |instances| == 0 then arguments
    else
      var last := instances[|instances| - 1];
      Befores(instances[..|instances| - 1], BeforeOf(last.middleware.behaviour, arguments))
  }

  /** A value after every layer's `after`, applied innermost (index 0)
      first; the first exception thrown passes through the rest. */
  function Afters(instances: seq<Instance>, v: Value): Result<Value, Error>
    decreases |instances|
  {
    if |instances| == 0 then Success(v)
    else
      var last := instances[|instances| - 1];
      Then(Afters(instances[..|instances| - 1], v), last.middleware.behaviour)
  }

  /** The classes of the instances, in order. */
  function Names(instances: seq<Instance>): (r: seq<ClassName>)
    ensures |r| == |instances|
    ensures forall i :: 0 <= i < |instances| ==> r[i] == instances[i].name
    decreases |instances|
  {
    if |instances| == 0 then []
    else Names(instances[..|instances| - 1]) + [instances[|instances| - 1].name]
  }

  function Reverse<T>(s: seq<T>): (r: seq<T>)
    ensures |r| == |s|
    decreases |s|
  {
    if |s| == 0 then [] else [s[|s| - 1]] + Reverse(s[..|s| - 1])
  }

  /** The layers whose `execute` was called, in call order. */
  function EnteredNames(trace: seq<Event>): seq<ClassName>
    decreases |trace|
  {
    if |trace| == 0 then []
    else (if trace[0].Entered? then [trace[0].layer] else []) + EnteredNames(trace[1..])
  }

  /** The arguments of every call of the decorated target, in call order. */
  function CoreCalls(trace: seq<Event>): seq<seq<Value>>
    decreases |trace|
  {
    if |trace| == 0 then []
    else (if trace[0].CoreCalled? then [trace[0].arguments] else []) + CoreCalls(trace[1..])
  }

  lemma {:induction false} FiltersConcat(a: seq<Event>, b: seq<Event>)
    ensures EnteredNames(a + b) == EnteredNames(a) + EnteredNames(b)
    ensures CoreCalls(a + b) == CoreCalls(a) + CoreCalls(b)
    decreases |a|
  {
    if |a| > 0 {
      assert (a + b)[1..] == a[1..] + b;
      FiltersConcat(a[1..], b);
    } else {
      assert a + b == b;
    }
  }

  /** One layer that calls `$next`: it is entered with the call arguments,
      `$next` runs with what the layer passes on, an exception from `$next`
      passes through unchanged and a value goes through the layer's `after`;
      the layer is left only when it returns. */
  lemma RunLayer(instance: Instance, next: Continuation, arguments: seq<Value>)
    requires !instance.middleware.behaviour.ShortCircuit?
    ensures var b := instance.middleware.behaviour;
            var inner := Run(next, BeforeOf(b, arguments));
            var outer := Run(Layer(instance, next), arguments);
            && (inner.result.Failure? ==> outer.result == inner.result)
            && (inner.result.Success? ==> outer.result == AfterOf(b, inner.result.value))
            && outer.trace == [Entered(instance.name, arguments)] + inner.trace
                              + ExitIfReturned(instance.name, outer.result)
  {
  }

  /** Layers that all call `$next` once: the inner continuation runs once,
      with every `before` applied outermost first; an exception it throws
      passes through every layer unchanged, and a value it returns goes
      through every `after`, innermost first. */
  lemma {:induction false} RunThroughResult(instances: seq<Instance>, next: Continuation, arguments: seq<Value>)
    requires NoShortCircuit(instances)
    ensures var outer := Run(Wrap(instances, next), arguments);
            var inner := Run(next, Befores(instances, arguments));
            && (inner.result.Failure? ==> outer.result == inner.result)
            && (inner.result.Success? ==> outer.result == Afters(instances, inner.result.value))
    decreases |instances|
  {
    if |instances| > 0 {
      var init := instances[..|instances| - 1];
      var last := instances[|instances| - 1];
      assert instances == init + [last];
      assert forall i :: 0 <= i < |init| ==> init[i] == instances[i];
      WrapLast(init, last, next);
      var passed := BeforeOf(last.middleware.behaviour, arguments);
      RunThroughResult(init, next, passed);
      RunLayer(last, Wrap(init, next), arguments);
    }
  }

  /** Layers that all call `$next` once are entered from the outermost (last
      added) to the innermost, and the inner continuation's calls of the
      decorated target are the only ones. */
  lemma {:induction false} RunThroughTrace(instances: seq<Instance>, next: Continuation, arguments: seq<Value>)
    requires NoShortCircuit(instances)
    ensures var outer := Run(Wrap(instances, next), arguments);
            var inner := Run(next, Befores(instances, arguments));
            && EnteredNames(outer.trace) == Reverse(Names(instances)) + EnteredNames(inner.trace)
            && CoreCalls(outer.trace) == CoreCalls(inner.trace)
    decreases |instances|
  {
    if |instances| > 0 {
      var init := instances[..|instances| - 1];
      var last := instances[|instances| - 1];
      var passed := BeforeOf(last.middleware.behaviour, arguments);
      var middle := Run(Wrap(init, next), passed);
      WrapStep(instances, next, arguments);
      RunThroughTrace(init, next, passed);
      ReverseNamesLast(instances);
      TraceStep(last.name, arguments, Run(Wrap(instances, next), arguments).trace, middle.trace,
                ExitIfReturned(last.name, Run(Wrap(instances, next), arguments).result), Run(next, Befores(init, passed)).trace,
                Names(init), Names(instances));
    }
  }

  /** The induction step of `RunThroughTrace`, on traces alone. */
  lemma TraceStep(name: ClassName, arguments: seq<Value>, outer: seq<Event>, middle: seq<Event>, exit: seq<Event>,
                  inner: seq<Event>, initNames: seq<ClassName>, names: seq<ClassName>)
    requires exit == [] || exit == [Exited(name)]
    requires outer == [Entered(name, arguments)] + middle + exit
    requires EnteredNames(middle) == Reverse(initNames) + EnteredNames(inner)
    requires CoreCalls(middle) == CoreCalls(inner)
    requires Reverse(names) == [name] + Reverse(initNames)
    ensures EnteredNames(outer) == Reverse(names) + EnteredNames(inner)
    ensures CoreCalls(outer) == CoreCalls(inner)
  {
    EnteredLayerTrace(name, arguments, middle, exit);
    ConcatAssoc([name], Reverse(initNames), EnteredNames(inner));
  }

  /** Peeling off the outermost layer of a chain whose layers all call `$next`. */
  lemma WrapStep(instances: seq<Instance>, next: Continuation, arguments: seq<Value>)
    requires NoShortCircuit(instances) && |instances| > 0
    ensures var init := instances[..|instances| - 1];
            var last := instances[|instances| - 1];
            var passed := BeforeOf(last.middleware.behaviour, arguments);
            var middle := Run(Wrap(init, next), passed);
            && NoShortCircuit(init)
            && Befores(instances, arguments) == Befores(init, passed)
            && Run(Wrap(instances, next), arguments).trace
               == [Entered(last.name, arguments)] + middle.trace
                  + ExitIfReturned(last.name, Run(Wrap(instances, next), arguments).result)
  {
    var init := instances[..|instances| - 1];
    var last := instances[|instances| - 1];
    assert instances == init + [last];
    assert forall i :: 0 <= i < |init| ==> init[i] == instances[i];
    WrapLast(init, last, next);
    RunLayer(last, Wrap(init, next), arguments);
  }

  lemma ReverseNamesLast(instances: seq<Instance>)
    requires |instances| > 0
    ensures Reverse(Names(instances))
            == [instances[|instances| - 1].name] + Reverse(Names(instances[..|instances| - 1]))
  {
    var names := Names(instances);
    assert names[..|names| - 1] == Names(instances[..|instances| - 1]);
  }

  /** The trace of a layer that called `$next`, seen through the filters. */
  lemma EnteredLayerTrace(name: ClassName, arguments: seq<Value>, middle: seq<Event>, exit: seq<Event>)
    requires exit == [] || exit == [Exited(name)]
    ensures EnteredNames([Entered(name, arguments)] + middle + exit) == [name] + EnteredNames(middle)
    ensures CoreCalls([Entered(name, arguments)] + middle + exit) == CoreCalls(middle)
  {
    FiltersConcat([Entered(name, arguments)] + middle, exit);
    FiltersConcat([Entered(name, arguments)], middle);
    assert [Entered(name, arguments)][1..] == [];
    if exit != [] { assert exit[1..] == []; }
  }

  /** The position of the outermost short-circuiting layer. */
  function OutermostShortCircuit(instances: seq<Instance>): (k: nat)
    requires !NoShortCircuit(instances)
    ensures k < |instances| && instances[k].middleware.behaviour.ShortCircuit?
    ensures NoShortCircuit(instances[k + 1..])
    decreases |instances|
  {
    var last := |instances| - 1;
    if instances[last].middleware.behaviour.ShortCircuit? then
      assert instances[last + 1..] == [];
      last
    else
      var init := instances[..last];
      var k := OutermostShortCircuit(init);
      var outer := instances[k + 1..];
      var initOuter := init[k + 1..];
      assert forall i :: 0 <= i < |initOuter| ==> outer[i] == initOuter[i];
      assert outer[|outer| - 1] == instances[last];
      k
  }

  /** A layer that never calls `$next` stops the run there: the core
      closure and every layer inside it are never called; an exception it
      throws passes through the outer layers unchanged, and a value it
      returns goes through their `after`s. */
  lemma ShortCircuitStopsRun(instances: seq<Instance>, next: Continuation, arguments: seq<Value>)
    requires !NoShortCircuit(instances)
    ensures var k := OutermostShortCircuit(instances);
            var outer := Run(Wrap(instances, next), arguments);
            var response := instances[k].middleware.behaviour.response;
            && (response.Failure? ==> outer.result == response)
            && (response.Success? ==> outer.result == Afters(instances[k + 1..], response.value))
            && EnteredNames(outer.trace) == Reverse(Names(instances[k + 1..])) + [instances[k].name]
            && CoreCalls(outer.trace) == []
  {
    var k := OutermostShortCircuit(instances);
    var stop := instances[k];
    var wall := Layer(stop, Wrap(instances[..k], next));
    WrapAt(instances, k, next);
    RunThroughResult(instances[k + 1..], wall, arguments);
    RunThroughTrace(instances[k + 1..], wall, arguments);
    ShortCircuitTrace(stop, Wrap(instances[..k], next), Befores(instances[k + 1..], arguments));
  }

  /** A chain seen as the layers outside position `k` wrapped around layer
      `k` wrapped around the layers inside it. */
  lemma WrapAt(instances: seq<Instance>, k: nat, next: Continuation)
    requires k < |instances|
    ensures Wrap(instances, next) == Wrap(instances[k + 1..], Layer(instances[k], Wrap(instances[..k], next)))
  {
    assert instances == instances[..k] + [instances[k]] + instances[k + 1..];
    WrapSplit(instances[..k] + [instances[k]], instances[k + 1..], next);
    WrapLast(instances[..k], instances[k], next);
  }

  /** A short-circuiting layer is entered and returns or throws without
      calling `$next`. */
  lemma ShortCircuitTrace(stop: Instance, next: Continuation, arguments: seq<Value>)
    requires stop.middleware.behaviour.ShortCircuit?
    ensures var hit := Run(Layer(stop, next), arguments);
            && hit.result == stop.middleware.behaviour.response
            && EnteredNames(hit.trace) == [stop.name]
            && CoreCalls(hit.trace) == []
  {
    var response := stop.middleware.behaviour.response;
    var exit := ExitIfReturned(stop.name, response);
    assert Run(Layer(stop, next), arguments).trace == [Entered(stop.name, arguments)] + exit;
    FiltersConcat([Entered(stop.name, arguments)], exit);
    FiltersOfOne(Entered(stop.name, arguments));
    if response.Success? {
      FiltersOfOne(Exited(stop.name));
    }
  }

  lemma FiltersOfOne(e: Event)
    ensures EnteredNames([e]) == if e.Entered? then [e.layer] else []
    ensures CoreCalls([e]) == if e.CoreCalled? then [e.arguments] else []
  {
    assert [e][1..] == [];
  }

  /** The core closure is called exactly once when no layer short-circuits,
      and never otherwise. */
  lemma CoreRunsOnceUnlessShortCircuited(instances: seq<Instance>, target: Target, action: string, arguments: seq<Value>)
    ensures CoreCalls(Run(Wrap(instances, Core(target, action)), arguments).trace)
            == if NoShortCircuit(instances) then [Befores(instances, arguments)] else []
  {
    if NoShortCircuit(instances) {
      RunThroughTrace(instances, Core(target, action), arguments);
      assert CoreCalls([CoreCalled(Befores(instances, arguments))]) == [Befores(instances, arguments)];
    } else {
      ShortCircuitStopsRun(instances, Core(target, action), arguments);
    }
  }

  // ---------------------------------------------------------------------------
  // Properties of peel

  /** Events raised while building the chain rather than while running it. */
  predicate IsFactoryEvent(e: Event) {
    e.Resolved? || e.ParametersSet?
  }

  /** Every layer is built before any of them runs. */
  predicate BuiltBeforeRun(trace: seq<Event>) {
    forall i, j :: 0 <= i < j < |trace| && !IsFactoryEvent(trace[i]) ==> !IsFactoryEvent(trace[j])
  }

  /** With no layers, `peel` returns what the decorated target returns. */
  lemma PeelWithoutLayers(o: Stack, resolve: (ClassName, Parameters) -> Option<Middleware>, target: Target,
                          arguments: seq<Value>, callParameters: map<ClassName, Parameters>)
    requires o.layers == []
    ensures Peel(o, resolve, target, arguments, callParameters)
            == Outcome(CallCore(target, o.action, arguments), [CoreCalled(arguments)])
  {
  }

  /** When every layer can be built, `peel` is the factory events followed
      by a run of the chain of built instances. */
  lemma PeelSplit(o: Stack, resolve: (ClassName, Parameters) -> Option<Middleware>, target: Target,
                  arguments: seq<Value>, callParameters: map<ClassName, Parameters>)
    requires forall i :: 0 <= i < |o.layers| ==> Accepts(o, resolve, callParameters, o.layers[i])
    ensures var m := Materialize(o, resolve, callParameters, o.layers);
            && m.0.Success?
            && Names(m.0.value) == o.layers
            && ResolvedNames(m.1) == o.layers
            && (forall e | e in m.1 :: IsFactoryEvent(e))
            && var run := Run(Wrap(m.0.value, Core(target, o.action)), arguments);
               && (forall e | e in run.trace :: !IsFactoryEvent(e))
               && Peel(o, resolve, target, arguments, callParameters) == Outcome(run.result, m.1 + run.trace)
  {
    MaterializeSpec(o, resolve, callParameters, o.layers);
    MaterializeOrder(o, resolve, callParameters, o.layers);
    var m := Materialize(o, resolve, callParameters, o.layers);
    NamesOf(m.0.value, o.layers);
    var run := Run(Wrap(m.0.value, Core(target, o.action)), arguments);
    assert Peel(o, resolve, target, arguments, callParameters) == Outcome(run.result, m.1 + run.trace);
  }

  lemma NamesOf(instances: seq<Instance>, names: seq<ClassName>)
    requires |instances| == |names|
    requires forall i :: 0 <= i < |names| ==> instances[i].name == names[i]
    ensures Names(instances) == names
  {
  }

  /** Factory events followed by execution events satisfy `BuiltBeforeRun`. */
  lemma FactoryThenRun(events: seq<Event>, run: seq<Event>)
    requires forall e | e in events :: IsFactoryEvent(e)
    requires forall e | e in run :: !IsFactoryEvent(e)
    ensures BuiltBeforeRun(events + run)
  {
    var trace := events + run;
    forall i, j | 0 <= i < j < |trace| && !IsFactoryEvent(trace[i]) ensures !IsFactoryEvent(trace[j]) {
      assert trace[j] in run by { assert trace[j] == run[j - |events|]; }
    }
  }

  /** Every layer is built, innermost first and each once, before any runs. */
  lemma PeelBuildsBeforeRunning(o: Stack, resolve: (ClassName, Parameters) -> Option<Middleware>, target: Target,
                                arguments: seq<Value>, callParameters: map<ClassName, Parameters>)
    requires forall i :: 0 <= i < |o.layers| ==> Accepts(o, resolve, callParameters, o.layers[i])
    ensures var p := Peel(o, resolve, target, arguments, callParameters);
            && ResolvedNames(p.trace) == o.layers
            && BuiltBeforeRun(p.trace)
  {
    PeelSplit(o, resolve, target, arguments, callParameters);
    var m := Materialize(o, resolve, callParameters, o.layers);
    var run := Run(Wrap(m.0.value, Core(target, o.action)), arguments);
    ResolvedNamesConcat(m.1, run.trace);
    NoResolvedNames(run.trace);
    FactoryThenRun(m.1, run.trace);
  }

  /** When no built layer short-circuits, the layers run outermost (last
      added) first and the decorated target runs exactly once. */
  lemma PeelRunsOutermostFirst(o: Stack, resolve: (ClassName, Parameters) -> Option<Middleware>, target: Target,
                               arguments: seq<Value>, callParameters: map<ClassName, Parameters>)
    requires forall i :: 0 <= i < |o.layers| ==>
               Accepts(o, resolve, callParameters, o.layers[i])
               && !resolve(o.layers[i], ResolutionArguments(o, callParameters, o.layers[i])).value.behaviour.ShortCircuit?
    ensures var p := Peel(o, resolve, target, arguments, callParameters);
            && EnteredNames(p.trace) == Reverse(o.layers)
            && |CoreCalls(p.trace)| == 1
  {
    PeelSplit(o, resolve, target, arguments, callParameters);
    MaterializeSpec(o, resolve, callParameters, o.layers);
    var m := Materialize(o, resolve, callParameters, o.layers);
    var instances := m.0.value;
    assert NoShortCircuit(instances) by {
      forall i | 0 <= i < |instances| ensures !instances[i].middleware.behaviour.ShortCircuit? {
        assert Some(instances[i].middleware) == resolve(o.layers[i], ResolutionArguments(o, callParameters, o.layers[i]));
      }
    }
    var run := Run(Wrap(instances, Core(target, o.action)), arguments);
    RunThroughTrace(instances, Core(target, o.action), arguments);
    FiltersOfOne(CoreCalled(Befores(instances, arguments)));
    FiltersConcat(m.1, run.trace);
    NoEnteredNames(m.1);
  }

  lemma {:induction false} NoResolvedNames(trace: seq<Event>)
    requires forall e | e in trace :: !IsFactoryEvent(e)
    ensures ResolvedNames(trace) == []
    decreases |trace|
  {
    if |trace| > 0 {
      assert trace[0] in trace && !trace[0].Resolved?;
      assert forall e | e in trace[1..] :: e in trace;
      NoResolvedNames(trace[1..]);
    }
  }

  lemma {:induction false} NoEnteredNames(trace: seq<Event>)
    requires forall e | e in trace :: IsFactoryEvent(e)
    ensures EnteredNames(trace) == [] && CoreCalls(trace) == []
    decreases |trace|
  {
    if |trace| > 0 {
      assert trace[0] in trace && !trace[0].Entered? && !trace[0].CoreCalled?;
      assert forall e | e in trace[1..] :: e in trace;
      NoEnteredNames(trace[1..]);
    }
  }

  /** If the factory rejects any layer (an expected interface the middleware
      lacks, or a class the container cannot build), `peel` raises an
      exception and neither any layer nor the decorated target runs. */
  lemma RejectedLayerStopsPeel(o: Stack, resolve: (ClassName, Parameters) -> Option<Middleware>, target: Target,
                               arguments: seq<Value>, callParameters: map<ClassName, Parameters>, j: nat)
    requires j < |o.layers| && !Accepts(o, resolve, callParameters, o.layers[j])
    ensures var p := Peel(o, resolve, target, arguments, callParameters);
            && p.result.Failure?
            && forall e | e in p.trace :: IsFactoryEvent(e)
  {
    MaterializeSpec(o, resolve, callParameters, o.layers);
  }

  /** The first class the factory rejects ends the building: its exception
      is raised, and the container is asked for it and for every class
      before it, and for no class after it. */
  lemma {:induction false} MaterializeFirstReject(o: Stack, resolve: (ClassName, Parameters) -> Option<Middleware>,
                                                  callParameters: map<ClassName, Parameters>, names: seq<ClassName>, j: nat)
    requires j < |names| && !Accepts(o, resolve, callParameters, names[j])
    requires forall i :: 0 <= i < j ==> Accepts(o, resolve, callParameters, names[i])
    ensures var m := Materialize(o, resolve, callParameters, names);
            && m.0.Failure?
            && m.0.error == Factory(o, resolve, callParameters, names[j]).result.error
            && ResolvedNames(m.1) == names[..j + 1]
    decreases j
  {
    if j == 0 {
      FirstRejectAtHead(o, resolve, callParameters, names);
    } else {
      var tail := names[1..];
      var rest := Materialize(o, resolve, callParameters, tail);
      var error := Factory(o, resolve, callParameters, names[j]).result.error;
      FirstRejectTail(o, resolve, callParameters, names, j);
      MaterializeFirstReject(o, resolve, callParameters, tail, j - 1);
      assert rest.0.Failure? && rest.0.error == error;
      assert ResolvedNames(rest.1) == tail[..j];
      FirstRejectLater(o, resolve, callParameters, names, j, error);
    }
  }

  lemma FirstRejectAtHead(o: Stack, resolve: (ClassName, Parameters) -> Option<Middleware>,
                          callParameters: map<ClassName, Parameters>, names: seq<ClassName>)
    requires |names| > 0 && !Accepts(o, resolve, callParameters, names[0])
    ensures var m := Materialize(o, resolve, callParameters, names);
            && m.0.Failure?
            && m.0.error == Factory(o, resolve, callParameters, names[0]).result.error
            && ResolvedNames(m.1) == names[..1]
  {
    FactoryResolvesOnce(o, resolve, callParameters, names[0]);
    MaterializeHeadFails(o, resolve, callParameters, names);
    assert names[..1] == [names[0]];
  }

  lemma FirstRejectLater(o: Stack, resolve: (ClassName, Parameters) -> Option<Middleware>,
                         callParameters: map<ClassName, Parameters>, names: seq<ClassName>, j: nat, error: Error)
    requires 0 < j < |names| && Accepts(o, resolve, callParameters, names[0])
    requires var rest := Materialize(o, resolve, callParameters, names[1..]);
             rest.0.Failure? && rest.0.error == error && ResolvedNames(rest.1) == names[1..][..j]
    ensures var m := Materialize(o, resolve, callParameters, names);
            m.0.Failure? && m.0.error == error && ResolvedNames(m.1) == names[..j + 1]
  {
    var b := Factory(o, resolve, callParameters, names[0]);
    var rest := Materialize(o, resolve, callParameters, names[1..]);
    FactoryResolvesOnce(o, resolve, callParameters, names[0]);
    MaterializeTailFails(o, resolve, callParameters, names);
    ResolvedPrefix(names, j, b.events, rest.1);
  }

  lemma MaterializeHeadFails(o: Stack, resolve: (ClassName, Parameters) -> Option<Middleware>,
                             callParameters: map<ClassName, Parameters>, names: seq<ClassName>)
    requires |names| > 0 && !Accepts(o, resolve, callParameters, names[0])
    ensures var b := Factory(o, resolve, callParameters, names[0]);
            Materialize(o, resolve, callParameters, names) == (Failure(b.result.error), b.events)
  {
  }

  lemma MaterializeTailFails(o: Stack, resolve: (ClassName, Parameters) -> Option<Middleware>,
                             callParameters: map<ClassName, Parameters>, names: seq<ClassName>)
    requires |names| > 0 && Accepts(o, resolve, callParameters, names[0])
    requires Materialize(o, resolve, callParameters, names[1..]).0.Failure?
    ensures var b := Factory(o, resolve, callParameters, names[0]);
            var rest := Materialize(o, resolve, callParameters, names[1..]);
            Materialize(o, resolve, callParameters, names) == (Failure(rest.0.error), b.events + rest.1)
  {
  }

  /** The classes resolved by the first factory call and then by the
      remaining ones up to index `j` are the first `j + 1` classes. */
  lemma ResolvedPrefix(names: seq<ClassName>, j: nat, first: seq<Event>, rest: seq<Event>)
    requires 0 < j < |names|
    requires ResolvedNames(first) == [names[0]] && ResolvedNames(rest) == names[1..][..j]
    ensures ResolvedNames(first + rest) == names[..j + 1]
  {
    ResolvedNamesConcat(first, rest);
    TakeCons(names, j + 1);
  }

  /** The first rejection at `j > 0` is the first rejection at `j - 1` of the
      remaining classes, after an accepted first one. */
  lemma FirstRejectTail(o: Stack, resolve: (ClassName, Parameters) -> Option<Middleware>,
                        callParameters: map<ClassName, Parameters>, names: seq<ClassName>, j: nat)
    requires 0 < j < |names| && !Accepts(o, resolve, callParameters, names[j])
    requires forall i :: 0 <= i < j ==> Accepts(o, resolve, callParameters, names[i])
    ensures Accepts(o, resolve, callParameters, names[0])
    ensures j - 1 < |names[1..]| && names[1..][j - 1] == names[j]
    ensures !Accepts(o, resolve, callParameters, names[1..][j - 1])
    ensures forall i :: 0 <= i < j - 1 ==> Accepts(o, resolve, callParameters, names[1..][i])
  {
    var tail := names[1..];
    assert tail[j - 1] == names[j];
    forall i | 0 <= i < j - 1 ensures Accepts(o, resolve, callParameters, tail[i]) {
      assert tail[i] == names[i + 1];
    }
  }

  /** The first layer the factory rejects decides `peel`: its exception is
      the result, no class after it is resolved, and nothing runs. */
  lemma FirstRejectedLayerStopsPeel(o: Stack, resolve: (ClassName, Parameters) -> Option<Middleware>, target: Target,
                                    arguments: seq<Value>, callParameters: map<ClassName, Parameters>, j: nat)
    requires j < |o.layers| && !Accepts(o, resolve, callParameters, o.layers[j])
    requires forall i :: 0 <= i < j ==> Accepts(o, resolve, callParameters, o.layers[i])
    ensures var p := Peel(o, resolve, target, arguments, callParameters);
            && p.result == Failure(Factory(o, resolve, callParameters, o.layers[j]).result.error)
            && ResolvedNames(p.trace) == o.layers[..j + 1]
            && forall e | e in p.trace :: IsFactoryEvent(e)
  {
    var m := Materialize(o, resolve, callParameters, o.layers);
    MaterializeFirstReject(o, resolve, callParameters, o.layers, j);
    assert Peel(o, resolve, target, arguments, callParameters) == Outcome(Failure(m.0.error), m.1);
  }

  /** With exactly one layer that the factory accepts, `peel` is the
      factory's events followed by a run of that layer around the core. */
  lemma PeelOneLayer(o: Stack, resolve: (ClassName, Parameters) -> Option<Middleware>, target: Target,
                     arguments: seq<Value>, callParameters: map<ClassName, Parameters>)
    requires |o.layers| == 1 && Accepts(o, resolve, callParameters, o.layers[0])
    ensures var n := o.layers[0];
            var inst := Instance(n, resolve(n, ResolutionArguments(o, callParameters, n)).value);
            var run := Run(Layer(inst, Core(target, o.action)), arguments);
            && Materialize(o, resolve, callParameters, o.layers).1 == Factory(o, resolve, callParameters, n).events
            && Peel(o, resolve, target, arguments, callParameters)
               == Outcome(run.result, Factory(o, resolve, callParameters, n).events + run.trace)
  {
    var n := o.layers[0];
    var inst := Instance(n, resolve(n, ResolutionArguments(o, callParameters, n)).value);
    MaterializeOne(o, resolve, callParameters, o.layers);
    WrapOne(inst, Core(target, o.action));
  }

  /** A single accepted class materialises to its one instance. */
  lemma MaterializeOne(o: Stack, resolve: (ClassName, Parameters) -> Option<Middleware>,
                       callParameters: map<ClassName, Parameters>, names: seq<ClassName>)
    requires |names| == 1 && Accepts(o, resolve, callParameters, names[0])
    ensures var b := Factory(o, resolve, callParameters, names[0]);
            Materialize(o, resolve, callParameters, names)
            == (Success([Instance(names[0], resolve(names[0], ResolutionArguments(o, callParameters, names[0])).value)]), b.events)
  {
    var b := Factory(o, resolve, callParameters, names[0]);
    var inst := Instance(names[0], b.result.value);
    assert b.result.Success? && Some(b.result.value) == resolve(names[0], ResolutionArguments(o, callParameters, names[0]));
    assert names[1..] == [];
    assert Materialize(o, resolve, callParameters, names[1..]) == (Success([]), []);
    assert [inst] + [] == [inst] && b.events + [] == b.events;
  }

  lemma WrapOne(inst: Instance, next: Continuation)
    ensures Wrap([inst], next) == Layer(inst, next)
  {
    assert [inst][1..] == [];
  }

  /** One transforming layer around a closure: the layer is entered with the
      call arguments, the closure runs with the transformed arguments, an
      exception it throws is `peel`'s, a value it returns is transformed, and
      the layer is left only when it returns. */
  lemma SingleTransformLayer(o: Stack, resolve: (ClassName, Parameters) -> Option<Middleware>,
                             f: seq<Value> -> Result<Value, Error>, arguments: seq<Value>,
                             callParameters: map<ClassName, Parameters>)
    requires |o.layers| == 1 && Accepts(o, resolve, callParameters, o.layers[0])
    requires resolve(o.layers[0], ResolutionArguments(o, callParameters, o.layers[0])).value.behaviour.Transform?
    ensures var b := resolve(o.layers[0], ResolutionArguments(o, callParameters, o.layers[0])).value.behaviour;
            var core := f(b.before(arguments));
            var p := Peel(o, resolve, Closure(f), arguments, callParameters);
            && (core.Failure? ==> p.result == core)
            && (core.Success? ==> p.result == b.after(core.value))
            && p.trace == Factory(o, resolve, callParameters, o.layers[0]).events
                          + [Entered(o.layers[0], arguments), CoreCalled(b.before(arguments))]
                          + ExitIfReturned(o.layers[0], p.result)
  {
    var n := o.layers[0];
    var inst := Instance(n, resolve(n, ResolutionArguments(o, callParameters, n)).value);
    var run := Run(Layer(inst, Core(Closure(f), o.action)), arguments);
    var events := Factory(o, resolve, callParameters, n).events;
    PeelOneLayer(o, resolve, Closure(f), arguments, callParameters);
    assert Peel(o, resolve, Closure(f), arguments, callParameters) == Outcome(run.result, events + run.trace);
    RunTransformAroundClosure(inst, f, o.action, arguments);
    var b := inst.middleware.behaviour;
    ConcatAssoc(events, [Entered(n, arguments), CoreCalled(b.before(arguments))], ExitIfReturned(n, run.result));
  }

  lemma RunTransformAroundClosure(instance: Instance, f: seq<Value> -> Result<Value, Error>, action: string,
                                  arguments: seq<Value>)
    requires instance.middleware.behaviour.Transform?
    ensures var b := instance.middleware.behaviour;
            var core := f(b.before(arguments));
            var run := Run(Layer(instance, Core(Closure(f), action)), arguments);
            && (core.Failure? ==> run.result == core)
            && (core.Success? ==> run.result == b.after(core.value))
            && run.trace == [Entered(instance.name, arguments), CoreCalled(b.before(arguments))]
                            + ExitIfReturned(instance.name, run.result)
  {
  }

  /** One layer that never calls `$next`: what it returns or throws is
      `peel`'s result and the core closure is never called. */
  lemma SingleShortCircuitLayer(o: Stack, resolve: (ClassName, Parameters) -> Option<Middleware>, target: Target,
                                arguments: seq<Value>, callParameters: map<ClassName, Parameters>)
    requires |o.layers| == 1 && Accepts(o, resolve, callParameters, o.layers[0])
    requires resolve(o.layers[0], ResolutionArguments(o, callParameters, o.layers[0])).value.behaviour.ShortCircuit?
    ensures var b := resolve(o.layers[0], ResolutionArguments(o, callParameters, o.layers[0])).value.behaviour;
            var p := Peel(o, resolve, target, arguments, callParameters);
            && p.result == b.response
            && CoreCalls(p.trace) == []
  {
    PeelOneLayer(o, resolve, target, arguments, callParameters);
    var n := o.layers[0];
    var inst := Instance(n, resolve(n, ResolutionArguments(o, callParameters, n)).value);
    var events := Materialize(o, resolve, callParameters, o.layers).1;
    var run := Run(Layer(inst, Core(target, o.action)), arguments);
    ShortCircuitTrace(inst, Core(target, o.action), arguments);
    FiltersConcat(events, run.trace);
    NoEnteredNames(events);
  }
}

=== FILE: php.dfy ===
/** The slice of PHP's scalar semantics that the modelled code relies on:
    scalar values, `empty()` / falsiness, string conversion, ASCII case maps
    and `trim`. */
module Php {

  /** A PHP scalar. Floats, arrays and objects are not modelled. */
  datatype Value = Null | Bool(b: bool) | Int(i: int) | Str(s: string)

  /** PHP's `empty($v)`, which for scalars coincides with `!$v`: null, false,
      0, the empty string and the string "0" are empty. */
  predicate IsEmpty(v: Value) {
    match v
    case Null => true
    case Bool(b) => !b
    case Int(i) => i == 0
    case Str(s) => IsEmptyString(s)
  }

  /** `empty($s)` for a string: both "" and "0" count as empty. */
  predicate IsEmptyString(s: string) {
    s == "" || s == "0"
  }

  function DigitChar(d: nat): (c: char)
    requires d < 10
    ensures '0' <= c <= '9'
  {
    "0123456789"[d]
  }

  /** The decimal representation of a natural number, without leading zeros. */
  function NatText(n: nat): (r: string)
    ensures |r| > 0
    ensures forall k :: 0 <= k < |r| ==> '0' <= r[k] <= '9'
    ensures n >= 10 ==> r[0] != '0'
    decreases n
  {
    if n < 10 then [DigitChar(n)] else NatText(n / 10) + [DigitChar(n % 10)]
  }

  /** The decimal representation of an integer, with a leading '-' when negative. */
  function IntText(i: int): (r: string)
    ensures |r| > 0
    ensures forall k :: 0 <= k < |r| ==> r[k] == '-' || '0' <= r[k] <= '9'
    ensures (r[0] == '-') <==> i < 0
  {
    if i < 0 then "-" + NatText(-i) else NatText(i)
  }

  /** PHP's string conversion `(string) $v`: null and false become "",
      true becomes "1" and integers their decimal form. */
  function ToText(v: Value): (r: string)
    ensures v.Str? ==> r == v.s
    ensures v.Null? || v == Bool(false) <==> r == "" && !v.Str?
  {
    match v
    case Null => ""
    case Bool(b) => if b then "1" else ""
    case Int(i) => IntText(i)
    case Str(s) => s
  }

  predicate IsAsciiUpper(c: char) { 'A' <= c <= 'Z' }

  predicate IsAsciiLower(c: char) { 'a' <= c <= 'z' }

  function LowerChar(c: char): (r: char)
    ensures !IsAsciiUpper(r)
    ensures IsAsciiUpper(c) || r == c
  {
    if IsAsciiUpper(c) then (c as int + 32) as char else c
  }

  function UpperChar(c: char): (r: char)
    ensures !IsAsciiLower(r)
    ensures IsAsciiLower(c) || r == c
  {
    if IsAsciiLower(c) then (c as int - 32) as char else c
  }

  /** `mb_strtolower`, restricted to the ASCII letters. */
  function Lower(s: string): (r: string)
    ensures |r| == |s|
    ensures forall k :: 0 <= k < |s| ==> r[k] == LowerChar(s[k])
  {
    seq(|s|, k requires 0 <= k < |s| => LowerChar(s[k]))
  }

  /** `mb_strtoupper`, restricted to the ASCII letters. */
  function Upper(s: string): (r: string)
    ensures |r| == |s|
    ensures forall k :: 0 <= k < |s| ==> r[k] == UpperChar(s[k])
  {
    seq(|s|, k requires 0 <= k < |s| => UpperChar(s[k]))
  }

  predicate IsLowerCase(s: string) {
    forall k :: 0 <= k < |s| ==> !IsAsciiUpper(s[k])
  }

  lemma LowerIsLowerCase(s: string)
    ensures IsLowerCase(Lower(s))
  {
  }

  lemma {:induction false} LowerIdempotent(s: string)
    ensures Lower(Lower(s)) == Lower(s)
  {
    assert forall k :: 0 <= k < |s| ==> LowerChar(LowerChar(s[k])) == LowerChar(s[k]);
  }

  /** Upper-casing loses nothing that lower-casing keeps. */
  lemma {:induction false} LowerOfUpper(s: string)
    ensures Lower(Upper(s)) == Lower(s)
  {
    assert forall k :: 0 <= k < |s| ==> LowerChar(UpperChar(s[k])) == LowerChar(s[k]);
  }

  lemma {:induction false} LowerOfLowerCase(s: string)
    requires IsLowerCase(s)
    ensures Lower(s) == s
  {
    assert forall k :: 0 <= k < |s| ==> LowerChar(s[k]) == s[k];
  }

  /** The characters PHP's `trim` strips by default: space, tab, line feed,
      carriage return, NUL and vertical tab. */
  predicate IsTrimmable(c: char) {
    c == ' ' || c == '\t' || c == '\n' || c == '\r' || c == 0 as char || c == 11 as char
  }

  function TrimStart(s: string): (r: string)
    ensures |r| <= |s| && r == s[|s| - |r|..]
    ensures |r| > 0 ==> !IsTrimmable(r[0])
    ensures forall k :: 0 <= k < |s| - |r| ==> IsTrimmable(s[k])
    decreases |s|
  {
    if |s| > 0 && IsTrimmable(s[0]) then TrimStart(s[1..]) else s
  }

  function TrimEnd(s: string): (r: string)
    ensures |r| <= |s| && r == s[..|r|]
    ensures |r| > 0 ==> !IsTrimmable(r[|r| - 1])
    ensures forall k :: |r| <= k < |s| ==> IsTrimmable(s[k])
    decreases |s|
  {
    if |s| > 0 && IsTrimmable(s[|s| - 1]) then TrimEnd(s[..|s| - 1]) else s
  }

  /** PHP's `trim($s)`: the longest infix of `s` that neither starts nor ends
      with a trimmable character; everything cut off is trimmable. */
  function Trim(s: string): (r: string)
    ensures |r| > 0 ==> !IsTrimmable(r[0]) && !IsTrimmable(r[|r| - 1])
    ensures exists i :: TrimmedAt(s, r, i)
  {
    var t := TrimStart(s);
    var r := TrimEnd(t);
    var i := |s| - |t|;
    assert TrimmedAt(s, r, i);
    r
  }

  /** `r` sits in `s` at offset `i` and only trimmable characters surround it. */
  predicate TrimmedAt(s: string, r: string, i: int) {
    && 0 <= i <= |s| - |r|
    && r == s[i..i + |r|]
    && (forall k :: 0 <= k < i ==> IsTrimmable(s[k]))
    && (forall k :: i + |r| <= k < |s| ==> IsTrimmable(s[k]))
  }
}

=== FILE: php_array.dfy ===
/** PHP arrays with string keys, as the modelled code uses them: an ordered
    list of entries, each key at most once. Iteration follows insertion order;
    assigning to an existing key keeps its position. */
module PhpArray {
  import opened Wrappers
  import opened Sequences

  datatype Entry<V> = Entry(key: string, value: V)

  /** No key occurs twice. Every PHP array satisfies this. */
  predicate UniqueKeys<V>(a: seq<Entry<V>>) {
    forall i, j :: 0 <= i < j < |a| ==> a[i].key != a[j].key
  }

  /** `array_keys($a)`. */
  function Keys<V>(a: seq<Entry<V>>): (ks: seq<string>)
    ensures |ks| == |a|
    ensures forall i :: 0 <= i < |a| ==> ks[i] == a[i].key
  {
    seq(|a|, i requires 0 <= i < |a| => a[i].key)
  }

  /** `array_key_exists($k, $a)`. */
  predicate HasKey<V>(a: seq<Entry<V>>, k: string)
    decreases |a|
  {
    |a| > 0 && (a[0].key == k || HasKey(a[1..], k))
  }

  lemma {:induction false} HasKeyIndex<V>(a: seq<Entry<V>>, k: string)
    ensures HasKey(a, k) <==> exists i :: 0 <= i < |a| && a[i].key == k
    decreases |a|
  {
    if |a| > 0 {
      HasKeyIndex(a[1..], k);
      if exists i :: 0 <= i < |a| && a[i].key == k {
        var i :| 0 <= i < |a| && a[i].key == k;
        if i > 0 { assert a[1..][i - 1].key == k; }
      }
    }
  }

  lemma KeyInKeys<V>(a: seq<Entry<V>>, k: string)
    ensures HasKey(a, k) <==> k in Keys(a)
  {
    HasKeyIndex(a, k);
  }

  lemma {:induction false} UniqueCons<V>(a: seq<Entry<V>>)
    requires |a| > 0
    ensures UniqueKeys(a) <==> !HasKey(a[1..], a[0].key) && UniqueKeys(a[1..])
  {
    HasKeyIndex(a[1..], a[0].key);
    if !HasKey(a[1..], a[0].key) && UniqueKeys(a[1..]) {
      forall i, j | 0 <= i < j < |a| ensures a[i].key != a[j].key {
        assert a[j] == a[1..][j - 1];
        if i > 0 { assert a[i] == a[1..][i - 1]; }
      }
    }
  }

  /** `$a[$k] ?? null`, without conflating a stored null with a missing key:
      the value of the first entry with key `k`. */
  function Get<V>(a: seq<Entry<V>>, k: string): (r: Option<V>)
    ensures r.Some? <==> HasKey(a, k)
    decreases |a|
  {
    if |a| == 0 then None
    else if a[0].key == k then Some(a[0].value)
    else Get(a[1..], k)
  }

  /** In an array with unique keys, the entry at index `i` is what `Get` finds. */
  lemma {:induction false} GetAt<V>(a: seq<Entry<V>>, i: nat)
    requires UniqueKeys(a) && i < |a|
    ensures Get(a, a[i].key) == Some(a[i].value)
    decreases i
  {
    if i > 0 {
      assert a[0].key != a[i].key;
      assert a[1..][i - 1] == a[i];
      GetAt(a[1..], i - 1);
    }
  }

  /** `$a[$k] = $v`: an existing key keeps its position and takes the new
      value; a new key is appended. */
  function Put<V>(a: seq<Entry<V>>, k: string, v: V): (r: seq<Entry<V>>)
    ensures Get(r, k) == Some(v)
    ensures forall k' :: k' != k ==> Get(r, k') == Get(a, k')
    ensures forall k' :: HasKey(r, k') <==> HasKey(a, k') || k' == k
    ensures Keys(r) == if HasKey(a, k) then Keys(a) else Keys(a) + [k]
    ensures !HasKey(a, k) ==> r == a + [Entry(k, v)]
    ensures UniqueKeys(a) ==> UniqueKeys(r)
    decreases |a|
  {
    if |a| == 0 then [Entry(k, v)]
    else if a[0].key == k then
      var r := [Entry(k, v)] + a[1..];
      ConsFacts(a[0], a[1..]);
      ConsFacts(Entry(k, v), a[1..]);
      assert a == [a[0]] + a[1..];
      assert UniqueKeys(a) ==> UniqueKeys(r) by { UniqueCons(a); UniqueCons(r); }
      r
    else
      var rest := Put(a[1..], k, v);
      var r := [a[0]] + rest;
      ConsFacts(a[0], a[1..]);
      ConsFacts(a[0], rest);
      assert a == [a[0]] + a[1..];
      assert !HasKey(a, k) ==> r == a + [Entry(k, v)] by {
        if !HasKey(a, k) { assert r == [a[0]] + (a[1..] + [Entry(k, v)]); }
      }
      assert UniqueKeys(a) ==> UniqueKeys(r) by { UniqueCons(a); UniqueCons(r); }
      r
  }

  /** Keys and lookups of an array with `x` in front. */
  lemma ConsFacts<V>(x: Entry<V>, rest: seq<Entry<V>>)
    ensures ([x] + rest)[0] == x && ([x] + rest)[1..] == rest
    ensures Keys([x] + rest) == [x.key] + Keys(rest)
    ensures forall k :: Get([x] + rest, k) == if x.key == k then Some(x.value) else Get(rest, k)
    ensures forall k :: HasKey([x] + rest, k) <==> x.key == k || HasKey(rest, k)
  {
    assert ([x] + rest)[1..] == rest;
  }

  /** The entries of `b` whose key does not occur in `a`, in the order of `b`. */
  function Missing<V(==)>(b: seq<Entry<V>>, a: seq<Entry<V>>): (r: seq<Entry<V>>)
    ensures Subsequence(r, b)
    ensures forall i :: 0 <= i < |b| && !HasKey(a, b[i].key) ==> b[i] in r
    ensures forall i :: 0 <= i < |r| ==> r[i] in b && !HasKey(a, r[i].key)
    ensures forall k :: HasKey(r, k) <==> HasKey(b, k) && !HasKey(a, k)
    ensures forall k :: !HasKey(a, k) ==> Get(r, k) == Get(b, k)
    ensures UniqueKeys(b) ==> UniqueKeys(r)
    decreases |b|
  {
    if |b| == 0 then []
    else
      var rest := Missing(b[1..], a);
      MissingStep(b, a, rest);
      MissingKeysStep(b, a, rest);
      if HasKey(a, b[0].key) then rest else [b[0]] + rest
  }

  /** The keys and lookups of `Missing`, one entry of `b` at a time. */
  lemma MissingKeysStep<V>(b: seq<Entry<V>>, a: seq<Entry<V>>, rest: seq<Entry<V>>)
    requires |b| > 0
    requires forall k :: HasKey(rest, k) <==> HasKey(b[1..], k) && !HasKey(a, k)
    requires forall k :: !HasKey(a, k) ==> Get(rest, k) == Get(b[1..], k)
    requires UniqueKeys(b[1..]) ==> UniqueKeys(rest)
    ensures var r := if HasKey(a, b[0].key) then rest else [b[0]] + rest;
            && (forall k :: HasKey(r, k) <==> HasKey(b, k) && !HasKey(a, k))
            && (forall k :: !HasKey(a, k) ==> Get(r, k) == Get(b, k))
            && (UniqueKeys(b) ==> UniqueKeys(r))
  {
    if HasKey(a, b[0].key) {
      MissingSkip(b, a, rest);
    } else {
      MissingKeep(b, a, rest);
    }
  }

  lemma MissingSkip<V>(b: seq<Entry<V>>, a: seq<Entry<V>>, rest: seq<Entry<V>>)
    requires |b| > 0 && HasKey(a, b[0].key)
    requires forall k :: HasKey(rest, k) <==> HasKey(b[1..], k) && !HasKey(a, k)
    requires forall k :: !HasKey(a, k) ==> Get(rest, k) == Get(b[1..], k)
    requires UniqueKeys(b[1..]) ==> UniqueKeys(rest)
    ensures forall k :: HasKey(rest, k) <==> HasKey(b, k) && !HasKey(a, k)
    ensures forall k :: !HasKey(a, k) ==> Get(rest, k) == Get(b, k)
    ensures UniqueKeys(b) ==> UniqueKeys(rest)
  {
    UniqueCons(b);
  }

  lemma MissingKeep<V>(b: seq<Entry<V>>, a: seq<Entry<V>>, rest: seq<Entry<V>>)
    requires |b| > 0 && !HasKey(a, b[0].key)
    requires forall k :: HasKey(rest, k) <==> HasKey(b[1..], k) && !HasKey(a, k)
    requires forall k :: !HasKey(a, k) ==> Get(rest, k) == Get(b[1..], k)
    requires UniqueKeys(b[1..]) ==> UniqueKeys(rest)
    ensures forall k :: HasKey([b[0]] + rest, k) <==> HasKey(b, k) && !HasKey(a, k)
    ensures forall k :: !HasKey(a, k) ==> Get([b[0]] + rest, k) == Get(b, k)
    ensures UniqueKeys(b) ==> UniqueKeys([b[0]] + rest)
  {
    var r := [b[0]] + rest;
    assert r[0] == b[0] && r[1..] == rest;
    UniqueCons(b);
    UniqueCons(r);
  }

  /** The order and the contents of `Missing`, one entry of `b` at a time. */
  lemma MissingStep<V>(b: seq<Entry<V>>, a: seq<Entry<V>>, rest: seq<Entry<V>>)
    requires |b| > 0
    requires Subsequence(rest, b[1..])
    requires forall i :: 0 <= i < |b[1..]| && !HasKey(a, b[1..][i].key) ==> b[1..][i] in rest
    requires forall i :: 0 <= i < |rest| ==> rest[i] in b[1..] && !HasKey(a, rest[i].key)
    ensures var r := if HasKey(a, b[0].key) then rest else [b[0]] + rest;
            && Subsequence(r, b)
            && (forall i :: 0 <= i < |b| && !HasKey(a, b[i].key) ==> b[i] in r)
            && (forall i :: 0 <= i < |r| ==> r[i] in b && !HasKey(a, r[i].key))
  {
    var r := if HasKey(a, b[0].key) then rest else [b[0]] + rest;
    assert forall i :: 1 <= i < |b| ==> b[i] == b[1..][i - 1];
    assert forall e :: e in b[1..] ==> e in b;
    if !HasKey(a, b[0].key) {
      assert r[0] == b[0] && r[1..] == rest;
      assert forall i :: 1 <= i < |r| ==> r[i] == rest[i - 1];
    }
  }

  /** Looking a key up in a concatenation finds it in the left part first. */
  lemma {:induction false} GetConcat<V>(a: seq<Entry<V>>, b: seq<Entry<V>>, k: string)
    ensures Get(a + b, k) == if HasKey(a, k) then Get(a, k) else Get(b, k)
    ensures HasKey(a + b, k) <==> HasKey(a, k) || HasKey(b, k)
    decreases |a|
  {
    if |a| > 0 {
      assert (a + b)[1..] == a[1..] + b;
      GetConcat(a[1..], b, k);
    } else {
      assert a + b == b;
    }
  }

  /** PHP's array union `$a + $b`: every entry of `a` in its place, followed by
      the entries of `b` whose keys `a` lacks, in the order of `b`. On a
      shared key the left operand wins. */
  function Union<V(==)>(a: seq<Entry<V>>, b: seq<Entry<V>>): (r: seq<Entry<V>>)
    ensures r == a + Missing(b, a)
    ensures |a| <= |r| && r[..|a|] == a
    ensures forall k :: Get(r, k) == if HasKey(a, k) then Get(a, k) else Get(b, k)
    ensures forall k :: HasKey(r, k) <==> HasKey(a, k) || HasKey(b, k)
    ensures UniqueKeys(a) && UniqueKeys(b) ==> UniqueKeys(r)
  {
    var m := Missing(b, a);
    var r := a + m;
    forall k
      ensures Get(r, k) == if HasKey(a, k) then Get(a, k) else Get(b, k)
      ensures HasKey(r, k) <==> HasKey(a, k) || HasKey(b, k)
    {
      GetConcat(a, m, k);
    }
    assert UniqueKeys(a) && UniqueKeys(b) ==> UniqueKeys(r) by {
      if UniqueKeys(a) && UniqueKeys(b) {
        forall i, j | 0 <= i < j < |r| ensures r[i].key != r[j].key {
          if i < |a| && j >= |a| {
            assert m[j - |a|] == r[j];
            HasKeyIndex(m, r[j].key);
            HasKeyIndex(a, r[j].key);
          } else if i >= |a| {
            assert m[i - |a|] == r[i] && m[j - |a|] == r[j];
          }
        }
      }
    }
    r
  }
}

=== FILE: route_template.dfy ===
/** Route patterns as token sequences. A pattern such as
    "/articles/{id}/{slug}?" is literal text, required parameters `{name}`
    and optional segments `/{name}?`. This module gives the meaning of a
    pattern under route parameters directly, token by token, and proves that
    the string-level substitution and stripping of `toRoute`
    (src/mako/http/routing/URLBuilder.php) computes exactly that. */
module RouteTemplate {
  import opened Wrappers
  import opened Php
  import opened PhpArray
  import opened Sequences
  import opened UrlBuilder

  datatype Segment =
    | Literal(text: string)
    | Param(name: string)      // {name}
    | Optional(name: string)   // /{name}?

  // ---------------------------------------------------------------------------
  // Meaning of a pattern

  /** `params` gives `name` a value `toRoute` substitutes. */
  predicate Filled(name: string, params: Params) {
    HasKey(params, name) && !Skipped(Get(params, name).value)
  }

  function FilledText(name: string, params: Params): string
    requires Filled(name, params)
  {
    ToText(Get(params, name).value)
  }

  /** One token as text: a filled parameter as its value (an optional one
      after its '/'); an unfilled one as written, or — for an optional one
      once stripped — as nothing. */
  function Piece(s: Segment, params: Params, strip: bool): string {
    match s
    case Literal(t) => t
    case Param(n) => if Filled(n, params) then FilledText(n, params) else Placeholder(n)
    case Optional(n) =>
      if Filled(n, params) then "/" + FilledText(n, params)
      else if strip then "" else "/" + Placeholder(n) + "?"
  }

  function Pieces(segs: seq<Segment>, params: Params, strip: bool): string
    decreases |segs|
  {
    if |segs| == 0 then "" else Piece(segs[0], params, strip) + Pieces(segs[1..], params, strip)
  }

  /** The route pattern the tokens are written as. */
  function Pattern(segs: seq<Segment>): string {
    Pieces(segs, [], false)
  }

  /** The path the tokens stand for under `params`: each filled parameter
      replaced by its value, each unfilled optional segment left out. */
  function Render(segs: seq<Segment>, params: Params): string {
    Pieces(segs, params, true)
  }

  // ---------------------------------------------------------------------------
  // Well-formedness

  /** A parameter name: word characters, not all digits (an all-digit
      `{n}` would be a PCRE quantifier). */
  predicate IsName(n: string) {
    && |n| > 0
    && (forall k :: 0 <= k < |n| ==> IsWordChar(n[k]))
    && exists k :: 0 <= k < |n| && !('0' <= n[k] <= '9')
  }

  /** Every token is well-formed and no name is used twice. */
  predicate WellFormed(segs: seq<Segment>) {
    && (forall i :: 0 <= i < |segs| ==> TokenOk(segs[i]))
    && (forall i, j :: 0 <= i < j < |segs| && !segs[i].Literal? && !segs[j].Literal? ==> segs[i].name != segs[j].name)
  }

  /** Literal text holds no '{' and no '?'; a parameter has a proper name. */
  predicate TokenOk(s: Segment) {
    if s.Literal? then '{' !in s.text && '?' !in s.text else IsName(s.name)
  }

  /** No value's text holds '{' or '?'. */
  predicate SafeValues(params: Params) {
    forall i :: 0 <= i < |params| ==> '{' !in ToText(params[i].value) && '?' !in ToText(params[i].value)
  }

  /** Parameters with distinct name keys and safe values. */
  predicate SafeParams(params: Params) {
    && UniqueKeys(params)
    && (forall i :: 0 <= i < |params| ==> IsName(params[i].key))
    && SafeValues(params)
  }

  /** `name` is the name of some token. */
  predicate Names(segs: seq<Segment>, name: string) {
    exists i :: 0 <= i < |segs| && !segs[i].Literal? && segs[i].name == name
  }

  lemma WellFormedTail(segs: seq<Segment>)
    requires |segs| > 0 && WellFormed(segs)
    ensures WellFormed(segs[1..])
    ensures TokenOk(segs[0])
    ensures !segs[0].Literal? ==> !Names(segs[1..], segs[0].name)
  {
    assert forall i :: 0 <= i < |segs| - 1 ==> segs[1..][i] == segs[i + 1];
  }

  // ---------------------------------------------------------------------------
  // Facts about filled parameters

  lemma FilledTextSafe(name: string, params: Params)
    requires UniqueKeys(params) && SafeValues(params) && Filled(name, params)
    ensures '{' !in FilledText(name, params) && '?' !in FilledText(name, params)
  {
    HasKeyIndex(params, name);
    var i :| 0 <= i < |params| && params[i].key == name;
    GetAt(params, i);
  }

  /** Adding an entry for `key` changes nothing for other names; for `key`
      itself, which had no entry, it fills it unless the value is skipped. */
  lemma FilledExtend(name: string, params: Params, e: Entry<Value>)
    requires !HasKey(params, e.key)
    ensures name != e.key ==> (Filled(name, params + [e]) <==> Filled(name, params))
    ensures name != e.key && Filled(name, params) ==> FilledText(name, params + [e]) == FilledText(name, params)
    ensures !Filled(e.key, params)
    ensures Filled(e.key, params + [e]) <==> !Skipped(e.value)
    ensures Filled(e.key, params + [e]) ==> FilledText(e.key, params + [e]) == ToText(e.value)
  {
    GetConcat(params, [e], name);
    GetConcat(params, [e], e.key);
  }

  lemma PieceExtend(s: Segment, params: Params, e: Entry<Value>, strip: bool)
    requires !HasKey(params, e.key)
    requires s.Literal? || s.name != e.key || Skipped(e.value)
    ensures Piece(s, params + [e], strip) == Piece(s, params, strip)
  {
    if !s.Literal? {
      FilledExtend(s.name, params, e);
    }
  }

  /** An entry for a name no token uses, or with a skipped value, changes no
      piece. */
  lemma {:induction false} PiecesExtend(segs: seq<Segment>, params: Params, e: Entry<Value>, strip: bool)
    requires !HasKey(params, e.key)
    requires !Names(segs, e.key) || Skipped(e.value)
    ensures Pieces(segs, params + [e], strip) == Pieces(segs, params, strip)
    decreases |segs|
  {
    if |segs| > 0 {
      PieceExtend(segs[0], params, e, strip);
      if !Names(segs, e.key) {
        assert !Names(segs[1..], e.key) by {
          assert forall i :: 0 <= i < |segs| - 1 ==> segs[1..][i] == segs[i + 1];
        }
      }
      PiecesExtend(segs[1..], params, e, strip);
    }
  }

  /** No non-empty rendering of tokens starts with '?'. */
  predicate NoLeadingQuestion(s: string) {
    |s| == 0 || s[0] != '?'
  }

  lemma {:induction false} PiecesNoLeadingQuestion(segs: seq<Segment>, params: Params, strip: bool)
    requires WellFormed(segs) && UniqueKeys(params) && SafeValues(params)
    ensures NoLeadingQuestion(Pieces(segs, params, strip))
    decreases |segs|
  {
    if |segs| > 0 {
      var p := Piece(segs[0], params, strip);
      if |p| == 0 {
        WellFormedTail(segs);
        PiecesNoLeadingQuestion(segs[1..], params, strip);
        assert Pieces(segs, params, strip) == Pieces(segs[1..], params, strip);
      } else {
        match segs[0]
        case Literal(t) => assert t[0] in t;
        case Param(n) =>
          if Filled(n, params) {
            FilledTextSafe(n, params);
            assert p[0] in p;
          }
        case Optional(n) =>
      }
    }
  }

  // ---------------------------------------------------------------------------
  // Substitution, token by token

  /** A match of `{key}` starts at a '{': text without one is passed over. */
  lemma {:induction false} ReplaceFirstSkips(a: string, b: string, key: string, text: string)
    requires '{' !in a
    ensures ReplaceFirst(a + b, key, text) == a + ReplaceFirst(b, key, text)
    decreases |a|
  {
    if |a| > 0 {
      assert a[0] in a;
      assert (a + b)[1..] == a[1..] + b;
      ReplaceFirstPass(a + b, key, text, 0);
      NotInTail(a, '{');
      ReplaceFirstSkips(a[1..], b, key, text);
    } else {
      assert a + b == b;
    }
  }

  /** A character absent from a string is absent from its tail. */
  lemma NotInTail(a: string, c: char)
    requires |a| > 0 && c !in a
    ensures c !in a[1..]
  {
    forall k | 0 <= k < |a| - 1 ensures a[1..][k] != c {
      assert a[1..][k] == a[k + 1];
    }
  }

  /** A word character never equals a closing brace. */
  lemma WordCharNotBrace(c: char)
    requires IsWordChar(c)
    ensures c != '}' && c != '{' && c != '/' && c != '?'
  {
  }

  /** The placeholder of another name is passed over. */
  lemma ReplaceFirstOtherName(n: string, rest: string, key: string, text: string)
    requires IsName(n) && IsName(key) && n != key
    ensures ReplaceFirst(Placeholder(n) + rest, key, text) == Placeholder(n) + ReplaceFirst(rest, key, text)
  {
    var s := Placeholder(n) + rest;
    var tail := n + "}";
    OtherPlaceholderNoMatch(n, rest, key);
    ReplaceFirstNoMatchAtStart(s, key, text);
    NameNoBrace(n);
    assert s[1..] == tail + rest;
    ReplaceFirstSkips(tail, rest, key, text);
  }

  /** The placeholder of another name does not match at its start. */
  lemma OtherPlaceholderNoMatch(n: string, rest: string, key: string)
    requires IsName(n) && IsName(key) && n != key
    ensures !OccursAt(Placeholder(n) + rest, Placeholder(key), 0)
  {
    var s := Placeholder(n) + rest;
    var pat := Placeholder(key);
    if |pat| <= |s| {
      if |key| == |n| {
        var k :| 0 <= k < |n| && n[k] != key[k];
        assert s[0..|pat|][k + 1] != pat[k + 1];
      } else if |key| < |n| {
        WordCharNotBrace(n[|key|]);
        assert s[0..|pat|][|key| + 1] != pat[|key| + 1];
      } else {
        WordCharNotBrace(key[|n|]);
        assert s[0..|pat|][|n| + 1] != pat[|n| + 1];
      }
    }
  }

  /** A name and its closing brace hold no '{'. */
  lemma NameNoBrace(n: string)
    requires IsName(n)
    ensures '{' !in n + "}"
  {
    forall k | 0 <= k < |n| + 1 ensures (n + "}")[k] != '{' {
      if k < |n| { WordCharNotBrace(n[k]); }
    }
  }

  /** The placeholder of `key` itself is replaced, with a '?' right after it. */
  lemma ReplaceFirstOwnName(key: string, rest: string, text: string)
    ensures NoLeadingQuestion(rest) ==> ReplaceFirst(Placeholder(key) + rest, key, text) == text + rest
    ensures ReplaceFirst(Placeholder(key) + "?" + rest, key, text) == text + rest
  {
    var pat := Placeholder(key);
    var s := pat + rest;
    assert s[..|pat|] == pat;
    assert s[|pat|..] == rest;
    var t := pat + "?" + rest;
    assert t[..|pat|] == pat;
    assert t[|pat| + 1..] == rest;
  }

  /** Substituting one more parameter into the partly filled pattern fills
      exactly that parameter's token. */
  lemma {:induction false} SubstituteStep(segs: seq<Segment>, params: Params, e: Entry<Value>)
    requires WellFormed(segs)
    requires SafeParams(params + [e])
    requires !Skipped(e.value)
    ensures ReplaceFirst(Pieces(segs, params, false), e.key, ToText(e.value)) == Pieces(segs, params + [e], false)
    decreases |segs|
  {
    SafeParamsPrefix(params + [e]);
    assert (params + [e])[..|params|] == params;
    if |segs| == 0 {
      assert Pieces(segs, params, false) == "";
    } else if !segs[0].Literal? && segs[0].name == e.key {
      SubstituteOwnToken(segs, params, e);
    } else {
      var rest := Pieces(segs[1..], params, false);
      var text := ToText(e.value);
      WellFormedTail(segs);
      assert !HasKey(params, e.key) by { LastKeyFresh(params, e); }
      PieceExtend(segs[0], params, e, false);
      SubstituteStep(segs[1..], params, e);
      SkipPiece(segs[0], params, rest, e.key, text);
    }
  }

  /** The last entry's key does not occur before it. */
  lemma LastKeyFresh(params: Params, e: Entry<Value>)
    requires UniqueKeys(params + [e])
    ensures !HasKey(params, e.key)
  {
    HasKeyIndex(params, e.key);
    assert (params + [e])[|params|] == e;
    assert forall i :: 0 <= i < |params| ==> (params + [e])[i] == params[i];
  }

  /** The token named by the substituted key is the one filled. */
  lemma SubstituteOwnToken(segs: seq<Segment>, params: Params, e: Entry<Value>)
    requires WellFormed(segs) && |segs| > 0 && !segs[0].Literal? && segs[0].name == e.key
    requires SafeParams(params + [e]) && SafeParams(params)
    requires !Skipped(e.value)
    ensures ReplaceFirst(Pieces(segs, params, false), e.key, ToText(e.value)) == Pieces(segs, params + [e], false)
  {
    var rest := Pieces(segs[1..], params, false);
    LastKeyFresh(params, e);
    WellFormedTail(segs);
    PiecesExtend(segs[1..], params, e, false);
    PiecesNoLeadingQuestion(segs[1..], params, false);
    OwnPiece(segs[0], params, e, rest);
  }

  /** Substituting `e` into its own unfilled token, followed by text that does
      not start with '?', fills that token. */
  lemma OwnPiece(s0: Segment, params: Params, e: Entry<Value>, rest: string)
    requires !s0.Literal? && s0.name == e.key && !HasKey(params, e.key)
    requires !Skipped(e.value) && NoLeadingQuestion(rest)
    ensures ReplaceFirst(Piece(s0, params, false) + rest, e.key, ToText(e.value)) == Piece(s0, params + [e], false) + rest
  {
    var text := ToText(e.value);
    FilledExtend(e.key, params, e);
    if s0.Optional? {
      OwnOptional(e.key, text, rest);
    } else {
      ReplaceFirstOwnName(e.key, rest, text);
    }
  }

  lemma OwnOptional(key: string, text: string, rest: string)
    ensures ReplaceFirst("/" + Placeholder(key) + "?" + rest, key, text) == "/" + text + rest
  {
    ReplaceFirstOwnName(key, rest, text);
    ReplaceFirstSkips("/", Placeholder(key) + "?" + rest, key, text);
    ConcatAssoc("/", Placeholder(key) + "?", rest);
    ConcatAssoc("/", Placeholder(key), "?");
    ConcatAssoc("/", text, rest);
  }

  /** A token other than `key`'s is passed over by the substitution of `key`. */
  lemma SkipPiece(s: Segment, params: Params, rest: string, key: string, text: string)
    requires s.Literal? ==> '{' !in s.text
    requires !s.Literal? ==> IsName(s.name) && s.name != key
    requires UniqueKeys(params) && SafeValues(params) && IsName(key)
    ensures ReplaceFirst(Piece(s, params, false) + rest, key, text) == Piece(s, params, false) + ReplaceFirst(rest, key, text)
  {
    match s
    case Literal(t) =>
      ReplaceFirstSkips(t, rest, key, text);
    case Param(n) =>
      if Filled(n, params) {
        FilledTextSafe(n, params);
        ReplaceFirstSkips(FilledText(n, params), rest, key, text);
      } else {
        ReplaceFirstOtherName(n, rest, key, text);
      }
    case Optional(n) =>
      if Filled(n, params) {
        FilledTextSafe(n, params);
        ReplaceFirstSkips("/" + FilledText(n, params), rest, key, text);
      } else {
        ReplaceFirstSkips("/", Placeholder(n) + ("?" + rest), key, text);
        ReplaceFirstOtherName(n, "?" + rest, key, text);
        ReplaceFirstSkips("?", rest, key, text);
        assert "/" + Placeholder(n) + "?" + rest == "/" + (Placeholder(n) + ("?" + rest));
      }
  }

  lemma SafeParamsPrefix(params: Params)
    requires |params| > 0 && SafeParams(params)
    ensures SafeParams(params[..|params| - 1])
    ensures params == params[..|params| - 1] + [params[|params| - 1]]
  {
    var init := params[..|params| - 1];
    assert forall i :: 0 <= i < |init| ==> init[i] == params[i];
  }

  /** `toRoute`'s substitution loop fills every parameter the tokens name and
      `params` gives a value, and changes nothing else. */
  lemma {:induction false} SubstituteAllFills(segs: seq<Segment>, params: Params)
    requires WellFormed(segs) && SafeParams(params)
    ensures SubstituteAll(Pattern(segs), params) == Pieces(segs, params, false)
    decreases |params|
  {
    if |params| > 0 {
      var init := params[..|params| - 1];
      var e := params[|params| - 1];
      SafeParamsPrefix(params);
      SubstituteAllFills(segs, init);
      if Skipped(e.value) {
        assert !HasKey(init, e.key) by {
          HasKeyIndex(init, e.key);
        }
        PiecesExtend(segs, init, e, false);
      } else {
        SubstituteStep(segs, init, e);
      }
    }
  }

  // ---------------------------------------------------------------------------
  // Stripping, token by token

  /** A match of `/\/{\w+}\?/` starts with "/{": text without '/' is passed over. */
  lemma {:induction false} RemoveSkipsNoSlash(a: string, b: string)
    requires '/' !in a
    ensures RemoveOptionals(a + b) == a + RemoveOptionals(b)
    decreases |a|
  {
    if |a| > 0 {
      var s := a + b;
      var tail := a[1..];
      assert a[0] in a && s[0] == a[0];
      KeepFirst(s);
      assert s[1..] == tail + b;
      NotInTail(a, '/');
      RemoveSkipsNoSlash(tail, b);
      ConcatAssoc([a[0]], tail, RemoveOptionals(b));
      assert [a[0]] + tail == a;
    } else {
      assert a + b == b;
    }
  }

  /** Text without '{' is passed over too, provided a final '/' in it does
      not start a match together with what follows. */
  lemma {:induction false} RemoveSkipsNoBrace(a: string, b: string)
    requires '{' !in a
    requires |a| > 0 && a[|a| - 1] == '/' ==> OptionalAt("/" + b) == 0
    ensures RemoveOptionals(a + b) == a + RemoveOptionals(b)
    decreases |a|
  {
    if |a| > 0 {
      var s := a + b;
      var tail := a[1..];
      NoBraceNoMatch(a, b);
      KeepFirst(s);
      assert s[0] == a[0] && s[1..] == tail + b;
      NotInTail(a, '{');
      assert |tail| > 0 ==> tail[|tail| - 1] == a[|a| - 1];
      RemoveSkipsNoBrace(tail, b);
      ConcatAssoc([a[0]], tail, RemoveOptionals(b));
      assert [a[0]] + tail == a;
    } else {
      assert a + b == b;
    }
  }

  /** Text without '{' does not start a match, unless it is a lone '/' and
      what follows completes one. */
  lemma NoBraceNoMatch(a: string, b: string)
    requires |a| > 0 && '{' !in a
    requires a[|a| - 1] == '/' ==> OptionalAt("/" + b) == 0
    ensures OptionalAt(a + b) == 0
  {
    if |a| == 1 {
      if a[0] == '/' {
        assert a + b == "/" + b;
      }
    } else {
      assert a[1] in a;
      assert (a + b)[1] == a[1];
    }
  }

  /** The word run of a name followed by a non-word character is the name. */
  lemma {:induction false} WordRunOfName(n: string, rest: string)
    requires |n| > 0 && forall k :: 0 <= k < |n| ==> IsWordChar(n[k])
    requires |rest| > 0 && !IsWordChar(rest[0])
    ensures WordRun(n + rest) == |n|
    decreases |n|
  {
    var s := n + rest;
    assert s[0] == n[0] && IsWordChar(s[0]);
    if |n| > 1 {
      var tail := n[1..];
      assert s[1..] == tail + rest;
      assert forall k :: 0 <= k < |tail| ==> tail[k] == n[k + 1];
      WordRunOfName(tail, rest);
    } else {
      assert s[1..] == rest;
      assert WordRun(rest) == 0;
    }
  }

  /** An unfilled optional segment is removed whole. */
  lemma RemoveOptionalSegment(n: string, rest: string)
    requires IsName(n)
    ensures RemoveOptionals("/" + Placeholder(n) + "?" + rest) == RemoveOptionals(rest)
  {
    var s := "/" + Placeholder(n) + "?" + rest;
    assert s[2..] == n + ("}?" + rest);
    WordRunOfName(n, "}?" + rest);
    assert OptionalAt(s) == |n| + 4;
    assert s[|n| + 4..] == rest;
  }

  /** A '/' in front of one rendered token and what follows never starts a
      match, when what follows does not start with '?'. */
  lemma NoMatchAfterSlashPiece(s0: Segment, params: Params, rest: string)
    requires TokenOk(s0) && UniqueKeys(params) && SafeValues(params)
    requires |Piece(s0, params, false)| > 0 && NoLeadingQuestion(rest)
    ensures OptionalAt("/" + Piece(s0, params, false) + rest) == 0
  {
    var p := Piece(s0, params, false);
    match s0
    case Literal(t) =>
      assert t[0] in t;
      SlashNotBrace(p, rest);
    case Param(n) =>
      if Filled(n, params) {
        FilledTextSafe(n, params);
        assert p[0] in p;
        SlashNotBrace(p, rest);
      } else {
        SlashPlaceholder(n, rest);
      }
    case Optional(n) =>
      SlashNotBrace(p, rest);
  }

  lemma SlashNotBrace(p: string, rest: string)
    requires |p| > 0 && p[0] != '{'
    ensures OptionalAt("/" + p + rest) == 0
  {
    assert ("/" + p + rest)[1] == p[0];
  }

  /** "/{n}" is a match only together with a following '?'. */
  lemma SlashPlaceholder(n: string, rest: string)
    requires IsName(n) && NoLeadingQuestion(rest)
    ensures OptionalAt("/" + Placeholder(n) + rest) == 0
  {
    var s := "/" + Placeholder(n) + rest;
    assert s[..2] == "/{";
    assert s[2..] == n + ("}" + rest);
    WordRunOfName(n, "}" + rest);
    if |rest| > 0 {
      assert s[3 + |n|] == rest[0];
    }
  }

  /** A '/' in front of rendered tokens never starts a match. */
  lemma {:induction false} NoMatchAfterSlash(segs: seq<Segment>, params: Params)
    requires WellFormed(segs) && UniqueKeys(params) && SafeValues(params)
    ensures OptionalAt("/" + Pieces(segs, params, false)) == 0
    decreases |segs|
  {
    if |segs| > 0 {
      var p := Piece(segs[0], params, false);
      var rest := Pieces(segs[1..], params, false);
      WellFormedTail(segs);
      assert "/" + Pieces(segs, params, false) == "/" + p + rest;
      if |p| == 0 {
        NoMatchAfterSlash(segs[1..], params);
        assert "/" + p + rest == "/" + rest;
      } else {
        PiecesNoLeadingQuestion(segs[1..], params, false);
        NoMatchAfterSlashPiece(segs[0], params, rest);
      }
    }
  }

  /** Stripping passes over one rendered token, dropping it when it is an
      unfilled optional segment. */
  lemma RemoveOptionalsPiece(s0: Segment, params: Params, rest: string)
    requires TokenOk(s0) && UniqueKeys(params) && SafeValues(params)
    requires OptionalAt("/" + rest) == 0
    ensures RemoveOptionals(Piece(s0, params, false) + rest) == Piece(s0, params, true) + RemoveOptionals(rest)
  {
    match s0
    case Literal(t) =>
      RemoveSkipsNoBrace(t, rest);
    case Param(n) =>
      RemoveParamPiece(n, params, rest);
    case Optional(n) =>
      RemoveOptionalPiece(n, params, rest);
  }

  lemma RemoveParamPiece(n: string, params: Params, rest: string)
    requires IsName(n) && UniqueKeys(params) && SafeValues(params)
    requires OptionalAt("/" + rest) == 0
    ensures RemoveOptionals(Piece(Param(n), params, false) + rest) == Piece(Param(n), params, true) + RemoveOptionals(rest)
  {
    if Filled(n, params) {
      FilledTextSafe(n, params);
      RemoveSkipsNoBrace(FilledText(n, params), rest);
    } else {
      PlaceholderNoSlash(n);
      RemoveSkipsNoSlash(Placeholder(n), rest);
    }
  }

  lemma RemoveOptionalPiece(n: string, params: Params, rest: string)
    requires IsName(n) && UniqueKeys(params) && SafeValues(params)
    requires OptionalAt("/" + rest) == 0
    ensures RemoveOptionals(Piece(Optional(n), params, false) + rest) == Piece(Optional(n), params, true) + RemoveOptionals(rest)
  {
    if Filled(n, params) {
      FilledTextSafe(n, params);
      RemoveSkipsNoBrace("/" + FilledText(n, params), rest);
    } else {
      RemoveOptionalSegment(n, rest);
    }
  }

  lemma PlaceholderNoSlash(n: string)
    requires IsName(n)
    ensures '/' !in Placeholder(n)
  {
    forall k | 0 <= k < |n| ensures n[k] != '/' { WordCharNotBrace(n[k]); }
    assert forall k :: 0 <= k < |n| ==> Placeholder(n)[k + 1] == n[k];
  }

  /** Stripping the filled pattern removes exactly the unfilled optional
      segments. */
  lemma {:induction false} RemoveOptionalsStrips(segs: seq<Segment>, params: Params)
    requires WellFormed(segs) && UniqueKeys(params) && SafeValues(params)
    ensures RemoveOptionals(Pieces(segs, params, false)) == Pieces(segs, params, true)
    decreases |segs|
  {
    if |segs| > 0 {
      var rest := Pieces(segs[1..], params, false);
      WellFormedTail(segs);
      RemoveOptionalsStrips(segs[1..], params);
      NoMatchAfterSlash(segs[1..], params);
      RemoveOptionalsPiece(segs[0], params, rest);
    }
  }

  // ---------------------------------------------------------------------------
  // The route path

  /** `toRoute` turns the pattern written by well-formed tokens into the
      path they stand for: filled parameters replaced, unfilled optional
      segments dropped, unfilled required ones left as written. */
  lemma RoutePathRenders(segs: seq<Segment>, params: Params)
    requires WellFormed(segs) && SafeParams(params)
    ensures RoutePath(Pattern(segs), params) == Render(segs, params)
  {
    SubstituteAllFills(segs, params);
    RemoveOptionalsStrips(segs, params);
    var s := SubstituteAll(Pattern(segs), params);
    if '?' !in s {
      RemoveOptionalsWithoutQuestionMark(s);
    }
  }

  /** The URL of a named route whose pattern is written by well-formed
      tokens is the URL of the rendered path. */
  lemma ToRouteRenders(b: Builder, name: string, segs: seq<Segment>, params: Params, query: Params,
                       separator: string, language: Value, build: QueryBuilder)
    requires name in b.routes && b.routes[name] == Pattern(segs)
    requires WellFormed(segs) && SafeParams(params)
    ensures ToRoute(b, name, params, query, separator, language, build)
            == Success(To(b, Render(segs, params), query, separator, language, build))
  {
    RoutePathRenders(segs, params);
  }

  /** The tokens of "/articles/{id}/{slug}?" are well-formed and written as
      that pattern. */
  lemma ArticlePattern(segs: seq<Segment>)
    requires segs == [Literal("/articles/"), Param("id"), Optional("slug")]
    ensures Pattern(segs) == "/articles/{id}/{slug}?"
    ensures WellFormed(segs)
  {
    ArticleText(segs);
    ArticleTokens(segs);
  }

  lemma ArticleText(segs: seq<Segment>)
    requires segs == [Literal("/articles/"), Param("id"), Optional("slug")]
    ensures Pattern(segs) == "/articles/{id}/{slug}?"
  {
    var last := segs[2..];
    assert last == [Optional("slug")] && segs[1..] == [Param("id")] + last;
    assert Pieces(last[1..], [], false) == "";
    assert Pieces(last, [], false) == "/{slug}?";
    assert Pieces(segs[1..], [], false) == "{id}" + "/{slug}?";
  }

  lemma ArticleTokens(segs: seq<Segment>)
    requires segs == [Literal("/articles/"), Param("id"), Optional("slug")]
    ensures WellFormed(segs)
  {
    ArticleNames();
    assert TokenOk(segs[0]) && TokenOk(segs[1]) && TokenOk(segs[2]);
  }

  lemma ArticleNames()
    ensures IsName("id") && IsName("slug") && "id" != "slug"
  {
    assert !('0' <= "id"[0] <= '9');
    assert !('0' <= "slug"[0] <= '9');
  }

  /** Rendering with id 42 and an empty slug gives "/articles/42": the empty
      slug is skipped and its optional segment left out. */
  lemma ArticleRender(segs: seq<Segment>, params: Params)
    requires segs == [Literal("/articles/"), Param("id"), Optional("slug")]
    requires params == [Entry("id", Int(42)), Entry("slug", Str(""))]
    ensures Render(segs, params) == "/articles/42"
  {
    ArticleParams(params);
    assert Piece(segs[1], params, true) == "42";
    assert Piece(segs[2], params, true) == "";
    PiecesLast(segs[2..], params, true);
    assert segs[1..][1..] == segs[2..];
    assert Pieces(segs[1..], params, true) == "42" + "";
  }

  lemma PiecesLast(segs: seq<Segment>, params: Params, strip: bool)
    requires |segs| == 1
    ensures Pieces(segs, params, strip) == Piece(segs[0], params, strip)
  {
    assert segs[1..] == [];
    assert Piece(segs[0], params, strip) + "" == Piece(segs[0], params, strip);
  }

  /** id 42 is substituted as "42"; the empty slug is skipped. */
  lemma ArticleParams(params: Params)
    requires params == [Entry("id", Int(42)), Entry("slug", Str(""))]
    ensures SafeParams(params)
    ensures Filled("id", params) && FilledText("id", params) == "42"
    ensures !Filled("slug", params)
  {
    ArticleNames();
    FortyTwo();
    assert Get(params, "id") == Some(Int(42));
    assert Get(params, "slug") == Some(Str("")) by { GetAt(params, 1); }
  }

  lemma FortyTwo()
    ensures ToText(Int(42)) == "42"
  {
    assert NatText(42) == NatText(4) + [DigitChar(2)];
  }

  /** `toRoute`'s path for "/articles/{id}/{slug}?" with id 42 and an empty
      slug is "/articles/42". */
  lemma ArticleExample(segs: seq<Segment>, params: Params)
    requires segs == [Literal("/articles/"), Param("id"), Optional("slug")]
    requires params == [Entry("id", Int(42)), Entry("slug", Str(""))]
    ensures RoutePath("/articles/{id}/{slug}?", params) == "/articles/42"
  {
    ArticlePattern(segs);
    ArticleParams(params);
    ArticleRender(segs, params);
    RoutePathRenders(segs, params);
  }
}

=== FILE: sequences.dfy ===
/** Facts about sequences that the proofs cite by name, so that the solver
    does not have to rediscover them in a large context, and two notions of
    order: keeping some elements in their order, and keeping each element
    once, where it first occurs. */
module Sequences {

  lemma ConcatAssoc<T>(a: seq<T>, b: seq<T>, c: seq<T>)
    ensures a + (b + c) == (a + b) + c
  {
  }

  lemma AfterPrefix<T>(a: seq<T>, b: seq<T>)
    ensures (a + b)[|a|..] == b
  {
  }

  lemma InitLast<T>(s: seq<T>)
    requires |s| > 0
    ensures s == s[..|s| - 1] + [s[|s| - 1]]
  {
  }

  lemma TakeCons<T>(s: seq<T>, n: nat)
    requires 0 < n <= |s|
    ensures s[..n] == [s[0]] + s[1..][..n - 1]
  {
  }

  /** `s` is `t` with some elements left out and the others in their order. */
  predicate Subsequence<T(==)>(s: seq<T>, t: seq<T>)
    decreases |t|
  {
    if |t| == 0 then |s| == 0
    else Subsequence(s, t[1..]) || (|s| > 0 && s[0] == t[0] && Subsequence(s[1..], t[1..]))
  }

  /** Every occurrence of `y` in `s` comes after an occurrence of `x`: `x`
      first occurs before `y` does. */
  ghost predicate OccursFirst<T>(s: seq<T>, x: T, y: T) {
    forall q :: 0 <= q < |s| && s[q] == y ==> x in s[..q]
  }

  /** The elements of `s`, each once, in the order of their first occurrence. */
  function Distinct<T(==)>(s: seq<T>): (r: seq<T>)
    ensures forall i :: 0 <= i < |s| ==> s[i] in r
    ensures forall i :: 0 <= i < |r| ==> r[i] in s
    ensures forall i, j :: 0 <= i < j < |r| ==> r[i] != r[j]
    ensures forall i, j :: 0 <= i < j < |r| ==> OccursFirst(s, r[i], r[j])
    decreases |s|
  {
    if |s| == 0 then []
    else
      var init := s[..|s| - 1];
      var x := s[|s| - 1];
      var d := Distinct(init);
      DistinctStep(s, init, x, d);
      if x in d then d else d + [x]
  }

  /** The step of `Distinct`: appending one element to `s`. */
  lemma DistinctStep<T>(s: seq<T>, init: seq<T>, x: T, d: seq<T>)
    requires |s| > 0 && init == s[..|s| - 1] && x == s[|s| - 1]
    requires forall i :: 0 <= i < |init| ==> init[i] in d
    requires forall i :: 0 <= i < |d| ==> d[i] in init
    requires forall i, j :: 0 <= i < j < |d| ==> d[i] != d[j]
    requires forall i, j :: 0 <= i < j < |d| ==> OccursFirst(init, d[i], d[j])
    ensures var r := if x in d then d else d + [x];
            && (forall i :: 0 <= i < |s| ==> s[i] in r)
            && (forall i :: 0 <= i < |r| ==> r[i] in s)
            && (forall i, j :: 0 <= i < j < |r| ==> r[i] != r[j])
            && (forall i, j :: 0 <= i < j < |r| ==> OccursFirst(s, r[i], r[j]))
  {
    var r := if x in d then d else d + [x];
    assert s == init + [x];
    forall i | 0 <= i < |s| ensures s[i] in r {
      if i < |init| { assert s[i] == init[i]; }
    }
    forall i | 0 <= i < |r| ensures r[i] in s {
      if i < |d| { assert r[i] == d[i] && d[i] in init; }
    }
    forall i, j, q | 0 <= i < j < |r| && 0 <= q < |s| && s[q] == r[j]
      ensures r[i] in s[..q]
    {
      assert r[i] == d[i] && r[i] in init;
      if q < |init| {
        assert s[q] == init[q] && s[..q] == init[..q];
        assert r[j] in d;
        if j < |d| {
          assert OccursFirst(init, d[i], d[j]);
        } else {
          assert false;
        }
      } else {
        assert s[..q] == init;
      }
    }
  }
}

=== FILE: url_builder.dfy ===
/** The URL builder of src/mako/http/routing/URLBuilder.php. The request and
    the route collection are reduced to the strings the builder reads from
    them; `http_build_query` is a function parameter. */
module UrlBuilder {
  import opened Wrappers
  import opened Php
  import opened PhpArray
  import opened Sequences

  /** Query or route parameters: an ordered PHP array. */
  type Params = seq<Entry<Value>>

  /** What the builder reads from the current request. */
  datatype Request = Request(
    scriptName: string,
    languagePrefix: string,
    baseURL: string,
    path: string,
    query: Params)

  /** The named routes: route name → route pattern. */
  type Routes = map<string, string>

  /** `http_build_query($params, '', $separator)`, whose encoding is not
      modelled. */
  type QueryBuilder = (Params, string) -> string

  /** The builder's state. `baseURL` is null (None) until configured or
      first computed; `languagePrefix` is "" when the request has no
      language (PHP's unset property reads as null, which concatenates as
      ""). */
  datatype Builder = Builder(
    request: Request,
    routes: Routes,
    cleanURLs: bool,
    baseURL: Option<string>,
    languagePrefix: string)

  datatype Error = UnknownRoute(name: string)

  // ---------------------------------------------------------------------------
  // Construction and base URL

  /** The constructor: "/" + the request language, unless that is empty in
      PHP's sense ("" or "0"). */
  function New(request: Request, routes: Routes, cleanURLs: bool, baseURL: Option<string>): (b: Builder)
    ensures b.request == request && b.routes == routes && b.cleanURLs == cleanURLs && b.baseURL == baseURL
    ensures b.languagePrefix == "" <==> IsEmptyString(request.languagePrefix)
    ensures b.languagePrefix != "" ==> b.languagePrefix[0] == '/' && b.languagePrefix[1..] == request.languagePrefix
    ensures b == InLanguage(b, request.languagePrefix)
  {
    var prefix := if IsEmptyString(request.languagePrefix) then "" else "/" + request.languagePrefix;
    Builder(request, routes, cleanURLs, baseURL, prefix)
  }

  /** `empty($this->baseURL)`. */
  predicate NoBaseURL(b: Builder) {
    b.baseURL.None? || IsEmptyString(b.baseURL.value)
  }

  /** `base()`: the configured base URL unless empty, otherwise the request's,
      which is then remembered. */
  function Base(b: Builder): (r: (string, Builder))
    ensures !NoBaseURL(b) ==> r == (b.baseURL.value, b)
    ensures NoBaseURL(b) ==> r == (b.request.baseURL, b.(baseURL := Some(b.request.baseURL)))
    ensures r.1.baseURL == Some(r.0)
    ensures r.1.(baseURL := b.baseURL) == b
  {
    if NoBaseURL(b) then
      var url := b.request.baseURL;
      (url, b.(baseURL := Some(url)))
    else (b.baseURL.value, b)
  }

  /** Remembering the base URL changes no later answer: asking again gives
      the same URL and leaves the builder as it is. */
  lemma BaseIsStable(b: Builder)
    ensures Base(Base(b).1) == Base(b)
    ensures Base(b).1.(baseURL := b.baseURL) == b
  {
  }

  // ---------------------------------------------------------------------------
  // to

  /** The language part of a URL: the request's prefix for `true`, nothing
      for a falsy value, otherwise "/" and the value as a string. */
  function LanguageSegment(b: Builder, language: Value): (r: string)
    ensures language == Bool(true) ==> r == b.languagePrefix
    ensures language != Bool(true) && IsEmpty(language) ==> r == ""
    ensures language != Bool(true) && !IsEmpty(language) ==> |r| > 1 && r[0] == '/' && r[1..] == ToText(language)
    ensures language.Str? ==> r == InLanguage(b, language.s).languagePrefix
  {
    if language == Bool(true) then b.languagePrefix
    else if IsEmpty(language) then ""
    else
      assert ToText(language) != "" by {
        if language.Int? { assert |IntText(language.i)| > 0; }
      }
      "/" + ToText(language)
  }

  /** The script-name part: nothing with clean URLs, "/" + script otherwise. */
  function ScriptSegment(b: Builder): string {
    if b.cleanURLs then "" else "/" + b.request.scriptName
  }

  /** The URL without its query: base, script segment, language segment and
      path. */
  function Location(b: Builder, path: string, language: Value): string {
    Base(b).0 + ScriptSegment(b) + LanguageSegment(b, language) + path
  }

  /** Every location starts with the base URL and ends with the path. */
  lemma LocationFrame(b: Builder, path: string, language: Value)
    ensures var r := Location(b, path, language);
            && |Base(b).0| <= |r| && r[..|Base(b).0|] == Base(b).0
            && |path| <= |r| && r[|r| - |path|..] == path
  {
    var r := Location(b, path, language);
    assert r == Base(b).0 + (ScriptSegment(b) + LanguageSegment(b, language) + path);
  }

  /** `to($path, $queryParams, $separator, $language)`. The builder's
      remembered base URL is not threaded through: `BaseIsStable` shows it
      changes nothing. */
  function To(b: Builder, path: string, query: Params, separator: string, language: Value, build: QueryBuilder): (r: string)
    ensures |query| == 0 ==> r == Location(b, path, language)
    ensures |query| > 0 ==> r == Location(b, path, language) + "?" + build(query, separator)
    ensures |Base(b).0| <= |r| && r[..|Base(b).0|] == Base(b).0
    ensures |query| == 0 ==> |path| <= |r| && r[|r| - |path|..] == path
  {
    var url := Location(b, path, language);
    LocationFrame(b, path, language);
    if |query| == 0 then url else url + "?" + build(query, separator)
  }

  /** With clean URLs the script name is dropped and nothing else changes. */
  lemma CleanURLsDropScriptName(b: Builder, path: string, language: Value)
    ensures var base := Base(b).0;
            var clean := Location(b.(cleanURLs := true), path, language);
            && |base| <= |clean|
            && Location(b.(cleanURLs := false), path, language) == base + "/" + b.request.scriptName + clean[|base|..]
  {
    var tail := LanguageSegment(b, language) + path;
    CleanLocation(b, path, language);
    ScriptLocation(b, path, language);
    AfterPrefix(Base(b).0, tail);
  }

  lemma CleanLocation(b: Builder, path: string, language: Value)
    ensures Location(b.(cleanURLs := true), path, language) == Base(b).0 + (LanguageSegment(b, language) + path)
  {
    var bt := b.(cleanURLs := true);
    assert Base(bt).0 == Base(b).0 && LanguageSegment(bt, language) == LanguageSegment(b, language);
    ConcatAssoc(Base(b).0, LanguageSegment(b, language), path);
    assert Base(b).0 + "" == Base(b).0;
  }

  lemma ScriptLocation(b: Builder, path: string, language: Value)
    ensures Location(b.(cleanURLs := false), path, language)
            == Base(b).0 + "/" + b.request.scriptName + (LanguageSegment(b, language) + path)
  {
    var bf := b.(cleanURLs := false);
    assert Base(bf).0 == Base(b).0 && LanguageSegment(bf, language) == LanguageSegment(b, language);
    ConcatAssoc(Base(b).0 + "/" + b.request.scriptName, LanguageSegment(b, language), path);
    ConcatAssoc(Base(b).0, "/", b.request.scriptName);
  }

  /** Passing `true` as the language is passing the request's own language,
      and a request without a language is like passing a falsy one. */
  lemma DefaultLanguageIsRequestLanguage(request: Request, routes: Routes, cleanURLs: bool, baseURL: Option<string>,
                                         path: string, query: Params, separator: string, build: QueryBuilder)
    ensures var b := New(request, routes, cleanURLs, baseURL);
            To(b, path, query, separator, Bool(true), build)
            == To(b, path, query, separator, if IsEmptyString(request.languagePrefix) then Bool(false) else Str(request.languagePrefix), build)
  {
  }

  // ---------------------------------------------------------------------------
  // toRoute: placeholder substitution

  /** Route parameter values `toRoute` skips: exactly '', false and null
      (0 and "0" are empty but are still substituted). */
  predicate Skipped(v: Value) {
    IsEmpty(v) && (v == Str("") || v == Bool(false) || v == Null)
  }

  /** The placeholder `{key}`. */
  function Placeholder(key: string): string {
    "{" + key + "}"
  }

  /** `pat` occurs in `s` at index `i`. */
  predicate OccursAt(s: string, pat: string, i: int) {
    0 <= i && i + |pat| <= |s| && s[i..i + |pat|] == pat
  }

  /** `i` is the leftmost occurrence of `pat` in `s`. */
  predicate FirstOccurrence(s: string, pat: string, i: int) {
    OccursAt(s, pat, i) && forall j :: 0 <= j < i ==> !OccursAt(s, pat, j)
  }

  /** Where a match ending at `j` really ends: the optional `\??` takes a
      following '?'. */
  function AfterMatch(s: string, j: nat): (k: nat)
    requires j <= |s|
    ensures j <= k <= |s|
  {
    if j < |s| && s[j] == '?' then j + 1 else j
  }

  /** `preg_replace('/{' . $key . '}\??/', $text, $s, 1)`: the first `{key}`,
      with a '?' right after it, is replaced by `text`. The key is taken
      literally. */
  function ReplaceFirst(s: string, key: string, text: string): string {
    ReplaceFrom(s, key, text, 0)
  }

  /** The search for `{key}` from index `i` on. */
  function ReplaceFrom(s: string, key: string, text: string, i: nat): string
    requires i <= |s|
    decreases |s| - i
  {
    var pat := Placeholder(key);
    if i + |pat| > |s| then s
    else if OccursAt(s, pat, i) then s[..i] + text + s[AfterMatch(s, i + |pat|)..]
    else ReplaceFrom(s, key, text, i + 1)
  }

  /** A search from `i` that meets no occurrence changes nothing. */
  lemma {:induction false} ReplaceFromNone(s: string, key: string, text: string, i: nat)
    requires i <= |s|
    requires forall j :: i <= j <= |s| ==> !OccursAt(s, Placeholder(key), j)
    ensures ReplaceFrom(s, key, text, i) == s
    decreases |s| - i
  {
    if i + |Placeholder(key)| <= |s| {
      ReplaceFromNone(s, key, text, i + 1);
    }
  }

  /** A search from `i` splices at the first occurrence `m` it meets. */
  lemma {:induction false} ReplaceFromFirst(s: string, key: string, text: string, i: nat, m: nat)
    requires i <= m && OccursAt(s, Placeholder(key), m)
    requires forall j :: i <= j < m ==> !OccursAt(s, Placeholder(key), j)
    ensures ReplaceFrom(s, key, text, i) == s[..m] + text + s[AfterMatch(s, m + |Placeholder(key)|)..]
    decreases m - i
  {
    if i < m {
      ReplaceFromFirst(s, key, text, i + 1, m);
    }
  }

  /** `ReplaceFirst` leaves a string without `{key}` alone. */
  lemma ReplaceFirstWithoutMatch(s: string, key: string, text: string)
    requires forall i :: 0 <= i <= |s| ==> !OccursAt(s, Placeholder(key), i)
    ensures ReplaceFirst(s, key, text) == s
  {
    ReplaceFromNone(s, key, text, 0);
  }

  /** `ReplaceFirst` splices `text` over the leftmost `{key}` and a '?' right
      after it. */
  lemma ReplaceFirstAtFirst(s: string, key: string, text: string, i: nat)
    requires FirstOccurrence(s, Placeholder(key), i)
    ensures ReplaceFirst(s, key, text) == s[..i] + text + s[AfterMatch(s, i + |Placeholder(key)|)..]
  {
    ReplaceFromFirst(s, key, text, 0, i);
  }

  /** Without a match at its start, `ReplaceFirst` keeps the first character
      and searches on. */
  lemma ReplaceFirstNoMatchAtStart(s: string, key: string, text: string)
    requires |s| > 0 && !OccursAt(s, Placeholder(key), 0)
    ensures ReplaceFirst(s, key, text) == [s[0]] + ReplaceFirst(s[1..], key, text)
  {
    assert ReplaceFrom(s, key, text, 0) == ReplaceFrom(s, key, text, 1);
    ReplaceFromShift(s, key, text, 1);
  }

  /** A string whose `k`-th character differs from the placeholder's does not
      match at its start. */
  lemma ReplaceFirstPass(s: string, key: string, text: string, k: nat)
    requires |s| > 0 && k < |Placeholder(key)|
    requires k < |s| ==> s[k] != Placeholder(key)[k]
    ensures ReplaceFirst(s, key, text) == [s[0]] + ReplaceFirst(s[1..], key, text)
  {
    var pat := Placeholder(key);
    if |pat| <= |s| {
      assert s[0..|pat|][k] != pat[k];
    }
    ReplaceFirstNoMatchAtStart(s, key, text);
  }

  /** Searching `s` from `i > 0` is searching `s[1..]` from `i - 1`, after
      `s[0]`. */
  lemma {:induction false} ReplaceFromShift(s: string, key: string, text: string, i: nat)
    requires 1 <= i <= |s|
    ensures ReplaceFrom(s, key, text, i) == [s[0]] + ReplaceFrom(s[1..], key, text, i - 1)
    decreases |s| - i
  {
    var pat := Placeholder(key);
    if i + |pat| > |s| {
      ShiftNoRoom(s, key, text, i);
    } else if OccursAt(s, pat, i) {
      ShiftMatch(s, key, text, i);
    } else {
      ReplaceFromShift(s, key, text, i + 1);
      ShiftMiss(s, key, text, i);
    }
  }

  lemma ShiftNoRoom(s: string, key: string, text: string, i: nat)
    requires 1 <= i <= |s| && i + |Placeholder(key)| > |s|
    ensures ReplaceFrom(s, key, text, i) == [s[0]] + ReplaceFrom(s[1..], key, text, i - 1)
  {
    assert s == [s[0]] + s[1..];
  }

  lemma ShiftMatch(s: string, key: string, text: string, i: nat)
    requires 1 <= i && i + |Placeholder(key)| <= |s| && OccursAt(s, Placeholder(key), i)
    ensures ReplaceFrom(s, key, text, i) == [s[0]] + ReplaceFrom(s[1..], key, text, i - 1)
  {
    var pat := Placeholder(key);
    var t := s[1..];
    assert t[i - 1..i - 1 + |pat|] == s[i..i + |pat|];
    assert OccursAt(t, pat, i - 1);
    ReplaceFromAtMatch(s, key, text, i);
    ReplaceFromAtMatch(t, key, text, i - 1);
    ShiftSplice(s, i, |pat|, text);
  }

  /** A search from an occurrence replaces that occurrence. */
  lemma ReplaceFromAtMatch(s: string, key: string, text: string, i: nat)
    requires OccursAt(s, Placeholder(key), i)
    ensures ReplaceFrom(s, key, text, i) == s[..i] + text + s[AfterMatch(s, i + |Placeholder(key)|)..]
  {
  }

  lemma ShiftMiss(s: string, key: string, text: string, i: nat)
    requires 1 <= i && i + |Placeholder(key)| <= |s| && !OccursAt(s, Placeholder(key), i)
    requires ReplaceFrom(s, key, text, i + 1) == [s[0]] + ReplaceFrom(s[1..], key, text, i)
    ensures ReplaceFrom(s, key, text, i) == [s[0]] + ReplaceFrom(s[1..], key, text, i - 1)
  {
    var pat := Placeholder(key);
    var t := s[1..];
    assert t[i - 1..i - 1 + |pat|] == s[i..i + |pat|];
    assert !OccursAt(t, pat, i - 1);
  }

  /** Splicing at `i` in `s` is splicing at `i - 1` in `s[1..]`, after `s[0]`. */
  lemma ShiftSplice(s: string, i: nat, n: nat, text: string)
    requires 1 <= i && i + n <= |s|
    ensures [s[0]] + (s[1..][..i - 1] + text + s[1..][AfterMatch(s[1..], i - 1 + n)..])
            == s[..i] + text + s[AfterMatch(s, i + n)..]
  {
    assert AfterMatch(s[1..], i - 1 + n) + 1 == AfterMatch(s, i + n);
    assert [s[0]] + s[1..][..i - 1] == s[..i];
  }

  /** The loop over the route parameters, in order. */
  function SubstituteAll(route: string, params: Params): string
    decreases |params|
  {
    if |params| == 0 then route
    else
      var s := SubstituteAll(route, params[..|params| - 1]);
      var e := params[|params| - 1];
      if Skipped(e.value) then s else ReplaceFirst(s, e.key, ToText(e.value))
  }

  // ---------------------------------------------------------------------------
  // toRoute: stripping unfilled optional segments

  /** PCRE's `\w` without the u modifier. */
  predicate IsWordChar(c: char) {
    ('a' <= c <= 'z') || ('A' <= c <= 'Z') || ('0' <= c <= '9') || c == '_'
  }

  /** The length of the longest prefix of word characters. */
  function WordRun(s: string): (n: nat)
    ensures n <= |s|
    ensures forall k :: 0 <= k < n ==> IsWordChar(s[k])
    ensures n < |s| ==> !IsWordChar(s[n])
    decreases |s|
  {
    if |s| > 0 && IsWordChar(s[0]) then 1 + WordRun(s[1..]) else 0
  }

  /** The length of a match of `/\/{\w+}\?/` at the start of `s`, or 0. */
  function OptionalAt(s: string): (n: nat)
    ensures n <= |s|
    ensures n > 0 ==> n >= 5 && s[0] == '/' && s[1] == '{' && s[n - 2] == '}' && s[n - 1] == '?'
  {
    if |s| >= 2 && s[0] == '/' && s[1] == '{' then
      var w := WordRun(s[2..]);
      if w > 0 && 2 + w + 1 < |s| && s[2 + w] == '}' && s[3 + w] == '?' then w + 4 else 0
    else 0
  }

  /** `preg_replace('/\/{\w+}\?/', '', $s)`: every match removed, scanning
      left to right and resuming after each removed match. */
  function RemoveOptionals(s: string): (r: string)
    ensures |r| <= |s|
    decreases |s|
  {
    if |s| == 0 then ""
    else
      var n := OptionalAt(s);
      if n > 0 then RemoveOptionals(s[n..]) else [s[0]] + RemoveOptionals(s[1..])
  }

  /** Every removed match ends in '?', so the `strpos` test in front of the
      removal changes nothing. */
  lemma {:induction false} RemoveOptionalsWithoutQuestionMark(s: string)
    requires '?' !in s
    ensures RemoveOptionals(s) == s
    decreases |s|
  {
    if |s| > 0 {
      assert forall k :: 0 <= k < |s| ==> s[k] != '?';
      assert '?' !in s[1..] by {
        forall k | 0 <= k < |s| - 1 ensures s[1..][k] != '?' {
          assert s[1..][k] == s[k + 1];
          assert s[k + 1] in s;
        }
      }
      RemoveOptionalsWithoutQuestionMark(s[1..]);
    }
  }

  /** The route path `toRoute` builds from a pattern and parameters. */
  function RoutePath(route: string, params: Params): string {
    var s := SubstituteAll(route, params);
    if '?' in s then RemoveOptionals(s) else s
  }

  /** The removal scans once: a match that only appears once an inner one is
      removed stays. */
  lemma RemovalDoesNotRescan(s: string)
    requires s == "/{/{a}?b}?"
    ensures RemoveOptionals(s) == "/{b}?"
  {
    var t := s[2..];
    assert t == "/{a}?b}?";
    KeepSlashBrace(s);
    RescanInner(t);
    RescanJoin("/{", RemoveOptionals(t));
  }

  lemma RescanJoin(prefix: string, rest: string)
    requires prefix == "/{" && rest == "b}?"
    ensures prefix + rest == "/{b}?"
  {
  }

  /** A "/{" not followed by a word character is no match and stays. */
  lemma KeepSlashBrace(s: string)
    requires |s| > 2 && s[0] == '/' && s[1] == '{' && !IsWordChar(s[2])
    ensures RemoveOptionals(s) == "/{" + RemoveOptionals(s[2..])
  {
    var t := s[1..];
    assert s[2..][0] == s[2];
    assert OptionalAt(s) == 0;
    KeepFirst(s);
    assert t[0] == '{' && t[1..] == s[2..];
    KeepFirst(t);
    assert [s[0]] + ([t[0]] + RemoveOptionals(s[2..])) == "/{" + RemoveOptionals(s[2..]);
  }

  /** No match at the start: the first character stays. */
  lemma KeepFirst(s: string)
    requires |s| > 0 && OptionalAt(s) == 0
    ensures RemoveOptionals(s) == [s[0]] + RemoveOptionals(s[1..])
  {
  }

  /** The inner match goes, and what follows it is kept. */
  lemma RescanInner(t: string)
    requires t == "/{a}?b}?"
    ensures RemoveOptionals(t) == "b}?"
  {
    var u := t[5..];
    assert u == "b}?";
    RescanRest(u);
    assert t[2..] == "a}?b}?";
    assert WordRun(t[2..]) == 1 by { assert WordRun(t[3..]) == 0; }
    assert OptionalAt(t) == 5;
  }

  lemma RescanRest(u: string)
    requires u == "b}?"
    ensures RemoveOptionals(u) == u
  {
    assert OptionalAt(u) == 0 && OptionalAt(u[1..]) == 0 && OptionalAt(u[2..]) == 0;
    assert RemoveOptionals(u[2..]) == "?" by { assert u[2..][1..] == ""; }
    assert RemoveOptionals(u[1..]) == "}?" by { assert u[1..][1..] == u[2..]; }
  }

  /** `toRoute`: the named route's pattern with the parameters filled in and
      unfilled optional segments removed, as a URL. An unknown route name is
      an error. */
  function ToRoute(b: Builder, name: string, routeParams: Params, query: Params, separator: string,
                   language: Value, build: QueryBuilder): (r: Result<string, Error>)
    ensures r.Failure? <==> name !in b.routes
    ensures r.Failure? ==> r.error == UnknownRoute(name)
    ensures r.Success? ==> r.value == To(b, RoutePath(b.routes[name], routeParams), query, separator, language, build)
  {
    if name !in b.routes then Failure(UnknownRoute(name))
    else Success(To(b, RoutePath(b.routes[name], routeParams), query, separator, language, build))
  }

  // ---------------------------------------------------------------------------
  // current and the language variants

  /** `current()`: the request path, with the given query or, when that is
      empty, the request's own. */
  function Current(b: Builder, query: Params, separator: string, language: Value, build: QueryBuilder): (r: string)
    ensures |query| > 0 ==> r == To(b, b.request.path, query, separator, language, build)
    ensures |query| == 0 ==> r == To(b, b.request.path, b.request.query, separator, language, build)
    ensures |Base(b).0| <= |r| && r[..|Base(b).0|] == Base(b).0
  {
    To(b, b.request.path, if |query| > 0 then query else b.request.query, separator, language, build)
  }

  /** The builder as the constructor would have set it up for a request in
      `language`. */
  function InLanguage(b: Builder, language: string): Builder {
    b.(languagePrefix := if IsEmptyString(language) then "" else "/" + language)
  }

  /** Naming a language string gives the URL the builder would give by
      default if the request were in that language. */
  lemma NamedLanguage(b: Builder, language: string, path: string, query: Params, separator: string, build: QueryBuilder)
    ensures To(b, path, query, separator, Str(language), build)
            == To(InLanguage(b, language), path, query, separator, Bool(true), build)
  {
    var other := InLanguage(b, language);
    assert Base(other).0 == Base(b).0;
    assert ScriptSegment(other) == ScriptSegment(b);
    assert LanguageSegment(other, Bool(true)) == LanguageSegment(b, Str(language));
  }

  /** `toLanguage`: a string language is as if the request were in it. */
  function ToLanguage(b: Builder, route: string, language: Value, query: Params, separator: string, build: QueryBuilder): (r: string)
    ensures language.Str? ==> r == To(InLanguage(b, language.s), route, query, separator, Bool(true), build)
  {
    if language.Str? then
      NamedLanguage(b, language.s, route, query, separator, build);
      To(b, route, query, separator, language, build)
    else To(b, route, query, separator, language, build)
  }

  /** `toRouteLanguage`: the named route's URL as if the request were in
      `language`. */
  function ToRouteLanguage(b: Builder, name: string, language: string, routeParams: Params, query: Params,
                           separator: string, build: QueryBuilder): (r: Result<string, Error>)
    ensures r == ToRoute(InLanguage(b, language), name, routeParams, query, separator, Bool(true), build)
  {
    if name in b.routes then
      NamedLanguage(b, language, RoutePath(b.routes[name], routeParams), query, separator, build);
      ToRoute(b, name, routeParams, query, separator, Str(language), build)
    else ToRoute(b, name, routeParams, query, separator, Str(language), build)
  }

  /** `currentLanguage`: the current URL as if the request were in
      `language`. */
  function CurrentLanguage(b: Builder, language: string, query: Params, separator: string, build: QueryBuilder): (r: string)
    ensures r == Current(InLanguage(b, language), query, separator, Bool(true), build)
  {
    NamedLanguage(b, language, b.request.path, if |query| > 0 then query else b.request.query, separator, build);
    Current(b, query, separator, Str(language), build)
  }

  /** Asking for a language explicitly gives the URL the same request would
      give if it were in that language. */
  lemma ExplicitLanguageIsRequestLanguage(request: Request, routes: Routes, cleanURLs: bool, baseURL: Option<string>,
                                          language: string, path: string, query: Params, separator: string,
                                          build: QueryBuilder)
    ensures var b := New(request, routes, cleanURLs, baseURL);
            var other := New(request.(languagePrefix := language), routes, cleanURLs, baseURL);
            && ToLanguage(b, path, Str(language), query, separator, build) == To(other, path, query, separator, Bool(true), build)
            && CurrentLanguage(b, language, query, separator, build) == Current(other, query, separator, Bool(true), build)
  {
    var b := New(request, routes, cleanURLs, baseURL);
    var other := New(request.(languagePrefix := language), routes, cleanURLs, baseURL);
    var same := InLanguage(b, language);
    assert same.languagePrefix == other.languagePrefix;
    // The two builders differ only in the request's own language, which
    // neither `to` nor `current` reads.
    LanguageIrrelevant(same, other, path, query, separator, build);
  }

  /** `to` and `current` read the request's path, query, script name and base
      URL, but not its language: the constructor has already turned that into
      the builder's prefix. */
  lemma LanguageIrrelevant(b: Builder, c: Builder, path: string, query: Params, separator: string, build: QueryBuilder)
    requires c == b.(request := b.request.(languagePrefix := c.request.languagePrefix))
    ensures To(b, path, query, separator, Bool(true), build) == To(c, path, query, separator, Bool(true), build)
    ensures Current(b, query, separator, Bool(true), build) == Current(c, query, separator, Bool(true), build)
  {
    assert Base(b).0 == Base(c).0;
    assert ScriptSegment(b) == ScriptSegment(c);
  }
}

=== FILE: wrappers.dfy ===
/** Option and Result values used in place of PHP's null and exceptions. */
module Wrappers {

  datatype Option<+T> = None | Some(value: T) {

    /** The wrapped value, or `default` when there is none (PHP's `??`). */
    function GetOr(default: T): T {
      match this
      case Some(v) => v
      case None => default
    }
  }

  /** A value, or the exception the PHP code would have thrown. */
  datatype Result<+R, +E> = Success(value: R) | Failure(error: E) {

    /** Applies `f` to a successful value; a failure passes through untouched,
        as an exception passes through PHP code that does not catch it. */
    function MapSuccess<S>(f: R -> S): Result<S, E> {
      match this
      case Success(v) => Success(f(v))
      case Failure(e) => Failure(e)
    }
  }
}
